=== FILE: README.md ===
# AnnePro2-Shine backlight controller, modelled in Dafny

This project models the firmware that runs on the LED co-processor of the
Anne Pro 2 keyboard. The main keyboard controller sends it commands over a
serial line. The co-processor keeps a 70-key colour buffer (5 rows × 14
columns, four bytes per key: blue, green, red, alpha) and a table of 14
lighting profiles. It drives the LED matrix by software PWM from a timer
interrupt. The model covers:

- `Protocol`: the framed serial protocol. This is the six-state receiver
  automaton (sync 0x7A 0x1D, command, id, size, payload), with the 230-byte
  size clamp, the error counter, duplicate suppression by message id and the
  silence reset. It also covers the transmitter as a byte-sequence builder.
- `Commands`: the framed command dispatcher. This covers profile, intensity and
  speed stepping, key-down forwarding, and per-key, per-row and mono writes
  into the mask, colour and sticky layers. It also covers sticky-key
  bookkeeping that may switch the matrix on or off, and the status reply.
- `Link`: the receiver wired to the dispatcher, byte by byte.
- `Legacy`: the older unframed dispatcher. It reads one-byte commands, then
  reads each command's argument bytes from the remaining input; a byte with
  the high bit set is a key press.
- `Scheduler`: the profile scheduler state. This covers profile selection,
  intensity and speed, the animation cadence and key-press hooks.
- `Matrix`: the timer tick as a pure step function. This covers the row dimmer,
  the column advance, and the animation call at the column-cycle boundary.
- `LightUtils`, `FastLed`, `Fills`, `Profiles`, `Settings`, `Led`, `Board`:
  the colour helpers, integer HSV→RGB conversion and dimming, the static and
  animated effects with their per-call state, and the profile table.

Hardware effects are turned into data. GPIO lines become a record of
booleans (`Matrix.Lines`), and serial output becomes the byte sequence that
would be written. A serial read becomes the sequence of bytes that arrived.
The effects whose bodies are not part of this model (`white`, `reactiveFade`,
`reactivePulse` and their key-press and init hooks) are passed in as an
`Externals` record of functions. The command byte values that no shown header
defines are passed in as a code table (a map from byte to command), so every
dispatcher lemma holds for any assignment of codes. Lemmas that depend on the
shown values say so through a predicate on the table: `Commands.StandardCodes`
or `Legacy.HeaderCodes`.

A few facts about the firmware shape the model:

- The refresh in source/matrix.c reads only `ledColors`. The mask, sticky
  and foreground buffers are stored but never composited, so the model
  stores them and composites nothing.
- Intensity subtracts 30 per step (`dimValue` in source/miniFastLED.c,
  `FastLed.DimValue`).
- The framed `executeProfile` keeps the foreground flag, while main.c's
  clears it. Each path is modelled as written (`Scheduler.ExecuteProfile`
  vs `Legacy.ExecuteProfile`).
- Intensity and speed are only ever stepped, never cleared.

## Model

| member | source | states |
|---|---|---|
| Bytes.Wrap8 | source/protocol.h:93 | the result is the 8-bit residue of the input, and equals it when it already fits, as a `uint8_t` store does |
| Bytes.ToInt8 | source/miniFastLED.h:55-59 | the result is the `int8_t` value congruent to the input mod 256, as the narrowing return of `dimValue` does |
| Bytes.Take | main.c:146 | a serial read of at most n bytes yields the first min(n, available) bytes that arrived |
| Board.RowCol2IdxBijective | source/matrix.h:9 | for in-range row and column the key index is below 70 and gives back the row (index div 14) and the column (index mod 14) |
| Board.RowCol2IdxInjective | source/matrix.h:9 | two in-range (row, column) pairs map to the same key index only if they are equal |
| Led.Zeros | main.c:204 | the zeroed buffer is black at every key |
| Led.UnpackPack | source/commands.c:95-98 | reading the 32-bit word of a colour record gives back the same blue, green, red and alpha bytes |
| Led.PackUnpack | source/light_utils.c:41 | every 32-bit word written to a key is exactly the packed form of its four channel bytes |
| LightUtils.ApplyIdempotent | source/light_utils.c:27-31 | painting a key twice with the same paint is the same as painting it once |
| LightUtils.WriteKeys | source/light_utils.c:34-38 | writing a paint at a list of key indices changes exactly the listed keys and leaves every other key unchanged |
| LightUtils.RowIdsMembers | source/miniFastLED.c:137-150 | a key belongs to a row's index list exactly when its index div 14 is that row |
| LightUtils.ColumnIdsMembers | source/miniFastLED.c:121-134 | a key belongs to a column's index list exactly when its index mod 14 is that column |
| LightUtils.ModKeyIdsWellFormed | source/light_utils.c:18-20 | the modifier-key list has 23 strictly increasing entries, all below 70, so its writes are in bounds and distinct |
| LightUtils.SetAllKeysColor | source/light_utils.c:27-31 | every one of the 70 keys holds the given colour afterwards |
| LightUtils.SetModKeysColor | source/light_utils.c:34-38 | the modifier keys hold the colour afterwards and every other key is unchanged |
| LightUtils.SetKeyColor | source/light_utils.c:41 | the addressed key holds the colour and no other key changes |
| FastLed.DimValue | source/miniFastLED.h:55-60 | the dimmed value never exceeds the input; for intensity 0..7 it is the input minus 30 per step, floored at 0 |
| FastLed.DimFullIntensity | source/miniFastLED.h:55-60 | intensity 0 leaves every channel value unchanged |
| FastLed.DimMonotone | source/miniFastLED.h:55-60 | a higher intensity step (up to 7) never gives a brighter value |
| FastLed.NaiveDimLed | source/miniFastLED.h:63-67 | blue, green and red are each dimmed no brighter than before, alpha is kept, and intensity 0 changes nothing |
| FastLed.NaiveDimRgb | source/miniFastLED.h:70-75 | dimming a packed word agrees with dimming its unpacked record, and keeps the top (alpha) byte |
| FastLed.BrightnessFloor | source/miniFastLED.c:30-31 | the brightness floor never exceeds the value and is 0 at full saturation |
| FastLed.RampWithFloor | source/miniFastLED.c:76-81 | a scaled ramp plus the floor stays between the floor and floor plus amplitude, so the 8-bit sum cannot overflow |
| FastLed.Hsv2Rgb | source/miniFastLED.c:18-103 | every channel lies between the brightness floor and the value, and the channel sitting at the floor is blue, red or green according to the hue section (section 3 treated as section 2) |
| FastLed.SetAllKeysColorHsv | source/miniFastLED.c:106-118 | all 70 keys get the same converted colour and keep their alpha |
| FastLed.SetColumnColorHsv | source/miniFastLED.c:121-134 | exactly the five keys of the column get the converted colour; all others are unchanged |
| FastLed.SetRowColorHsv | source/miniFastLED.c:137-150 | exactly the fourteen keys of the row get the converted colour; all others are unchanged |
| Fills.RainbowLedsUnpackPalette | source/profiles.c:7-8 | the seven rainbow records are the unpacked palette words |
| Fills.PaintColumn | source/profiles.c:39-43 | writing one column key by key changes exactly the five keys of that column, each to the paint applied over its old colour |
| Fills.PaintRow | source/profiles.c:30-34 | writing one row key by key changes exactly the fourteen keys of that row |
| Fills.ColumnLoopFrom | source/profiles.c:38-45 | the column loop started at column c leaves columns before c as they were and gives every later key its own column's paint |
| Fills.RowLoopFrom | source/profiles.c:29-36 | the row loop started at row r leaves rows before r as they were and gives every later key its own row's paint |
| Fills.ColumnLoopPaintsColumns | source/profiles.c:38-45 | for every buffer and palette, the column-by-column loop ends in the closed form `PaintColumns`: every key takes the paint of its own column |
| Fills.RowLoopPaintsRows | source/profiles.c:29-36 | for every buffer and palette, the row-by-row loop ends in the closed form `PaintRows`: every key takes the paint of its own row |
| Fills.HsvColumnWrite | source/miniFastLED.c:121-134 | `setColumnColorHSV` is the column write of the converted colour, keeping each key's alpha |
| Fills.HsvRowWrite | source/miniFastLED.c:137-150 | `setRowColorHSV` is the row write of the converted colour, keeping each key's alpha |
| Fills.HsvColumnLoopIsColumnLoop | source/profiles.c:62-63 | calling `setColumnColorHSV` for columns c..13 is the generic column loop over the converted colours |
| Fills.HsvRowLoopIsRowLoop | source/profiles.c:74-76 | calling `setRowColorHSV` for rows r..4 is the generic row loop over the converted colours |
| Fills.HsvColumnLoopPaints | source/profiles.c:62-63 | the whole `setColumnColorHSV` loop gives every key the converted colour of its column's hue and value |
| Fills.FlowLoopIsFill | source/profiles.c:61-69 | the flow frame computed column by column with `setColumnColorHSV` is the closed form `HueColumnsFill` |
| Fills.WaterfallLoopIsFill | source/profiles.c:73-82 | the waterfall frame computed row by row with `setRowColorHSV` is the closed form `HueRowsFill` |
| Fills.WaveLoopIsFill | source/profiles.c:116-126 | the wave frame computed column by column with `setColumnColorHSV` is the closed form `BrightnessColumnsFill` |
| Fills.ShiftedColumns | source/profiles.c:49-55 | painting columns with the shifted palette gives key k the palette entry (k mod 14 + offset) mod 7 |
| Fills.HueColumns | source/profiles.c:62-63 | painting each column with its own hue gives every key the converted colour of its column's hue |
| Fills.HueRows | source/profiles.c:74-76 | painting each row with its own hue gives every key the converted colour of its row's hue |
| Fills.BrightnessColumns | source/profiles.c:123 | painting each column with its own brightness gives every key hue 190 at its column's brightness |
| Profiles.Red | source/profiles.c:12-14 | every key is pure red |
| Profiles.Green | source/profiles.c:16-18 | every key is pure green |
| Profiles.Blue | source/profiles.c:20-22 | every key is pure blue |
| Profiles.MiamiNights | source/profiles.c:24-27 | modifier keys get the pink colour and all other keys the cyan colour |
| Profiles.RainbowHorizontal | source/profiles.c:29-36 | every key in row i gets palette entry i mod 7 |
| Profiles.RainbowVertical | source/profiles.c:38-45 | every key in column i gets palette entry i mod 7 |
| Profiles.AnimatedRainbowVertical | source/profiles.c:47-57 | column i is painted with palette entry (i + offset) mod 7, and the offset advances by one mod 7, staying in 0..6 |
| Profiles.FlowStep | source/profiles.c:64-67 | a hue in [179, 240) jumps to 243, others advance by 3 with 8-bit wrap, so no hue in [182, 243) is ever produced |
| Profiles.AnimatedRainbowFlow | source/profiles.c:59-69 | every key gets its column's hue, and every column hue takes one flow step |
| Profiles.AnimatedRainbowWaterfall | source/profiles.c:71-82 | every key gets its row's hue; the first five hues take one flow step and the rest are untouched |
| Profiles.Bounce | source/profiles.c:88-92 | the direction becomes -3 at or above the top, +3 at or below the bottom, and is kept in between |
| Profiles.BreathingStaysInRange | source/profiles.c:84-94 | from any reachable breathing state the value moves by exactly 3 and stays a multiple of 3 in 0..180 |
| Profiles.AnimatedBreathing | source/profiles.c:86-93 | all keys get hue 85 at the current brightness, and the brightness then takes one bounce step |
| Profiles.SpectrumStaysInRange | source/profiles.c:96-106 | from any reachable spectrum state the hue moves by exactly 3 and stays in 2..179 |
| Profiles.AnimatedSpectrum | source/profiles.c:98-105 | all keys get the current hue, and the hue then takes one bounce step |
| Profiles.WaveStaysInRange | source/profiles.c:108-126 | every column value moves by exactly 3 and stays in 0..142, so the 8-bit add never wraps |
| Profiles.AnimatedWave | source/profiles.c:116-126 | every key gets hue 190 at its column's brightness, and each column takes one bounce step |
| Profiles.InitialEffectsInRange | source/profiles.c:84-115 | the power-on values of breathing, spectrum and wave satisfy their range invariants |
| Profiles.RunEffect | source/settings.c:8-23 | running one effect changes only that effect's own animation state |
| Settings.TableSize | source/settings.c:8-29 | the table has 14 profiles, and the default profile and speed are in range |
| Settings.SpeedsShape | source/settings.c:10-23 | profiles 0-5 are static (all speeds 0); profiles 6-13 have positive speeds that never increase from tier 0 to tier 3 |
| Settings.ReactiveProfiles | source/settings.c:22-23 | exactly profiles 12 and 13 react to key presses, and exactly those have an init hook |
| Scheduler.Initial | source/settings.c:25-29 | the power-on state is profile 0, speed 0, intensity 0, no foreground, with a consistent animation speed, and every key dark (the colour buffer of source/matrix.c:9 is a zero-initialised static) |
| Scheduler.ReactiveFlag | main.c:58-64 | the flag is 1 exactly when the current profile has a key-press handler, else 0 |
| Scheduler.UpdateAnimationSpeed | main.c:47-50 | the skip count becomes the table speed of the current profile and tier, the tick counter restarts, and nothing else changes |
| Scheduler.ExecuteProfile | source/commands.c:41-50 | the init hook runs only when asked and present; the speed is reloaded and a profile callback is requested; profile, tier, intensity, effect state and foreground are kept |
| Scheduler.NextIntensity | source/commands.c:52-55 | intensity steps to (i+1) mod 8, wrapping 7 to 0; the skip count is reloaded for the profile and speed, the ticks restart and a profile call is requested; the colours and everything else are unchanged (no init hook) |
| Scheduler.NextSpeed | source/commands.c:57-60 | the tier steps to (s+1) mod 4, the skip count is reloaded from the table, ticks restart, and nothing else changes |
| Scheduler.SetProfile | source/commands.c:80-85 | an out-of-range index changes nothing; an in-range index becomes current and the profile is executed with init |
| Scheduler.NextIndex | source/commands.c:311 | the next index stays below 14 and wraps the last profile to 0 |
| Scheduler.PrevIndex | source/commands.c:316-317 | the previous index stays below 14 and wraps 0 to 13 |
| Scheduler.NextPrevInverse | source/commands.c:310-320 | previous undoes next and next undoes previous |
| Scheduler.NextIterateMod | source/commands.c:311 | n steps of next from p land on (p + n) mod 14 |
| Scheduler.NextCycle | source/commands.c:311 | fourteen steps of next return to the start |
| Scheduler.NextProfile | source/commands.c:310-314 | the profile becomes the next index and is executed with init |
| Scheduler.PrevProfile | source/commands.c:315-320 | the profile becomes the previous index and is executed with init |
| Scheduler.KeyRow | source/commands.c:69 | the row is bits 4-6 of the key byte, below 8 |
| Scheduler.KeyCol | source/commands.c:70 | the column is the low four bits of the key byte, below 16 |
| Scheduler.KeyByteRoundTrip | source/commands.c:64-75 | packing an in-range key as 0x80 + 16·row + col fits a byte, and unpacking gives back the same row and column |
| Scheduler.HandleKeypress | source/commands.c:68-75 | the profile's key handler runs on the decoded key only if it exists and the key is in range; otherwise nothing changes |
| Scheduler.AnimationCallback | source/matrix.c:149-156 | with the foreground set nothing changes; otherwise the current profile's effect runs once on the buffer |
| Scheduler.PendingCall | source/matrix.c:173-177 | a pending profile call runs the current profile's callback exactly once and clears the flag; without one nothing changes |
| Scheduler.CycleBoundary | source/matrix.c:173-189 | the pending call is consumed first; on column 13 with a positive skip count the ticks advance and, on reaching the skip count, restart and the animation callback runs on the called state; otherwise the result is just the pending call's; the state stays valid and profile, speed, skip and intensity are kept |
| Scheduler.CadenceRunsEverySkip | source/matrix.c:183-189 | for every positive skip count, a last-column boundary runs the animation (with ticks restarted) exactly when ticks + 1 reaches the skip count, and otherwise only increments the ticks |
| Scheduler.LastColumnBoundaries | source/matrix.c:173-189 | repeated last-column boundaries keep the state valid, the skip count and the profile |
| Scheduler.TicksCountModSkip | source/matrix.c:183-189 | after n last-column boundaries the tick counter is (t + n) mod skip, so the animation fires on every skip-th boundary |
| Matrix.CountSplit | source/matrix.c:99-106 | lines still lit above t-1 are those above t plus those equal to t |
| Matrix.CountAboveZero | source/matrix.c:107 | no line is counted above t exactly when every time is at most t |
| Matrix.RowTime | source/matrix.c:122-136 | row line 3r+k of a column takes channel 2-k of key (r, column) shifted right by 2, at most 63 and below the counter limit 80 |
| Matrix.PwmRowDimmer | source/matrix.c:99-111 | row lines whose time equals the counter are cleared and taken off the live count; the column is cleared once no row is live; nothing else changes |
| Matrix.PwmNextColumn | source/matrix.c:114-144 | the column advances mod 14, the row times are loaded from the new column's keys, lines with nonzero time are set and counted, the old column is cleared and the new one set only if some row is live |
| Matrix.MatrixEnable | source/matrix.c:227-237 | enabling sets the enabled flag and the power line and changes nothing else |
| Matrix.MatrixDisable | source/matrix.c:200-222 | disabling clears the enabled flag, the power line and every row and column line |
| Matrix.InitialDriverInv | source/matrix.c:79-96 | the power-on driver state satisfies the PWM invariant |
| Matrix.EnableDisableKeepInv | source/matrix.c:200-237 | enabling and disabling the matrix keep the PWM invariant |
| Matrix.MainCallback | source/matrix.c:164-195 | below the limit a tick only runs the dimmer; at the limit it runs the cycle boundary, resets the counter to 0 and advances the column |
| Matrix.TickKeepsInv | source/matrix.c:164-195 | every tick keeps the scheduler and PWM invariants: counter below 80, row times at most 63, only live rows lit with time above the counter, only the current column lit and only with a live row, and the live count exact |
| Matrix.DimmerKeepsInv | source/matrix.c:81-82 | the live count after the dimmer is the old count minus the rows timing out now, and never underflows |
| Matrix.NextColumnKeepsInv | source/matrix.c:130-143 | at a column start exactly the rows with nonzero time are lit, and the column is lit exactly when some row is live |
| Matrix.ColumnStartExact | source/matrix.c:121-143 | after a boundary tick the counter is 0, the live count is the number of nonzero row times, and the lit lines are exactly those |
| Matrix.DimmerTick | source/matrix.c:167-171 | a tick below the limit keeps the column, the row times and the scheduler state and advances the counter by one |
| Matrix.TicksWithinColumn | source/matrix.c:167-171 | any run of ticks that stays below the limit keeps the column, the row times and the scheduler state |
| Matrix.ColumnLasts80Ticks | source/matrix.c:167-194 | from a column start the column holds for 79 ticks and the 80th tick moves to the next column with the counter back at 0 |
| Matrix.BoundaryTick | source/matrix.c:192-194 | a tick at the limit resets the counter and moves to the next column mod 14 |
| Matrix.Ticks | source/matrix.c:164-195 | any number of ticks from a consistent state keeps the invariants |
| Protocol.ProtoInit | source/protocol.c:16-21 | the receiver restarts in the first sync state with previous id 0 and no errors |
| Protocol.CountError | source/protocol.c:61 | one error is counted with 8-bit wrap and nothing else changes |
| Protocol.MessageReceived | source/protocol.c:46-53 | a message is delivered exactly when its id differs from the previous one; the id is remembered and the receiver returns to the first sync state either way |
| Protocol.Consume | source/protocol.c:55-110 | each state's byte rule: sync bytes advance or count an error (resyncing from the second sync state), the size is clamped to 230 with an error, size 0 completes at once, and payload bytes are stored in bounds until the last one completes |
| Protocol.ConsumeErrorsStep | source/protocol.c:55-110 | one byte changes the error count by 0 or +1 mod 256, and the previous id changes only with a completed message |
| Protocol.Silence | source/protocol.c:112-117 | silence leaves the first sync state alone and otherwise resyncs with one error |
| Protocol.Feed | source/protocol.c:55-110 | feeding any byte sequence keeps the payload position within the size and the size within 230 |
| Protocol.FeedConcat | source/protocol.c:55-110 | feeding two pieces one after the other equals feeding them joined, with deliveries concatenated |
| Protocol.Frame | source/protocol.c:34-42 | a frame is 0x7A 0x1D, command, id, size, then the payload |
| Protocol.ProtoTx | source/protocol.c:29-44 | the sent bytes are `retries` copies of one frame, all with the id one above the last |
| Protocol.RepeatLength | source/protocol.c:39-43 | n copies of a frame are n times its length |
| Protocol.FeedPayload | source/protocol.c:93-107 | the remaining payload bytes are stored at their positions, and the message completes on the last one |
| Protocol.FeedPayloadPartial | source/protocol.c:93-107 | fewer bytes than the remaining payload deliver nothing and stay in the payload state |
| Protocol.FeedHeader | source/protocol.c:57-92 | the five header bytes move from the first sync state to the payload state, or complete an empty message |
| Protocol.FrameRoundTrip | source/protocol.c:29-109 | a frame fed from the first sync state with a new id delivers exactly one message with the same command, id and payload, and counts no error |
| Protocol.FrameFeeds | source/protocol.c:29-109 | feeding a frame from the first sync state leaves the frame's message in the buffer and delivers it exactly when its id is new |
| Protocol.FramePrefixQuiet | source/protocol.c:55-110 | every byte of a frame but the last delivers nothing |
| Protocol.FrameEnd | source/protocol.c:46-53 | the last byte of a frame with a new id completes and delivers it |
| Protocol.RepeatedFrameDeliversOnce | source/protocol.c:39-53 | any number of copies of one frame delivers what one copy delivers, with no error |
| Protocol.ResentFramesDeliverNothing | source/protocol.c:46-53 | copies of the frame last delivered deliver nothing |
| Protocol.ProtoTxRoundTrip | source/protocol.c:29-109 | what the transmitter sends, fed to a receiver that did not just see that id, delivers exactly one message with the sent command and payload |
| Protocol.FirstFrameWithIdZeroDropped | source/protocol.c:16-21 | after a restart, a first frame with id 0 is taken for a duplicate and dropped |
| Commands.DriverStepKeepsInv | source/commands.c:295-389 | a command leaves the matrix alone, enables it or disables it, and each keeps the PWM invariant |
| Commands.Flag | source/commands.c:17 | a boolean is sent as 1 or 0 |
| Commands.StatusPayload | source/commands.c:16-24 | the status carries the profile count, the current profile, the matrix flag, the reactive flag, the intensity and the error count |
| Commands.SendStatus | source/commands.c:16-24 | a status reply is three copies of the status frame under a fresh id, and only the id counter changes |
| Commands.SetLedKey | source/commands.c:92-102 | an out-of-range key changes nothing; otherwise only that key changes, to the dimmed colour from payload bytes 2-5 |
| Commands.WriteRowFrom | source/commands.c:109-121 | the row's keys from the start column on take their dimmed payload colours; all others are unchanged |
| Commands.SetLedRow | source/commands.c:105-122 | row 5 or above changes nothing; otherwise exactly the 14 keys of the row take their dimmed payload colours |
| Commands.SetLedMono | source/commands.c:125-133 | all 70 keys take the one dimmed payload colour |
| Commands.StickyExists | source/commands.c:241-249 | sticky keys exist exactly when some sticky entry has nonzero alpha |
| Commands.CheckStickyExists | source/commands.c:241-258 | the flag records whether any sticky alpha is nonzero; with none left while the backlight was off and the matrix on, the matrix is disabled and a status is sent |
| Commands.HandleStickyEnabled | source/commands.c:214-224 | sticky keys are marked; a disabled matrix is enabled, marked as borrowed, and a status is sent |
| Commands.ClearAlphaKey | source/commands.c:260-266 | only the addressed key's alpha is cleared |
| Commands.ClearAlphaRow | source/commands.c:271-278 | only the row's alphas are cleared |
| Commands.ClearAlphaAll | source/commands.c:283-286 | every alpha is cleared and colours are kept |
| Commands.UnsetStickyKey | source/commands.c:260-269 | an out-of-range key changes nothing; otherwise its alpha is cleared and sticky existence is rechecked |
| Commands.UnsetStickyRow | source/commands.c:271-281 | an out-of-range row changes nothing; otherwise its alphas are cleared and sticky existence is rechecked |
| Commands.UnsetStickyAll | source/commands.c:283-288 | no sticky key remains, and a borrowed matrix is switched back off with a status |
| Commands.StickySet | source/commands.c:226-239 | a sticky write stores the layer, marks sticky keys and leaves the matrix enabled |
| Commands.LedOnCmd | source/commands.c:297-301 | the profile is re-executed with init, the matrix is enabled and no longer borrowed, and the status reports it on |
| Commands.LedOffCmd | source/commands.c:302-305 | the matrix is disabled and the status reports it off |
| Commands.WithLights | source/commands.c:310-328 | a scheduler step followed by a status reply changes only the scheduler state and the id counter |
| Commands.Power | source/commands.c:297-330 | LED_ON is `LedOnCmd`, LED_OFF is `LedOffCmd` and IAP changes nothing; the matrix steps at most by enable or disable and a status or nothing is sent |
| Commands.ProfileStep | source/commands.c:306-327 | SET_PROFILE, NEXT/PREV_PROFILE, NEXT_INTENSITY and NEXT_ANIMATION_SPEED each replace the lighting state by `SetProfile(p[0])`, `NextProfile`, `PrevProfile`, `NextIntensity` or `NextSpeed` and send the status; nothing else changes |
| Commands.Control | source/commands.c:296-335 | each control command runs its own operation (LED_ON `LedOnCmd`, LED_OFF `LedOffCmd`, SET_PROFILE `SetProfile(p[0])`, NEXT/PREV_PROFILE `NextProfile`/`PrevProfile`, NEXT_INTENSITY, NEXT_ANIMATION_SPEED, IAP no change, KEY_DOWN `HandleKeypress(p[0])` with nothing sent); all keep the receiver, the layers and the manual flag |
| Commands.WriteShape | source/commands.c:194-212 | a key, row or mono write goes to the matching writer |
| Commands.Paint | source/commands.c:338-363 | mask and colour writes change only their own layer, the manual command only the manual flag, a blink nothing, and none sends anything |
| Commands.Sticky | source/commands.c:366-383 | a sticky write is the layer write plus sticky enabling; UNSET_KEY, UNSET_ROW and UNSET_ALL are `UnsetStickyKey`, `UnsetStickyRow` and `UnsetStickyAll`; all keep the controller consistent |
| Commands.CommandCallback | source/commands.c:295-389 | an unknown command only counts one error; a known one leaves the receiver untouched, goes to `Control`, `Sticky` or `Paint` by its kind, at most switches the matrix on or off, and sends nothing or the status of the state it leaves |
| Commands.StandardDispatch | source/protocol.h:19-45 | under the header's codes, 0x01 runs LED_ON, 0x04 NEXT_PROFILE, 0x22 KEY_DOWN on the payload's key byte (nothing sent), and 0x13, which has no case in the dispatcher, only counts an error |
| Commands.StatusReachesMain | source/commands.c:16-24 | a sent status, fed to the main controller's receiver, delivers exactly one status message with the status payload |
| Commands.StickyKeysBorrowTheMatrix | source/commands.c:214-239 | a sticky write on a dark keyboard turns the matrix on, and clearing all sticky keys turns it off again, each with a status |
| Commands.LedOnKeepsMatrixAfterSticky | source/commands.c:219-221 | after an explicit LED-on, clearing sticky keys keeps the matrix on and sends nothing |
| Link.ReceiveAll | source/protocol.c:46-53 | receiving any byte stream keeps the controller consistent |
| Link.QuietPrefix | source/protocol.c:55-110 | bytes that complete no message only advance the receiver |
| Link.QuietAll | source/protocol.c:55-110 | a stream that completes no message changes only the receiver and sends nothing |
| Link.OneDelivery | source/protocol.c:46-53 | a stream completing exactly one message runs the dispatcher once on it |
| Link.FrameRunsCommand | source/protocol.c:29-109 | one frame with a new id runs the dispatcher on exactly its command and payload |
| Link.ResentFrameIgnored | source/protocol.c:46-53 | resending the frame last run changes only the receiver and sends nothing |
| Link.RetriedFrameRunsOnce | source/protocol.c:39-53 | a frame sent any number of times with the same id runs its command exactly once |
| Legacy.InitialMasks | main.c:300 | at start every key's mask is 0xFF |
| Legacy.ArgCount | main.c:78-126 | no legacy command reads more than 57 argument bytes |
| Legacy.ExecuteProfile | main.c:235-247 | the foreground is cleared, a profile callback is requested and the speed reloaded; otherwise as the framed path |
| Legacy.SelectProfileFrom | main.c:219-230 | with no byte or an out-of-range byte nothing changes; otherwise the foreground is cleared and the profile named by the byte is executed with its init hook (speed reloaded, callback requested, speed tier and intensity kept) |
| Legacy.NextIntensityLegacy | main.c:155-158 | intensity steps as in the framed path, and the foreground is cleared |
| Legacy.NextSpeedLegacy | main.c:160-164 | the tier steps as in the framed path, and the foreground is cleared |
| Legacy.ChangeMask | main.c:144-153 | only the mask of the key named by the arrived byte takes the value, and none if no byte arrived or it is 70 or above |
| Legacy.SetWord | main.c:259 | the 16-bit word puts the first byte in blue and the second in green, with red and alpha 0 |
| Legacy.LedSetFrom | main.c:252-262 | with four bytes and an in-range key only that key changes, to blue and green from the bytes; otherwise nothing changes |
| Legacy.LedSetRowFrom | main.c:267-279 | with 57 bytes and an in-range row, the row's 14 keys take the 56 bytes as records and other rows are unchanged; otherwise nothing changes |
| Legacy.CopyRow | main.c:275-276 | copying raw bytes over a row replaces exactly that row's records |
| Legacy.ForegroundWord | main.c:189-191 | the foreground word puts the first byte in red, the second in green and the third in blue |
| Legacy.SetForegroundFrom | main.c:184-196 | with three bytes the stored foreground word is the bytes packed as red, green, blue, every key takes that colour and the flag is set; with fewer nothing changes |
| Legacy.ClearForegroundOf | main.c:198-214 | the flag is always cleared; with a zero skip count the buffer is zeroed and a re-render requested, otherwise a reactive profile's buffer is zeroed and any other buffer is left as it is |
| Legacy.Lit | main.c:146 | a command consumes min(arrived, wanted) argument bytes |
| Legacy.RunProfileOp | main.c:71-116 | profile commands keep the scheduler consistent and leave the masks alone |
| Legacy.RunPaintOp | main.c:78-126 | write and query commands keep the scheduler consistent and leave the matrix alone |
| Legacy.ExecuteMsg | main.c:69-133 | a listed command consumes as many argument bytes as it reads; an unlisted byte consumes none, sends nothing and touches neither matrix nor masks |
| Legacy.Run | main.c:310-316 | any input stream keeps the scheduler consistent |
| Legacy.ArgumentsSuffice | main.c:78-126 | a command's effect depends only on its own argument bytes, not on what follows |
| Legacy.RequestThenRest | main.c:310-316 | a request followed by more input is that request, then the rest from the new state |
| Legacy.TwoRequests | main.c:310-316 | two complete requests in a row act one after the other and their replies concatenate |
| Legacy.KeypressByteRunsHook | main.c:127-131 | a high-bit byte for an in-range key runs the profile's key handler there (if any), reads nothing and sends nothing |
| Legacy.StrayByteIgnored | main.c:127-131 | an unlisted byte below 0x80 changes nothing |
| Legacy.SilentLineChangesNothing | main.c:144-153 | a command whose argument bytes never arrive changes nothing; only profile select still reports the reactive flag |
| Legacy.SelectedProfileReported | main.c:84-101 | select-then-query replies with the new profile's reactive flag, then its index |
| Legacy.NextThenPrevReturns | main.c:88-98 | next then previous returns to the original profile, reporting both reactive flags |
| Legacy.HeaderProfileQuery | main.c:84-101 | with the header's command codes, bytes 0x5 p 0x8 reply with p's reactive flag and p |
| Legacy.MaskLastWriteWins | main.c:144-153 | the last mask write to a key wins, and setting 0xFF on the start masks changes nothing |
| Legacy.RowBytes | main.c:275-276 | a row read back as bytes gives channel j mod 4 of key j div 4 |
| Legacy.RowRewriteIsIdentity | main.c:267-279 | writing back a row's own bytes leaves the state unchanged |
| Legacy.RowWriteReadsBack | main.c:267-279 | the row bytes read back after a row write are the bytes written |
| Legacy.ForegroundClearedOnStatic | main.c:184-214 | on a static non-reactive profile, setting then clearing the foreground leaves a zeroed buffer awaiting re-render and replies 0 |
| Legacy.ExecuteKeepsDriverInv | main.c:71-77 | a legacy command keeps the PWM invariant |
| Legacy.RunKeepsDriverInv | main.c:310-316 | any legacy input stream keeps the PWM invariant |

## Left out

- The blinker thread and the key-blink command (source/commands.c:136-188): thread creation, join and sleeps are concurrency. `KEY_BLINK` is dispatched and changes nothing.
- `setIAP` (source/commands.c:30-36, main.c:135-142): a raw memory write and a system reset. The IAP command is dispatched and changes nothing.
- `sendDebug` (source/commands.c:26-28): a transmit helper that no modelled command calls.
- The GPIO, timer and mutex parts of `matrixEnable` and `matrixDisable` (source/matrix.c:200-240) are left out. Enabling is modelled as setting the enabled flag and the power line. Disabling clears the flag and every line. The comment at source/commands.c:219-221 says `matrixEnable` clears `backlightDisabled`. The model clears that flag in the LED-on command instead. The only other caller sets the flag right after enabling, so the effect is the same.
- Thread and interrupt interleaving, `volatile` and the mutex: every component is modelled as a sequential step.
- The effects `white`, `reactiveFade`, `reactivePulse` and their key-press and init hooks are not part of this model. They are parameters (`Externals`).
- Command byte values that no shown header defines (mask row and mono, colour, sticky, manual, key blink; legacy codes above 0xB) are parameters (a code table). Lemmas needing concrete values state them as requirements on the table.
- Serial reads with timeouts (`sdReadTimeout`, `sdRead`), `sdGet` errors and the main loop (main.c:286-317) are not modelled as I/O. A legacy command's read takes up to its byte count from the remaining input. Bytes that arrive too late for a read are not modelled, so the stream model assumes every argument byte is in time or absent.
- The `chDbgCheck` size assertion in `protoTx` is kept as a precondition (payload at most 230), not as a run-time failure.
- The intensity arguments of the effects in source/profiles.c are ignored, as the bodies ignore them.
- Header and body mismatches between revisions (source/profiles.h, source/light_utils.h, the `hsv2rgb` prototype in source/miniFastLED.h:80): the `.c` bodies are followed.
- board/board.c and cfg/mcuconf.h: pin maps and clock configuration with no logic. Only the row and column counts are used.
- Profiles.RunEffect: states only the frame condition that an effect touches its own animation state. Each effect's colours are stated by its own member.
- Legacy.RunProfileOp and Legacy.RunPaintOp: state invariants and frame conditions only. The per-command effects are stated by the helpers they call (`Legacy.SelectProfileFrom`, `Legacy.ChangeMask`, `Legacy.LedSetFrom`, …) and by the stream lemmas.

=== FILE: board.dfy ===
/** The key matrix geometry of the board. */
module Board {
  import opened Bytes

  const NumRow: nat := 5
  const NumColumn: nat := 14
  const KeyCount: nat := 70

  /** Position of key (row, col) within the per-key arrays. */
  function RowCol2Idx(row: nat, col: nat): nat {
    14 * row + col
  }

  /** The index map is a bijection between the in-range key coordinates and
      0..KeyCount-1: every coordinate lands in range, and each index comes
      from exactly its row and column. */
  lemma RowCol2IdxBijective(row: nat, col: nat)
    requires row < NumRow && col < NumColumn
    ensures RowCol2Idx(row, col) < KeyCount
    ensures RowCol2Idx(row, col) / NumColumn == row
    ensures RowCol2Idx(row, col) % NumColumn == col
  {
  }

  /** Two in-range coordinates share an index only if they are equal. */
  lemma RowCol2IdxInjective(r1: nat, c1: nat, r2: nat, c2: nat)
    requires c1 < NumColumn && c2 < NumColumn
    requires RowCol2Idx(r1, c1) == RowCol2Idx(r2, c2)
    ensures r1 == r2 && c1 == c2
  {
  }
}

=== FILE: bytes.dfy ===
/** Fixed-width unsigned integers of the firmware, and the wrap-around that
    C's unsigned arithmetic performs when a value is stored back. */
module Bytes {

  type uint8 = x: int | 0 <= x < 0x100
  type uint16 = x: int | 0 <= x < 0x1_0000
  type uint32 = x: int | 0 <= x < 0x1_0000_0000
  type int8 = x: int | -0x80 <= x < 0x80

  /** Storing an int into a uint8 keeps it modulo 256. */
  function Wrap8(x: int): (r: uint8)
    ensures 0 <= x < 0x100 ==> r == x
    ensures (r - x) % 0x100 == 0
  {
    x % 0x100
  }

  /** Storing an int into a uint16 keeps it modulo 65536. */
  function Wrap16(x: int): (r: uint16)
    ensures 0 <= x < 0x1_0000 ==> r == x
    ensures (r - x) % 0x1_0000 == 0
  {
    x % 0x1_0000
  }

  /** Two's-complement conversion of a value into an int8 (the behaviour of
      the firmware's compiler for out-of-range conversions). */
  function ToInt8(x: int): (r: int8)
    ensures (r - x) % 0x100 == 0
  {
    var w := x % 0x100;
    if w < 0x80 then w else w - 0x100
  }

  /** The prefix of at most n elements: what a bounded read returns. */
  function Take<T>(s: seq<T>, n: nat): (r: seq<T>)
    ensures |r| == if |s| < n then |s| else n
    ensures r == s[..|r|]
  {
    if |s| < n then s else s[..n]
  }
}

=== FILE: commands.dfy ===
/** The framed-protocol dispatcher: `commandCallback` and its helpers, acting
    on the lighting state, the matrix driver, the mask and sticky buffers,
    and answering with status frames. */
module Commands {
  import opened Bytes
  import opened Board
  import opened Led
  import opened Wrappers
  import opened LightUtils
  import opened FastLed
  import opened Profiles
  import opened Settings
  import opened Scheduler
  import opened Matrix
  import opened Protocol

  /** The commands `commandCallback` distinguishes. */
  datatype Command =
    | LedOn | LedOff
    | SetProfileCmd | NextProfileCmd | PrevProfileCmd
    | NextIntensityCmd | NextSpeedCmd
    | Iap | KeyDown
    | MaskSetKey | MaskSetRow | MaskSetMono | KeyBlink
    | SetManual | ColorSetKey | ColorSetRow | ColorSetMono
    | StickySetKey | StickySetRow | StickySetMono
    | StickyUnsetKey | StickyUnsetRow | StickyUnsetAll

  /** Which byte names which command. Only some codes are fixed by the
      protocol header; the others are a parameter of the model. */
  type CodeTable = map<uint8, Command>

  const CmdLedDebug: uint8 := 0x40
  const CmdLedStatus: uint8 := 0x41
  const StatusRetries: int := 3

  /** The codes the protocol header fixes: the ten commands it names with
      a value, and the named codes the dispatcher has no case for (mask
      clear, status request, key-up and the two replies). The header's
      mask-set-all, mask-set-single and blink codes are left to the table,
      since the dispatcher's case labels for them do not match the header's
      names. */
  predicate StandardCodes(t: CodeTable) {
    && 0x01 in t && t[0x01] == LedOn
    && 0x02 in t && t[0x02] == LedOff
    && 0x03 in t && t[0x03] == SetProfileCmd
    && 0x04 in t && t[0x04] == NextProfileCmd
    && 0x05 in t && t[0x05] == PrevProfileCmd
    && 0x06 in t && t[0x06] == NextIntensityCmd
    && 0x07 in t && t[0x07] == NextSpeedCmd
    && 0x10 in t && t[0x10] == MaskSetKey
    && 0x22 in t && t[0x22] == KeyDown
    && 0x24 in t && t[0x24] == Iap
    && 0x13 !in t && 0x20 !in t && 0x23 !in t
    && CmdLedDebug !in t && CmdLedStatus !in t
  }

  /** The LED controller's state as the dispatcher sees it; the matrix
      being enabled is the driver's `enabled`. */
  datatype Controller = Controller(
    proto: Proto,
    txId: uint8,
    lights: Lights,
    driver: Driver,
    mask: Buffer,
    sticky: Buffer,
    stickyKeysExist: bool,
    backlightDisabled: bool,
    manualControl: uint8)

  /** The receiver and the lighting state in their reachable ranges. The
      driver's own invariant is kept separately: a command only ever leaves
      the driver as it was, enabled or disabled (DriverStep). */
  predicate Inv(c: Controller) {
    Protocol.Valid(c.proto) && Scheduler.Valid(c.lights) && SpeedLoaded(c.lights)
  }

  /** What a command may do to the matrix driver. */
  predicate DriverStep(d: Driver, r: Driver) {
    r == d || r == MatrixEnable(d) || r == MatrixDisable(d)
  }

  /** Commands keep the driver's invariant, so the timer interrupt can go on
      stepping it. */
  lemma DriverStepKeepsInv(d: Driver, r: Driver)
    requires DriverInv(d) && DriverStep(d, r)
    ensures DriverInv(r)
  {
    EnableDisableKeepInv(d);
  }

  /** A new controller state together with the bytes it wrote to the line. */
  datatype Reply = Reply(ctrl: Controller, sent: seq<uint8>)

  function Flag(b: bool): (r: uint8)
    ensures r == 1 <==> b
    ensures r == 0 <==> !b
  {
    if b then 1 else 0
  }

  /** The status payload: number of profiles, current profile, matrix on,
      reactive flag, intensity and the receiver's error count. */
  function StatusPayload(c: Controller): (s: seq<uint8>)
    requires c.lights.currentProfile < AmountOfProfiles
    ensures |s| == 6 && s[0] == AmountOfProfiles && s[1] == c.lights.currentProfile
    ensures (s[2] == 1 <==> c.driver.enabled) && (s[2] == 0 <==> !c.driver.enabled)
    ensures (s[3] == 1 <==> IsReactive(ProfileTable[c.lights.currentProfile])) && s[3] <= 1
    ensures s[4] == c.lights.ledIntensity && s[5] == c.proto.errors
  {
    [AmountOfProfiles, c.lights.currentProfile, Flag(c.driver.enabled),
     ReactiveFlag(c.lights), c.lights.ledIntensity, c.proto.errors]
  }

  /** What a reply sent: either nothing (and the transmit id is untouched)
      or one status message, three times, reporting the state it leaves. */
  predicate SentStatusOrNothing(c: Controller, r: Reply)
    requires r.ctrl.lights.currentProfile < AmountOfProfiles
  {
    (r.sent == [] && r.ctrl.txId == c.txId)
    || (r.ctrl.txId == (c.txId + 1) % 0x100
        && r.sent == Repeat(Frame(CmdLedStatus, r.ctrl.txId, StatusPayload(r.ctrl)), 3))
  }

  /** `sendStatus`: the status of the current state, sent with three
      retries under a fresh id. */
  function SendStatus(c: Controller): (r: Reply)
    requires c.lights.currentProfile < AmountOfProfiles
    ensures r.ctrl == c.(txId := (c.txId + 1) % 0x100)
    ensures r.sent == Repeat(Frame(CmdLedStatus, r.ctrl.txId, StatusPayload(c)), 3)
    ensures |r.sent| == 33
  {
    var tx := ProtoTx(c.txId, CmdLedStatus, StatusPayload(c), StatusRetries);
    RepeatLength(Frame(CmdLedStatus, tx.msgId, StatusPayload(c)), 3);
    Reply(c.(txId := tx.msgId), tx.sent)
  }

  /** The four payload bytes at k as a colour: blue, green, red, alpha. */
  function PayloadLed(p: PayloadBuffer, k: nat): Led
    requires k + 4 <= MaxPayloadSize
  {
    Led(p[k], p[k + 1], p[k + 2], p[k + 3])
  }

  /** `setLedKey`: payload bytes 0 and 1 address a key, bytes 2..5 are its
      colour, dimmed by the intensity; only an on-board key is written, and
      only it changes. */
  function SetLedKey(intensity: uint8, buf: Buffer, p: PayloadBuffer): (r: Buffer)
    ensures p[0] as nat < NumRow && p[1] as nat < NumColumn ==>
      r[RowCol2Idx(p[0], p[1])] == NaiveDimLed(intensity, PayloadLed(p, 2))
      && forall i | 0 <= i < KeyCount && i != RowCol2Idx(p[0], p[1]) :: r[i] == buf[i]
    ensures !(p[0] as nat < NumRow && p[1] as nat < NumColumn) ==> r == buf
  {
    var color := NaiveDimLed(intensity, PayloadLed(p, 2));
    UnpackPack(color);
    if p[0] as nat < NumRow && p[1] as nat < NumColumn then
      SetKeyColor(buf, RowCol2Idx(p[0], p[1]), Pack(color))
    else buf
  }

  /** The colour `setLedRow` writes at column `col`: the four payload bytes
      after the row byte at 4 * col, dimmed. */
  function RowLed(intensity: uint8, p: PayloadBuffer, col: nat): Led
    requires col < NumColumn
  {
    NaiveDimLed(intensity, PayloadLed(p, 1 + 4 * col))
  }

  /** The loop of `setLedRow` from column `col` on. */
  function WriteRowFrom(intensity: uint8, buf: Buffer, p: PayloadBuffer, row: nat, col: nat): (r: Buffer)
    requires row < NumRow && col <= NumColumn
    ensures forall i | 0 <= i < KeyCount ::
      r[i] == if i / NumColumn == row && i % NumColumn >= col then RowLed(intensity, p, i % NumColumn) else buf[i]
    decreases NumColumn - col
  {
    if col == NumColumn then buf
    else
      var color := RowLed(intensity, p, col);
      UnpackPack(color);
      WriteRowFrom(intensity, SetKeyColor(buf, RowCol2Idx(row, col), Pack(color)), p, row, col + 1)
  }

  /** `setLedRow`: payload byte 0 is a row; if it is on the board every key
      of that row takes its dimmed colour from the next 56 bytes, and no
      other key changes; otherwise nothing does. */
  function SetLedRow(intensity: uint8, buf: Buffer, p: PayloadBuffer): (r: Buffer)
    ensures p[0] as nat >= NumRow ==> r == buf
    ensures p[0] as nat < NumRow ==> forall i | 0 <= i < KeyCount ::
      r[i] == if i / NumColumn == p[0] as nat then RowLed(intensity, p, i % NumColumn) else buf[i]
  {
    if p[0] as nat >= NumRow then buf else WriteRowFrom(intensity, buf, p, p[0], 0)
  }

  /** `setLedMono`: every key takes the dimmed colour of payload bytes
      0..3. */
  function SetLedMono(intensity: uint8, buf: Buffer, p: PayloadBuffer): (r: Buffer)
    ensures forall i | 0 <= i < KeyCount :: r[i] == NaiveDimLed(intensity, PayloadLed(p, 0))
  {
    var color := NaiveDimLed(intensity, PayloadLed(p, 0));
    UnpackPack(color);
    SetAllKeysColor(buf, Pack(color))
  }

  /** The scan of `checkStickyExists` from key i: whether some key at or
      after i has a non-zero alpha. */
  function AlphaFrom(buf: Buffer, i: nat): (r: bool)
    requires i <= KeyCount
    ensures r <==> exists j | i <= j < KeyCount :: buf[j].alpha != 0
    decreases KeyCount - i
  {
    if i == KeyCount then false
    else if buf[i].alpha != 0 then true
    else AlphaFrom(buf, i + 1)
  }

  /** Some sticky key is visible (non-zero alpha). */
  function StickyExists(buf: Buffer): (r: bool)
    ensures r <==> exists j | 0 <= j < KeyCount :: buf[j].alpha != 0
  {
    AlphaFrom(buf, 0)
  }

  /** What every sticky-key helper keeps: the lighting state, the receiver,
      the mask and manual control, and the status rule for what it sends. */
  predicate StickyFrame(c: Controller, r: Reply)
    requires c.lights.currentProfile < AmountOfProfiles
  {
    r.ctrl.lights == c.lights && r.ctrl.proto == c.proto && r.ctrl.mask == c.mask
    && r.ctrl.manualControl == c.manualControl && SentStatusOrNothing(c, r)
    && DriverStep(c.driver, r.ctrl.driver)
  }

  /** `checkStickyExists`: the flag records whether a sticky key is still
      visible; when none is, and the matrix is on only because sticky keys
      turned it on, the matrix goes off again and the status is sent. */
  function CheckStickyExists(c: Controller): (r: Reply)
    requires Inv(c)
    ensures Inv(r.ctrl) && StickyFrame(c, r) && r.ctrl.sticky == c.sticky
    ensures r.ctrl.stickyKeysExist <==> exists j | 0 <= j < KeyCount :: c.sticky[j].alpha != 0
    ensures var off := !r.ctrl.stickyKeysExist && c.backlightDisabled && c.driver.enabled;
      (off ==> r == SendStatus(c.(stickyKeysExist := false, driver := MatrixDisable(c.driver))))
      && (!off ==> r == Reply(c.(stickyKeysExist := r.ctrl.stickyKeysExist), []))
  {
    var exists_ := StickyExists(c.sticky);
    var c1 := c.(stickyKeysExist := exists_);
    if !exists_ && c.backlightDisabled && c.driver.enabled then
      SendStatus(c1.(driver := MatrixDisable(c1.driver)))
    else Reply(c1, [])
  }

  /** `handleStickyEnabled`: sticky keys exist now; if the matrix was off
      it is turned on (clearing the backlight-disabled flag as
      `matrixEnable` does), the status is sent, and the flag is then set to
      remember that the user wants the backlight itself off. */
  function HandleStickyEnabled(c: Controller): (r: Reply)
    requires Inv(c)
    ensures Inv(r.ctrl) && StickyFrame(c, r) && r.ctrl.sticky == c.sticky
    ensures r.ctrl.stickyKeysExist && r.ctrl.driver.enabled
    ensures c.driver.enabled ==> r == Reply(c.(stickyKeysExist := true), [])
    ensures !c.driver.enabled ==>
      r.ctrl.backlightDisabled && r.ctrl.driver == MatrixEnable(c.driver)
      && r.sent == Repeat(Frame(CmdLedStatus, r.ctrl.txId, StatusPayload(r.ctrl)), 3)
      && r.ctrl == c.(stickyKeysExist := true, driver := MatrixEnable(c.driver),
                      backlightDisabled := true, txId := (c.txId + 1) % 0x100)
  {
    var c1 := c.(stickyKeysExist := true);
    if !c.driver.enabled then
      var s := SendStatus(c1.(driver := MatrixEnable(c1.driver), backlightDisabled := false));
      Reply(s.ctrl.(backlightDisabled := true), s.sent)
    else Reply(c1, [])
  }

  /** The sticky buffer with the addressed key's alpha cleared. */
  function ClearAlphaKey(buf: Buffer, row: nat, col: nat): (r: Buffer)
    requires row < NumRow && col < NumColumn
    ensures r[RowCol2Idx(row, col)].alpha == 0
    ensures forall i | 0 <= i < KeyCount ::
      r[i] == if i == RowCol2Idx(row, col) then buf[i].(alpha := 0) else buf[i]
  {
    buf[RowCol2Idx(row, col) := buf[RowCol2Idx(row, col)].(alpha := 0)]
  }

  /** The loop of `unsetStickyRow` from column col on. */
  function ClearAlphaRowFrom(buf: Buffer, row: nat, col: nat): (r: Buffer)
    requires row < NumRow && col <= NumColumn
    ensures forall i | 0 <= i < KeyCount ::
      r[i] == if i / NumColumn == row && i % NumColumn >= col then buf[i].(alpha := 0) else buf[i]
    decreases NumColumn - col
  {
    if col == NumColumn then buf
    else ClearAlphaRowFrom(ClearAlphaKey(buf, row, col), row, col + 1)
  }

  /** The loop of `unsetStickyAll` from key i on. */
  function ClearAlphaFrom(buf: Buffer, i: nat): (r: Buffer)
    requires i <= KeyCount
    ensures forall j | 0 <= j < KeyCount :: r[j] == if j >= i then buf[j].(alpha := 0) else buf[j]
    decreases KeyCount - i
  {
    if i == KeyCount then buf
    else ClearAlphaFrom(buf[i := buf[i].(alpha := 0)], i + 1)
  }

  /** Every key of an on-board row loses its alpha; the other keys keep
      theirs. */
  function ClearAlphaRow(buf: Buffer, row: nat): (r: Buffer)
    requires row < NumRow
    ensures forall i | 0 <= i < KeyCount ::
      r[i] == if i / NumColumn == row then buf[i].(alpha := 0) else buf[i]
  {
    ClearAlphaRowFrom(buf, row, 0)
  }

  /** Every key loses its alpha. */
  function ClearAlphaAll(buf: Buffer): (r: Buffer)
    ensures forall i | 0 <= i < KeyCount :: r[i] == buf[i].(alpha := 0)
    ensures forall i | 0 <= i < KeyCount :: r[i].alpha == 0
  {
    ClearAlphaFrom(buf, 0)
  }

  /** `unsetStickyKey`: an off-board key changes nothing; otherwise its
      sticky colour is hidden (alpha 0) and the sticky state rechecked. */
  function UnsetStickyKey(c: Controller, p: PayloadBuffer): (r: Reply)
    requires Inv(c)
    ensures Inv(r.ctrl) && StickyFrame(c, r)
    ensures !(p[0] as nat < NumRow && p[1] as nat < NumColumn) ==> r == Reply(c, [])
    ensures p[0] as nat < NumRow && p[1] as nat < NumColumn ==>
      r == CheckStickyExists(c.(sticky := ClearAlphaKey(c.sticky, p[0], p[1])))
  {
    if p[0] as nat >= NumRow || p[1] as nat >= NumColumn then Reply(c, [])
    else
      var s := ClearAlphaKey(c.sticky, p[0], p[1]);
      CheckFrame(c, s);
      CheckStickyExists(c.(sticky := s))
  }

  /** `unsetStickyRow`: an off-board row changes nothing; otherwise the
      alpha of every key of the row is cleared and the sticky state
      rechecked. */
  function UnsetStickyRow(c: Controller, p: PayloadBuffer): (r: Reply)
    requires Inv(c)
    ensures Inv(r.ctrl) && StickyFrame(c, r)
    ensures p[0] as nat >= NumRow ==> r == Reply(c, [])
    ensures p[0] as nat < NumRow ==> r.ctrl.sticky == ClearAlphaRow(c.sticky, p[0])
    ensures p[0] as nat < NumRow ==> r == CheckStickyExists(c.(sticky := r.ctrl.sticky))
  {
    if p[0] as nat >= NumRow then Reply(c, []) else UnsetRow(c, p[0])
  }

  function UnsetRow(c: Controller, row: nat): (r: Reply)
    requires Inv(c) && row < NumRow
    ensures Inv(r.ctrl) && StickyFrame(c, r)
    ensures r.ctrl.sticky == ClearAlphaRow(c.sticky, row)
    ensures r == CheckStickyExists(c.(sticky := r.ctrl.sticky))
  {
    var s := ClearAlphaRow(c.sticky, row);
    CheckFrame(c, s);
    CheckStickyExists(c.(sticky := s))
  }

  /** Rechecking after any change of the sticky buffer keeps the invariant
      and the sticky frame. */
  lemma CheckFrame(c: Controller, s: Buffer)
    requires Inv(c)
    ensures var r := CheckStickyExists(c.(sticky := s)); Inv(r.ctrl) && StickyFrame(c, r)
  {
  }

  /** `unsetStickyAll`: every sticky key is hidden, so afterwards no sticky
      key exists; a matrix that only sticky keys kept on goes off. */
  function UnsetStickyAll(c: Controller): (r: Reply)
    requires Inv(c)
    ensures Inv(r.ctrl) && StickyFrame(c, r)
    ensures r.ctrl.sticky == ClearAlphaAll(c.sticky)
    ensures !r.ctrl.stickyKeysExist
    ensures c.backlightDisabled && c.driver.enabled ==>
      !r.ctrl.driver.enabled && r.sent == Repeat(Frame(CmdLedStatus, r.ctrl.txId, StatusPayload(r.ctrl)), 3)
    ensures !(c.backlightDisabled && c.driver.enabled) ==> r.sent == [] && r.ctrl.driver == c.driver
  {
    var s := ClearAlphaAll(c.sticky);
    CheckFrame(c, s);
    CheckStickyExists(c.(sticky := s))
  }

  /** A sticky key set through the `set` buffer operation: the sticky
      buffer is written and the matrix turned on if needed. */
  function StickySet(c: Controller, s: Buffer): (r: Reply)
    requires Inv(c)
    ensures Inv(r.ctrl) && StickyFrame(c, r)
    ensures r.ctrl.sticky == s && r.ctrl.stickyKeysExist && r.ctrl.driver.enabled
    ensures r == HandleStickyEnabled(c.(sticky := s))
  {
    HandleStickyEnabled(c.(sticky := s))
  }

  /** LED_ON: the profile is re-executed with its init hook, the matrix is
      turned on (clearing the backlight-disabled flag) and the status sent. */
  function LedOnCmd(ext: Externals, c: Controller): (r: Reply)
    requires Inv(c)
    ensures r.ctrl.lights == ExecuteProfile(ext, c.lights, true)
    ensures r.ctrl.driver == MatrixEnable(c.driver) && !r.ctrl.backlightDisabled
    ensures r.ctrl == c.(lights := r.ctrl.lights, driver := r.ctrl.driver,
                         backlightDisabled := false, txId := (c.txId + 1) % 0x100)
    ensures StatusPayload(r.ctrl)[2] == 1
  {
    var c1 := c.(lights := ExecuteProfile(ext, c.lights, true),
                 driver := MatrixEnable(c.driver), backlightDisabled := false);
    SendStatus(c1)
  }

  /** LED_OFF: the matrix is turned off and the status sent. */
  function LedOffCmd(c: Controller): (r: Reply)
    requires Inv(c)
    ensures r.ctrl == c.(driver := MatrixDisable(c.driver), txId := (c.txId + 1) % 0x100)
    ensures StatusPayload(r.ctrl)[2] == 0
  {
    SendStatus(c.(driver := MatrixDisable(c.driver)))
  }

  /** Replace the lighting state and send the status. */
  function WithLights(c: Controller, l: Lights): (r: Reply)
    requires Scheduler.Valid(l)
    ensures r.ctrl == c.(lights := l, txId := (c.txId + 1) % 0x100)
    ensures r.sent == Repeat(Frame(CmdLedStatus, r.ctrl.txId, StatusPayload(r.ctrl)), 3)
  {
    SendStatus(c.(lights := l))
  }

  /** The commands that act on the profile state or the matrix power. */
  predicate IsControl(cmd: Command) {
    cmd.LedOn? || cmd.LedOff? || cmd.SetProfileCmd? || cmd.NextProfileCmd? || cmd.PrevProfileCmd?
    || cmd.NextIntensityCmd? || cmd.NextSpeedCmd? || cmd.Iap? || cmd.KeyDown?
  }

  /** The commands that only write the sticky buffer or its flags. */
  predicate IsSticky(cmd: Command) {
    cmd.StickySetKey? || cmd.StickySetRow? || cmd.StickySetMono?
    || cmd.StickyUnsetKey? || cmd.StickyUnsetRow? || cmd.StickyUnsetAll?
  }

  /** The matrix power commands. */
  predicate IsPower(cmd: Command) {
    cmd.LedOn? || cmd.LedOff? || cmd.Iap?
  }

  /** The commands that step or select the profile, intensity or speed. */
  predicate IsProfileStep(cmd: Command) {
    cmd.SetProfileCmd? || cmd.NextProfileCmd? || cmd.PrevProfileCmd?
    || cmd.NextIntensityCmd? || cmd.NextSpeedCmd?
  }

  /** LED_ON, LED_OFF and IAP (the jump to the bootloader is not modelled,
      so IAP changes nothing). */
  function Power(ext: Externals, c: Controller, cmd: Command): (r: Reply)
    requires Inv(c) && IsPower(cmd)
    ensures Inv(r.ctrl) && r.ctrl.proto == c.proto && DriverStep(c.driver, r.ctrl.driver)
    ensures r.ctrl.mask == c.mask && r.ctrl.sticky == c.sticky && r.ctrl.manualControl == c.manualControl
    ensures SentStatusOrNothing(c, r)
    ensures cmd.LedOn? ==> r == LedOnCmd(ext, c)
    ensures cmd.LedOff? ==> r == LedOffCmd(c)
    ensures cmd.Iap? ==> r == Reply(c, [])
  {
    match cmd
    case LedOn => LedOnCmd(ext, c)
    case LedOff => LedOffCmd(c)
    case Iap => Reply(c, [])
  }

  /** The profile, intensity and speed commands: each replaces the
      lighting state and sends the status. */
  function ProfileStep(ext: Externals, c: Controller, cmd: Command, p: PayloadBuffer): (r: Reply)
    requires Inv(c) && IsProfileStep(cmd)
    ensures Inv(r.ctrl) && r.ctrl.driver == c.driver
    ensures r.ctrl == c.(lights := r.ctrl.lights, txId := r.ctrl.txId)
    ensures SentStatusOrNothing(c, r)
    ensures cmd.SetProfileCmd? ==> r == WithLights(c, SetProfile(ext, c.lights, p[0]))
    ensures cmd.NextProfileCmd? ==> r == WithLights(c, NextProfile(ext, c.lights))
    ensures cmd.PrevProfileCmd? ==> r == WithLights(c, PrevProfile(ext, c.lights))
    ensures cmd.NextIntensityCmd? ==> r == WithLights(c, NextIntensity(ext, c.lights))
    ensures cmd.NextSpeedCmd? ==> r == WithLights(c, NextSpeed(c.lights))
  {
    match cmd
    case SetProfileCmd => WithLights(c, SetProfile(ext, c.lights, p[0]))
    case NextProfileCmd => WithLights(c, NextProfile(ext, c.lights))
    case PrevProfileCmd => WithLights(c, PrevProfile(ext, c.lights))
    case NextIntensityCmd => WithLights(c, NextIntensity(ext, c.lights))
    case NextSpeedCmd => WithLights(c, NextSpeed(c.lights))
  }

  /** The profile and power commands: each runs the firmware operation of
      its `case` in `commandCallback`. */
  function Control(ext: Externals, c: Controller, cmd: Command, p: PayloadBuffer): (r: Reply)
    requires Inv(c) && IsControl(cmd)
    ensures Inv(r.ctrl) && r.ctrl.proto == c.proto && DriverStep(c.driver, r.ctrl.driver)
    ensures r.ctrl.mask == c.mask && r.ctrl.sticky == c.sticky && r.ctrl.manualControl == c.manualControl
    ensures SentStatusOrNothing(c, r)
    ensures cmd.LedOn? ==> r == LedOnCmd(ext, c)
    ensures cmd.LedOff? ==> r == LedOffCmd(c)
    ensures cmd.SetProfileCmd? ==> r == WithLights(c, SetProfile(ext, c.lights, p[0]))
    ensures cmd.NextProfileCmd? ==> r == WithLights(c, NextProfile(ext, c.lights))
    ensures cmd.PrevProfileCmd? ==> r == WithLights(c, PrevProfile(ext, c.lights))
    ensures cmd.NextIntensityCmd? ==> r == WithLights(c, NextIntensity(ext, c.lights))
    ensures cmd.NextSpeedCmd? ==> r == WithLights(c, NextSpeed(c.lights))
    ensures cmd.Iap? ==> r == Reply(c, [])
    ensures cmd.KeyDown? ==> r == Reply(c.(lights := HandleKeypress(ext, c.lights, p[0])), [])
  {
    if IsPower(cmd) then Power(ext, c, cmd)
    else if IsProfileStep(cmd) then ProfileStep(ext, c, cmd, p)
    else Reply(c.(lights := HandleKeypress(ext, c.lights, p[0])), [])
  }

  /** What a colour-writing command addresses: one key, one row or the
      whole board. */
  datatype Shape = OneKey | OneRow | AllKeys

  predicate IsMaskSet(cmd: Command) {
    cmd.MaskSetKey? || cmd.MaskSetRow? || cmd.MaskSetMono?
  }

  predicate IsColorSet(cmd: Command) {
    cmd.ColorSetKey? || cmd.ColorSetRow? || cmd.ColorSetMono?
  }

  predicate IsStickySet(cmd: Command) {
    cmd.StickySetKey? || cmd.StickySetRow? || cmd.StickySetMono?
  }

  function ShapeOf(cmd: Command): Shape
    requires IsMaskSet(cmd) || IsColorSet(cmd) || IsStickySet(cmd)
  {
    if cmd.MaskSetKey? || cmd.ColorSetKey? || cmd.StickySetKey? then OneKey
    else if cmd.MaskSetRow? || cmd.ColorSetRow? || cmd.StickySetRow? then OneRow
    else AllKeys
  }

  /** The shared writer behind the `setMask*`, `setColor*` and `setSticky*`
      helpers. */
  function WriteShape(intensity: uint8, buf: Buffer, shape: Shape, p: PayloadBuffer): (r: Buffer)
    ensures shape == OneKey ==> r == SetLedKey(intensity, buf, p)
    ensures shape == OneRow ==> r == SetLedRow(intensity, buf, p)
    ensures shape == AllKeys ==> r == SetLedMono(intensity, buf, p)
  {
    match shape
    case OneKey => SetLedKey(intensity, buf, p)
    case OneRow => SetLedRow(intensity, buf, p)
    case AllKeys => SetLedMono(intensity, buf, p)
  }

  /** The colour-writing commands of the mask and colour buffers, manual
      control and the blinker (whose thread is not modelled). None sends
      anything or touches the profile state. */
  function Paint(c: Controller, cmd: Command, p: PayloadBuffer): (r: Reply)
    requires Inv(c) && !IsControl(cmd) && !IsSticky(cmd)
    ensures Inv(r.ctrl) && r.sent == []
    ensures r.ctrl == c.(mask := r.ctrl.mask, lights := c.lights.(colors := r.ctrl.lights.colors),
                         manualControl := r.ctrl.manualControl)
    ensures IsMaskSet(cmd) ==> r.ctrl.mask == WriteShape(c.lights.ledIntensity, c.mask, ShapeOf(cmd), p)
    ensures IsColorSet(cmd) ==>
      r.ctrl.lights.colors == WriteShape(c.lights.ledIntensity, c.lights.colors, ShapeOf(cmd), p)
    ensures cmd.SetManual? ==> r.ctrl.manualControl == p[0]
    ensures cmd.KeyBlink? ==> r.ctrl == c
  {
    var i := c.lights.ledIntensity;
    if IsMaskSet(cmd) then Reply(c.(mask := WriteShape(i, c.mask, ShapeOf(cmd), p)), [])
    else if IsColorSet(cmd) then
      Reply(c.(lights := c.lights.(colors := WriteShape(i, c.lights.colors, ShapeOf(cmd), p))), [])
    else if cmd.SetManual? then Reply(c.(manualControl := p[0]), [])
    else Reply(c, [])
  }

  /** The sticky-key commands. None touches the lighting state, the mask
      or the receiver. */
  function Sticky(c: Controller, cmd: Command, p: PayloadBuffer): (r: Reply)
    requires Inv(c) && IsSticky(cmd)
    ensures Inv(r.ctrl) && StickyFrame(c, r)
    ensures IsStickySet(cmd) ==>
      r == StickySet(c, WriteShape(c.lights.ledIntensity, c.sticky, ShapeOf(cmd), p))
    ensures cmd.StickyUnsetKey? ==> r == UnsetStickyKey(c, p)
    ensures cmd.StickyUnsetRow? ==> r == UnsetStickyRow(c, p)
    ensures cmd.StickyUnsetAll? ==> r == UnsetStickyAll(c)
  {
    if IsStickySet(cmd) then StickySet(c, WriteShape(c.lights.ledIntensity, c.sticky, ShapeOf(cmd), p))
    else if cmd.StickyUnsetKey? then UnsetStickyKey(c, p)
    else if cmd.StickyUnsetRow? then UnsetStickyRow(c, p)
    else UnsetStickyAll(c)
  }

  /** `commandCallback`: one delivered message. An unknown code only counts
      an error; every known one leaves the receiver alone, keeps the
      invariant, and sends either nothing or one status report of the state
      it leaves. */
  function CommandCallback(ext: Externals, table: CodeTable, c: Controller, msg: Message): (r: Reply)
    requires Inv(c)
    ensures Inv(r.ctrl)
    ensures msg.command !in table ==>
      r == Reply(c.(proto := c.proto.(errors := (c.proto.errors + 1) % 0x100)), [])
    ensures msg.command in table ==> r.ctrl.proto == c.proto
    ensures r.ctrl.proto == c.proto.(errors := r.ctrl.proto.errors)
    ensures DriverStep(c.driver, r.ctrl.driver) && SentStatusOrNothing(c, r)
    ensures msg.command in table && IsControl(table[msg.command]) ==>
      r == Control(ext, c, table[msg.command], msg.payload)
    ensures msg.command in table && IsSticky(table[msg.command]) ==>
      r == Sticky(c, table[msg.command], msg.payload)
    ensures msg.command in table && !IsControl(table[msg.command]) && !IsSticky(table[msg.command]) ==>
      r == Paint(c, table[msg.command], msg.payload)
  {
    if msg.command !in table then Reply(c.(proto := CountError(c.proto)), [])
    else
      var cmd := table[msg.command];
      if IsControl(cmd) then Control(ext, c, cmd, msg.payload)
      else if IsSticky(cmd) then Sticky(c, cmd, msg.payload)
      else Paint(c, cmd, msg.payload)
  }

  /** Under the header's codes, byte 0x01 turns the backlight on, 0x04
      steps to the next profile, 0x22 runs the key-press hook on the
      payload's key byte and nothing is sent, and a code the dispatcher has
      no case for (0x13, mask clear) only counts an error. */
  lemma StandardDispatch(ext: Externals, table: CodeTable, c: Controller, msg: Message)
    requires Inv(c) && StandardCodes(table)
    ensures msg.command == 0x01 ==> CommandCallback(ext, table, c, msg) == LedOnCmd(ext, c)
    ensures msg.command == 0x04 ==>
      CommandCallback(ext, table, c, msg) == WithLights(c, NextProfile(ext, c.lights))
    ensures msg.command == 0x22 ==>
      CommandCallback(ext, table, c, msg)
        == Reply(c.(lights := HandleKeypress(ext, c.lights, msg.payload[0])), [])
    ensures msg.command == 0x13 ==>
      CommandCallback(ext, table, c, msg)
        == Reply(c.(proto := c.proto.(errors := (c.proto.errors + 1) % 0x100)), [])
  {
    var r := CommandCallback(ext, table, c, msg);
    if msg.command == 0x01 {
      assert r == Control(ext, c, LedOn, msg.payload);
    } else if msg.command == 0x04 {
      assert r == Control(ext, c, NextProfileCmd, msg.payload);
    } else if msg.command == 0x22 {
      assert r == Control(ext, c, KeyDown, msg.payload);
    }
  }

  /** The status report reaches the main controller: the frames a command
      sent, fed to a synchronised receiver that has not yet seen the new id,
      deliver exactly one status message whose payload is the status of the
      state the command left. */
  lemma StatusReachesMain(c: Controller, r: Reply, main: Proto)
    requires r.ctrl.lights.currentProfile < AmountOfProfiles
    requires SentStatusOrNothing(c, r) && r.sent != []
    requires Protocol.Valid(main) && main.state == Sync1 && main.previousId != r.ctrl.txId
    ensures var f := Feed(main, r.sent);
      |f.delivered| == 1 && f.delivered[0].command == CmdLedStatus
      && f.delivered[0].msgId == r.ctrl.txId
      && f.delivered[0].payload[..6] == StatusPayload(r.ctrl)
  {
    var payload := StatusPayload(r.ctrl);
    RepeatedFrameDeliversOnce(main, CmdLedStatus, r.ctrl.txId, payload, 3);
    FrameRoundTrip(main, CmdLedStatus, r.ctrl.txId, payload);
  }

  /** Sticky keys light a dark board only for as long as they exist: with
      the matrix off, setting a sticky key turns it on, and clearing every
      sticky key afterwards turns it off again; each step reports it. */
  lemma StickyKeysBorrowTheMatrix(c: Controller, cmd: Command, p: PayloadBuffer)
    requires Inv(c) && !c.driver.enabled && IsStickySet(cmd)
    ensures var on := Sticky(c, cmd, p); var clear := UnsetStickyAll(on.ctrl);
      on.ctrl.driver.enabled && on.ctrl.stickyKeysExist && on.ctrl.backlightDisabled
      && StatusPayload(on.ctrl)[2] == 1 && on.sent != []
      && !clear.ctrl.driver.enabled && !clear.ctrl.stickyKeysExist
      && StatusPayload(clear.ctrl)[2] == 0 && clear.sent != []
  {
  }

  /** Turning the backlight on hands the matrix back to the user: after
      LED_ON, clearing every sticky key leaves the matrix on and sends
      nothing. */
  lemma LedOnKeepsMatrixAfterSticky(ext: Externals, c: Controller)
    requires Inv(c)
    ensures var on := LedOnCmd(ext, c); var clear := UnsetStickyAll(on.ctrl);
      clear.ctrl.driver.enabled && clear.sent == []
  {
  }
}

=== FILE: fastled.dfy ===
/** Integer colour helpers adapted from FastLED: intensity dimming and the
    8-bit "rainbow-less" HSV to RGB conversion, plus the HSV fills. */
module FastLed {
  import opened Bytes
  import opened Board
  import opened Led
  import opened LightUtils

  /** The value `dimValue` returns: its result type is a signed byte, so a
      difference above 127 comes back negative. */
  function DimValueRaw(intensity: uint8, value: uint8): int8 {
    var dimBy := Wrap8(intensity * 30);
    if dimBy > value then 0 else ToInt8(value - dimBy)
  }

  /** `dimValue` as its callers store it back into an unsigned colour byte:
      for every intensity the firmware can hold (0..7) this is
      `value - 30 * intensity`, floored at 0; the signed return type never
      loses information. */
  function DimValue(intensity: uint8, value: uint8): (r: uint8)
    ensures r <= value
    ensures intensity <= 7 ==>
      r == if 30 * intensity > value then 0 else value - 30 * intensity
  {
    var dimBy := Wrap8(intensity * 30);
    assert intensity <= 7 ==> dimBy == 30 * intensity;
    assert dimBy <= value ==> Wrap8(ToInt8(value - dimBy)) == value - dimBy by {
      if dimBy <= value {
        ByteRoundTrip(value - dimBy);
      }
    }
    Wrap8(DimValueRaw(intensity, value))
  }

  /** A byte survives the trip through a signed byte and back. */
  lemma ByteRoundTrip(x: uint8)
    ensures Wrap8(ToInt8(x)) == x
  {
  }

  /** Intensity 0 (the default, "full intensity") leaves every value as is. */
  lemma DimFullIntensity(value: uint8)
    ensures DimValue(0, value) == value
  {
  }

  /** Raising the intensity step never brightens a value. */
  lemma DimMonotone(i: uint8, j: uint8, value: uint8)
    requires i <= j <= 7
    ensures DimValue(j, value) <= DimValue(i, value)
  {
  }

  /** `naiveDimLed`: blue, red and green are dimmed, alpha is kept. */
  function NaiveDimLed(intensity: uint8, c: Led): (r: Led)
    ensures r.alpha == c.alpha
    ensures r.blue <= c.blue && r.green <= c.green && r.red <= c.red
    ensures intensity == 0 ==> r == c
  {
    Led(DimValue(intensity, c.blue), DimValue(intensity, c.green),
        DimValue(intensity, c.red), c.alpha)
  }

  /** `naiveDimRGB`: the word view of dimming the colour view of `w`. Its
      top byte (alpha) is unchanged and full intensity is the identity. */
  function NaiveDimRgb(intensity: uint8, w: uint32): (r: uint32)
    ensures Unpack(r) == NaiveDimLed(intensity, Unpack(w))
    ensures r / 0x100_0000 == w / 0x100_0000
    ensures intensity == 0 ==> r == w
  {
    var c := NaiveDimLed(intensity, Unpack(w));
    UnpackPack(c);
    PackUnpack(w);
    Pack(c)
  }

  /** The three bytes `hsv2rgb` writes: results[0], [1] and [2], which the
      fills store as red, green and blue. */
  datatype Rgb = Rgb(red: uint8, green: uint8, blue: uint8)

  const HsvSection3: nat := 0x40

  /** The brightness floor `(val * (255 - sat)) / 256`: never above `val`,
      and zero at full saturation. */
  function BrightnessFloor(sat: uint8, val: uint8): (f: uint8)
    ensures f <= val
    ensures sat == 255 ==> f == 0
  {
    FloorBelow(sat, val);
    Wrap8((val * (255 - sat)) / 256)
  }

  lemma FloorBelow(sat: uint8, val: uint8)
    ensures 0 <= (val * (255 - sat)) / 256 <= val
    ensures sat == 255 ==> val * (255 - sat) == 0
  {
    var m := val * (255 - sat);
    MulNonNeg(val, sat);
    MulNonNeg(val, 255 - sat);
    assert m == 255 * val - val * sat;
    assert 0 <= m <= 255 * val;
  }

  lemma MulNonNeg(a: nat, b: nat)
    ensures a * b >= 0
  {
  }

  /** A ramp (0..63) scaled by the colour amplitude and lifted by the floor,
      each stored as a byte. When floor + amplitude fits a byte, neither
      store truncates and the result stays between floor and floor +
      amplitude. */
  function RampWithFloor(ramp: nat, amp: uint8, floor: uint8): (r: uint8)
    requires ramp < HsvSection3
    requires floor + amp <= 255
    ensures r == (ramp * amp) / 64 + floor
    ensures floor <= r <= floor + amp
  {
    ScaledRampBound(ramp, amp);
    var adj := Wrap8((ramp * amp) / (256 / 4));
    Wrap8(adj + floor)
  }

  lemma ScaledRampBound(ramp: nat, amp: nat)
    requires ramp < 64
    ensures (ramp * amp) / 64 <= amp
  {
    assert ramp * amp <= 64 * amp by {
      assert ramp * amp <= 64 * amp <== ramp <= 64;
    }
    var q := (ramp * amp) / 64;
    assert 64 * q <= ramp * amp;
  }

  /** `hsv2rgb`. The floor channel is results[2] (blue) in section 0 (hue
      below 64), results[0] (red) in section 1 (64..127) and results[1]
      (green) from hue 128 on, section 3 (192..255) taking section 2's
      branch. Every channel lies between the floor and `val`, so none of the
      byte additions overflow. */
  function Hsv2Rgb(hue: uint8, sat: uint8, val: uint8): (r: Rgb)
    ensures var f := BrightnessFloor(sat, val);
      && f <= r.red <= val && f <= r.green <= val && f <= r.blue <= val
      && (hue < 64 ==> r.blue == f)
      && (64 <= hue < 128 ==> r.red == f)
      && (128 <= hue ==> r.green == f)
  {
    var value := val;
    var invsat: uint8 := 255 - sat;
    var floor := BrightnessFloor(sat, value);
    var amp := Wrap8(value - floor);
    var section := hue / HsvSection3;
    var offset := hue % HsvSection3;
    var up := RampWithFloor(offset, amp, floor);
    var down := RampWithFloor((HsvSection3 - 1) - offset, amp, floor);
    if section != 0 then
      if section == 1 then Rgb(floor, down, up)
      else Rgb(up, floor, down)
    else Rgb(down, up, floor)
  }

  function HsvPaint(hue: uint8, sat: uint8, val: uint8): Paint {
    var c := Hsv2Rgb(hue, sat, val);
    Channels(c.red, c.green, c.blue)
  }

  /** `setAllKeysColorHSV`: every key gets the same converted red, green and
      blue; alpha bytes are untouched. */
  function SetAllKeysColorHsv(buf: Buffer, hue: uint8, sat: uint8, val: uint8): (r: Buffer)
    ensures var c := Hsv2Rgb(hue, sat, val);
      forall i | 0 <= i < KeyCount :: r[i] == Led(c.blue, c.green, c.red, buf[i].alpha)
  {
    AllIdsCover();
    WriteKeys(buf, AllIds(), 0, HsvPaint(hue, sat, val))
  }

  /** `setColumnColorHSV`: only the 5 keys of column `column` change. The
      firmware does not check the column; every caller passes one below 14. */
  function SetColumnColorHsv(buf: Buffer, column: nat, hue: uint8, sat: uint8, val: uint8): (r: Buffer)
    requires column < NumColumn
    ensures var c := Hsv2Rgb(hue, sat, val);
      forall i | 0 <= i < KeyCount ::
        r[i] == if i % NumColumn == column then Led(c.blue, c.green, c.red, buf[i].alpha) else buf[i]
  {
    ColumnIdsMembers(column);
    assert ColumnIds(column)[0..] == ColumnIds(column);
    WriteKeys(buf, ColumnIds(column), 0, HsvPaint(hue, sat, val))
  }

  /** `setRowColorHSV`: only the 14 keys of row `row` change. */
  function SetRowColorHsv(buf: Buffer, row: nat, hue: uint8, sat: uint8, val: uint8): (r: Buffer)
    requires row < NumRow
    ensures var c := Hsv2Rgb(hue, sat, val);
      forall i | 0 <= i < KeyCount ::
        r[i] == if i / NumColumn == row then Led(c.blue, c.green, c.red, buf[i].alpha) else buf[i]
  {
    RowIdsMembers(row);
    assert RowIds(row)[0..] == RowIds(row);
    WriteKeys(buf, RowIds(row), 0, HsvPaint(hue, sat, val))
  }
}

=== FILE: fills.dfy ===
/** The colour fills the effects are built from: row-by-row and
    column-by-column painting loops, the rainbow palette, and per-column
    HSV paints. */
module Fills {
  import opened Bytes
  import opened Board
  import opened Led
  import opened LightUtils
  import opened FastLed


  /** The seven basic colours used across profiles. */
  const Palette: seq<uint32> := [0x9c0000, 0x9c9900, 0x1f9c00, 0x00979c,
                                 0x003e9c, 0x39009c, 0x9c008f]

  /** The palette unpacked into colour records. */
  const RainbowLeds: seq<Led> := [
    Led(0x00, 0x00, 0x9c, 0), Led(0x00, 0x99, 0x9c, 0), Led(0x00, 0x9c, 0x1f, 0),
    Led(0x9c, 0x97, 0x00, 0), Led(0x9c, 0x3e, 0x00, 0), Led(0x9c, 0x00, 0x39, 0),
    Led(0x8f, 0x00, 0x9c, 0)]

  /** The unpacked palette is the packed one, entry by entry. */
  lemma RainbowLedsUnpackPalette()
    ensures |RainbowLeds| == |Palette|
    ensures forall i | 0 <= i < 7 :: RainbowLeds[i] == Unpack(Palette[i])
  {
    assert Unpack(0x9c0000) == RainbowLeds[0];
    assert Unpack(0x9c9900) == RainbowLeds[1];
    assert Unpack(0x1f9c00) == RainbowLeds[2];
    assert Unpack(0x00979c) == RainbowLeds[3];
    assert Unpack(0x003e9c) == RainbowLeds[4];
    assert Unpack(0x39009c) == RainbowLeds[5];
    assert Unpack(0x9c008f) == RainbowLeds[6];
  }

  /** Rainbow position i, repeating every seven. */
  function RainbowColor(i: nat): Led {
    RainbowLeds[i % 7]
  }

  /** One byte, or one direction, per column. */
  type ColumnBytes = s: seq<uint8> | |s| == NumColumn witness seq(14, _ => 0)
  /** The same byte for every column. */
  function Fixed(b: uint8): (s: ColumnBytes)
    ensures forall i | 0 <= i < NumColumn :: s[i] == b
  {
    seq(NumColumn, _ => b)
  }

  type ColumnDirs = s: seq<int> | |s| == NumColumn witness seq(14, _ => 0)

  /** The loop `for each row: paint the row with paints[row]`, as its
      result: every key takes its row's paint. */
  function PaintRows(buf: Buffer, paints: seq<Paint>): (r: Buffer)
    requires |paints| == NumRow
    ensures forall k | 0 <= k < KeyCount :: r[k] == Apply(paints[k / NumColumn], buf[k])
  {
    seq(KeyCount, k requires 0 <= k < KeyCount => Apply(paints[k / NumColumn], buf[k]))
  }

  /** The loop `for each column: paint the column with paints[column]`, as
      its result: every key takes its column's paint. */
  function PaintColumns(buf: Buffer, paints: seq<Paint>): (r: Buffer)
    requires |paints| == NumColumn
    ensures forall k | 0 <= k < KeyCount :: r[k] == Apply(paints[k % NumColumn], buf[k])
  {
    seq(KeyCount, k requires 0 <= k < KeyCount => Apply(paints[k % NumColumn], buf[k]))
  }

  /** One column written with one paint, key by key down the column (the
      inner loop of the column-wise effects). */
  function PaintColumn(buf: Buffer, col: nat, p: Paint): (r: Buffer)
    requires col < NumColumn
    ensures forall k | 0 <= k < KeyCount ::
      r[k] == if k % NumColumn == col then Apply(p, buf[k]) else buf[k]
  {
    ColumnIdsMembers(col);
    assert ColumnIds(col)[0..] == ColumnIds(col);
    WriteKeys(buf, ColumnIds(col), 0, p)
  }

  /** One row written with one paint, key by key along the row. */
  function PaintRow(buf: Buffer, row: nat, p: Paint): (r: Buffer)
    requires row < NumRow
    ensures forall k | 0 <= k < KeyCount ::
      r[k] == if k / NumColumn == row then Apply(p, buf[k]) else buf[k]
  {
    RowIdsMembers(row);
    assert RowIds(row)[0..] == RowIds(row);
    WriteKeys(buf, RowIds(row), 0, p)
  }

  /** The column loop as the effects write it: columns col, col + 1, ..,
      13 are painted one after another, each with its own paint. */
  function ColumnLoop(buf: Buffer, paints: seq<Paint>, col: nat): Buffer
    requires |paints| == NumColumn && col <= NumColumn
    decreases NumColumn - col
  {
    if col == NumColumn then buf
    else ColumnLoop(PaintColumn(buf, col, paints[col]), paints, col + 1)
  }

  /** The row loop: rows row, row + 1, .., 4 painted one after another. */
  function RowLoop(buf: Buffer, paints: seq<Paint>, row: nat): Buffer
    requires |paints| == NumRow && row <= NumRow
    decreases NumRow - row
  {
    if row == NumRow then buf
    else RowLoop(PaintRow(buf, row, paints[row]), paints, row + 1)
  }

  /** Started at column col, the loop paints exactly the columns it has
      still to visit and leaves the earlier ones as they were. */
  lemma {:induction false} ColumnLoopFrom(buf: Buffer, paints: seq<Paint>, col: nat)
    requires |paints| == NumColumn && col <= NumColumn
    ensures forall k | 0 <= k < KeyCount ::
      ColumnLoop(buf, paints, col)[k]
        == if k % NumColumn >= col then Apply(paints[k % NumColumn], buf[k]) else buf[k]
    decreases NumColumn - col
  {
    if col < NumColumn {
      ColumnLoopFrom(PaintColumn(buf, col, paints[col]), paints, col + 1);
    }
  }

  lemma {:induction false} RowLoopFrom(buf: Buffer, paints: seq<Paint>, row: nat)
    requires |paints| == NumRow && row <= NumRow
    ensures forall k | 0 <= k < KeyCount ::
      RowLoop(buf, paints, row)[k]
        == if k / NumColumn >= row then Apply(paints[k / NumColumn], buf[k]) else buf[k]
    decreases NumRow - row
  {
    if row < NumRow {
      RowLoopFrom(PaintRow(buf, row, paints[row]), paints, row + 1);
    }
  }

  /** The whole column loop is the closed form: every key takes its
      column's paint, whatever the buffer and the palette. */
  lemma ColumnLoopPaintsColumns(buf: Buffer, paints: seq<Paint>)
    requires |paints| == NumColumn
    ensures ColumnLoop(buf, paints, 0) == PaintColumns(buf, paints)
  {
    ColumnLoopFrom(buf, paints, 0);
    ColumnsClosedForm(ColumnLoop(buf, paints, 0), buf, paints);
  }

  lemma ColumnsClosedForm(a: Buffer, buf: Buffer, paints: seq<Paint>)
    requires |paints| == NumColumn
    requires forall k | 0 <= k < KeyCount ::
      a[k] == if k % NumColumn >= 0 then Apply(paints[k % NumColumn], buf[k]) else buf[k]
    ensures a == PaintColumns(buf, paints)
  {
    var b := PaintColumns(buf, paints);
    assert forall k | 0 <= k < KeyCount :: a[k] == b[k];
  }

  /** The whole row loop is the closed form: every key takes its row's
      paint. */
  lemma RowLoopPaintsRows(buf: Buffer, paints: seq<Paint>)
    requires |paints| == NumRow
    ensures RowLoop(buf, paints, 0) == PaintRows(buf, paints)
  {
    RowLoopFrom(buf, paints, 0);
  }

  /** `setColumnColorHSV` is a column write of the converted colour. */
  lemma HsvColumnWrite(buf: Buffer, col: nat, hue: uint8, sat: uint8, val: uint8)
    requires col < NumColumn
    ensures SetColumnColorHsv(buf, col, hue, sat, val) == PaintColumn(buf, col, HsvPaint(hue, sat, val))
  {
    var a := SetColumnColorHsv(buf, col, hue, sat, val);
    var b := PaintColumn(buf, col, HsvPaint(hue, sat, val));
    assert forall k | 0 <= k < KeyCount :: a[k] == b[k];
  }

  /** `setRowColorHSV` is a row write of the converted colour. */
  lemma HsvRowWrite(buf: Buffer, row: nat, hue: uint8, sat: uint8, val: uint8)
    requires row < NumRow
    ensures SetRowColorHsv(buf, row, hue, sat, val) == PaintRow(buf, row, HsvPaint(hue, sat, val))
  {
    var a := SetRowColorHsv(buf, row, hue, sat, val);
    var b := PaintRow(buf, row, HsvPaint(hue, sat, val));
    assert forall k | 0 <= k < KeyCount :: a[k] == b[k];
  }

  /** The loop of `animatedRainbowFlow` and `animatedWave`: column by
      column, `setColumnColorHSV` with that column's hue and value at full
      saturation. */
  function HsvColumnLoop(buf: Buffer, hues: ColumnBytes, vals: ColumnBytes, col: nat): Buffer
    requires col <= NumColumn
    decreases NumColumn - col
  {
    if col == NumColumn then buf
    else HsvColumnLoop(SetColumnColorHsv(buf, col, hues[col], 255, vals[col]), hues, vals, col + 1)
  }

  /** The loop of `animatedRainbowWaterfall`: row by row,
      `setRowColorHSV` with that row's hue at full saturation, value 125. */
  function HsvRowLoop(buf: Buffer, hues: ColumnBytes, row: nat): Buffer
    requires row <= NumRow
    decreases NumRow - row
  {
    if row == NumRow then buf
    else HsvRowLoop(SetRowColorHsv(buf, row, hues[row], 255, 125), hues, row + 1)
  }

  /** Per column, the paint of hue hues[i] and value vals[i]. */
  function HsvColumnPaints(hues: ColumnBytes, vals: ColumnBytes): (paints: seq<Paint>)
    ensures |paints| == NumColumn
    ensures forall i | 0 <= i < NumColumn :: paints[i] == HsvPaint(hues[i], 255, vals[i])
  {
    seq(NumColumn, i requires 0 <= i < NumColumn => HsvPaint(hues[i], 255, vals[i]))
  }

  /** The `setColumnColorHSV` loop is the generic column loop over the
      converted colours. */
  lemma {:induction false} HsvColumnLoopIsColumnLoop(buf: Buffer, hues: ColumnBytes, vals: ColumnBytes, col: nat)
    requires col <= NumColumn
    ensures HsvColumnLoop(buf, hues, vals, col) == ColumnLoop(buf, HsvColumnPaints(hues, vals), col)
    decreases NumColumn - col
  {
    if col < NumColumn {
      HsvColumnWrite(buf, col, hues[col], 255, vals[col]);
      HsvColumnLoopIsColumnLoop(SetColumnColorHsv(buf, col, hues[col], 255, vals[col]), hues, vals, col + 1);
    }
  }

  /** The `setRowColorHSV` loop is the generic row loop over the converted
      colours of the first five hues. */
  lemma {:induction false} HsvRowLoopIsRowLoop(buf: Buffer, hues: ColumnBytes, row: nat)
    requires row <= NumRow
    ensures HsvRowLoop(buf, hues, row) == RowLoop(buf, HsvPaints(hues, 255, 125)[..NumRow], row)
    decreases NumRow - row
  {
    if row < NumRow {
      HsvRowWrite(buf, row, hues[row], 255, 125);
      HsvRowLoopIsRowLoop(SetRowColorHsv(buf, row, hues[row], 255, 125), hues, row + 1);
    }
  }

  /** The flow frame as the firmware computes it, with `setColumnColorHSV`
      per column, is HueColumnsFill. */
  lemma FlowLoopIsFill(buf: Buffer, hues: ColumnBytes)
    ensures HsvColumnLoop(buf, hues, Fixed(125), 0) == HueColumnsFill(buf, hues)
  {
    FixedValuePaints(hues, Fixed(125), 125);
    HsvColumnLoopPaints(buf, hues, Fixed(125), HsvPaints(hues, 255, 125));
  }

  /** The wave frame as the firmware computes it is BrightnessColumnsFill. */
  lemma WaveLoopIsFill(buf: Buffer, values: ColumnBytes)
    ensures HsvColumnLoop(buf, Fixed(190), values, 0) == BrightnessColumnsFill(buf, values)
  {
    FixedHuePaints(Fixed(190), values);
    HsvColumnLoopPaints(buf, Fixed(190), values, WavePaints(values));
  }

  /** The whole `setColumnColorHSV` loop is the closed form over the
      converted colours. */
  lemma HsvColumnLoopPaints(buf: Buffer, hues: ColumnBytes, vals: ColumnBytes, paints: seq<Paint>)
    requires paints == HsvColumnPaints(hues, vals)
    ensures HsvColumnLoop(buf, hues, vals, 0) == PaintColumns(buf, paints)
  {
    HsvColumnLoopIsColumnLoop(buf, hues, vals, 0);
    ColumnLoopPaintsColumns(buf, paints);
  }

  lemma FixedValuePaints(hues: ColumnBytes, vals: ColumnBytes, val: uint8)
    requires forall i | 0 <= i < NumColumn :: vals[i] == val
    ensures HsvColumnPaints(hues, vals) == HsvPaints(hues, 255, val)
  {
    var a, b := HsvColumnPaints(hues, vals), HsvPaints(hues, 255, val);
    assert forall i | 0 <= i < NumColumn :: a[i] == b[i];
  }

  lemma FixedHuePaints(hues: ColumnBytes, values: ColumnBytes)
    requires forall i | 0 <= i < NumColumn :: hues[i] == 190
    ensures HsvColumnPaints(hues, values) == WavePaints(values)
  {
    var a, b := HsvColumnPaints(hues, values), WavePaints(values);
    assert forall i | 0 <= i < NumColumn :: a[i] == b[i];
  }

  /** The waterfall frame as the firmware computes it, with
      `setRowColorHSV` per row, is HueRowsFill. */
  lemma WaterfallLoopIsFill(buf: Buffer, hues: ColumnBytes)
    ensures HsvRowLoop(buf, hues, 0) == HueRowsFill(buf, hues)
  {
    HsvRowLoopIsRowLoop(buf, hues, 0);
    RowLoopPaintsRows(buf, HsvPaints(hues, 255, 125)[..NumRow]);
  }

  /** The colour of row i in the horizontal rainbow. */
  function RowPalette(): (paints: seq<Paint>)
    ensures |paints| == NumRow
    ensures forall i | 0 <= i < NumRow :: paints[i] == Whole(RainbowColor(i))
  {
    seq(NumRow, i requires 0 <= i => Whole(RainbowColor(i)))
  }

  /** The colour of column i when the rainbow is shifted by `offset`. */
  function ColumnPalette(offset: uint8): (paints: seq<Paint>)
    ensures |paints| == NumColumn
    ensures forall i | 0 <= i < NumColumn :: paints[i] == Whole(RainbowColor(i + offset))
  {
    seq(NumColumn, i requires 0 <= i => Whole(RainbowColor(i + offset)))
  }

  /** Column i painted with palette colour (i + offset) mod 7. */
  function ShiftedRainbow(buf: Buffer, offset: uint8): (r: Buffer)
    ensures forall k | 0 <= k < KeyCount :: r[k] == RainbowColor(k % NumColumn + offset)
  {
    var r := PaintColumns(buf, ColumnPalette(offset));
    ShiftedColumns(buf, r, offset);
    r
  }

  lemma ShiftedColumns(buf: Buffer, r: Buffer, offset: uint8)
    requires forall k | 0 <= k < KeyCount ::
      r[k] == Apply(ColumnPalette(offset)[k % NumColumn], buf[k])
    ensures forall k | 0 <= k < KeyCount :: r[k] == RainbowColor(k % NumColumn + offset)
  {
    forall k | 0 <= k < KeyCount
      ensures r[k] == RainbowColor(k % NumColumn + offset)
    {
      var c := k % NumColumn;
      assert ColumnPalette(offset)[c] == Whole(RainbowColor(c + offset));
    }
  }

  /** Column i painted with hue hues[i] at full saturation, value 125. */
  function HueColumnsFill(buf: Buffer, hues: ColumnBytes): (r: Buffer)
    ensures forall k | 0 <= k < KeyCount ::
      var c := Hsv2Rgb(hues[k % NumColumn], 255, 125);
      r[k] == Led(c.blue, c.green, c.red, buf[k].alpha)
  {
    var r := PaintColumns(buf, HsvPaints(hues, 255, 125));
    HueColumns(buf, r, hues);
    r
  }

  lemma HueColumns(buf: Buffer, r: Buffer, hues: ColumnBytes)
    requires forall k | 0 <= k < KeyCount ::
      r[k] == Apply(HsvPaints(hues, 255, 125)[k % NumColumn], buf[k])
    ensures forall k | 0 <= k < KeyCount ::
      var c := Hsv2Rgb(hues[k % NumColumn], 255, 125);
      r[k] == Led(c.blue, c.green, c.red, buf[k].alpha)
  {
    forall k | 0 <= k < KeyCount
      ensures var c := Hsv2Rgb(hues[k % NumColumn], 255, 125);
        r[k] == Led(c.blue, c.green, c.red, buf[k].alpha)
    {
      var col := k % NumColumn;
      assert HsvPaints(hues, 255, 125)[col] == HsvPaint(hues[col], 255, 125);
    }
  }

  /** Per column, the paint of hue hues[i] at the given saturation and value. */
  function HsvPaints(hues: ColumnBytes, sat: uint8, val: uint8): (paints: seq<Paint>)
    ensures |paints| == NumColumn
    ensures forall i | 0 <= i < NumColumn :: paints[i] == HsvPaint(hues[i], sat, val)
  {
    seq(NumColumn, i requires 0 <= i < NumColumn => HsvPaint(hues[i], sat, val))
  }

  /** Row i painted with hue hues[i] at full saturation, value 125. */
  function HueRowsFill(buf: Buffer, hues: ColumnBytes): (r: Buffer)
    ensures forall k | 0 <= k < KeyCount ::
      var c := Hsv2Rgb(hues[k / NumColumn], 255, 125);
      r[k] == Led(c.blue, c.green, c.red, buf[k].alpha)
  {
    var r := PaintRows(buf, HsvPaints(hues, 255, 125)[..NumRow]);
    HueRows(buf, r, hues);
    r
  }

  lemma HueRows(buf: Buffer, r: Buffer, hues: ColumnBytes)
    requires forall k | 0 <= k < KeyCount ::
      r[k] == Apply(HsvPaints(hues, 255, 125)[..NumRow][k / NumColumn], buf[k])
    ensures forall k | 0 <= k < KeyCount ::
      var c := Hsv2Rgb(hues[k / NumColumn], 255, 125);
      r[k] == Led(c.blue, c.green, c.red, buf[k].alpha)
  {
    forall k | 0 <= k < KeyCount
      ensures var c := Hsv2Rgb(hues[k / NumColumn], 255, 125);
        r[k] == Led(c.blue, c.green, c.red, buf[k].alpha)
    {
      var row := k / NumColumn;
      assert HsvPaints(hues, 255, 125)[..NumRow][row] == HsvPaint(hues[row], 255, 125);
    }
  }

  lemma BrightnessColumns(buf: Buffer, r: Buffer, values: ColumnBytes)
    requires forall k | 0 <= k < KeyCount ::
      r[k] == Apply(WavePaints(values)[k % NumColumn], buf[k])
    ensures forall k | 0 <= k < KeyCount ::
      var c := Hsv2Rgb(190, 255, values[k % NumColumn]);
      r[k] == Led(c.blue, c.green, c.red, buf[k].alpha)
  {
    forall k | 0 <= k < KeyCount
      ensures var c := Hsv2Rgb(190, 255, values[k % NumColumn]);
        r[k] == Led(c.blue, c.green, c.red, buf[k].alpha)
    {
      var col := k % NumColumn;
      assert WavePaints(values)[col] == HsvPaint(190, 255, values[col]);
    }
  }

  /** Per column, hue 190 at brightness values[i]. */
  function WavePaints(values: ColumnBytes): (paints: seq<Paint>)
    ensures |paints| == NumColumn
    ensures forall i | 0 <= i < NumColumn :: paints[i] == HsvPaint(190, 255, values[i])
  {
    seq(NumColumn, i requires 0 <= i < NumColumn => HsvPaint(190, 255, values[i]))
  }

  /** Column i painted hue 190 at brightness values[i]. */
  function BrightnessColumnsFill(buf: Buffer, values: ColumnBytes): (r: Buffer)
    ensures forall k | 0 <= k < KeyCount ::
      var c := Hsv2Rgb(190, 255, values[k % NumColumn]);
      r[k] == Led(c.blue, c.green, c.red, buf[k].alpha)
  {
    var r := PaintColumns(buf, WavePaints(values));
    BrightnessColumns(buf, r, values);
    r
  }
}

=== FILE: led.dfy ===
/** The per-key colour record and the colour buffers built from it. A colour
    is four bytes {blue, green, red, alpha}; the firmware also reads the same
    four bytes as one little-endian 32-bit word. */
module Led {
  import opened Bytes
  import opened Board

  datatype Led = Led(blue: uint8, green: uint8, red: uint8, alpha: uint8)

  const Black := Led(0, 0, 0, 0)

  /** A colour buffer: one entry per key. */
  type Buffer = s: seq<Led> | |s| == KeyCount witness seq(70, _ => Led(0, 0, 0, 0))

  /** The zero-filled buffer (`memset(ledColors, 0, ...)`). */
  function Zeros(): (r: Buffer)
    ensures forall i | 0 <= i < KeyCount :: r[i] == Black
  {
    seq(KeyCount, i => Black)
  }

  /** The 32-bit word view of a colour. */
  function Pack(c: Led): uint32 {
    c.blue + 0x100 * c.green + 0x1_0000 * c.red + 0x100_0000 * c.alpha
  }

  /** The colour view of a 32-bit word. */
  function Unpack(w: uint32): Led {
    Led(w % 0x100, (w / 0x100) % 0x100, (w / 0x1_0000) % 0x100, w / 0x100_0000)
  }

  /** The two views describe the same four bytes: unpacking a packed colour
      gives the colour back. */
  lemma UnpackPack(c: Led)
    ensures Unpack(Pack(c)) == c
  {
    var w := Pack(c);
    assert w % 0x100 == c.blue;
    assert w / 0x100 == c.green + 0x100 * c.red + 0x1_0000 * c.alpha;
    assert w / 0x1_0000 == c.red + 0x100 * c.alpha;
    assert w / 0x100_0000 == c.alpha;
  }

  /** ... and packing an unpacked word gives the word back. */
  lemma PackUnpack(w: uint32)
    ensures Pack(Unpack(w)) == w
  {
    var c := Unpack(w);
    assert w == w % 0x100 + 0x100 * (w / 0x100);
    assert w / 0x100 == (w / 0x100) % 0x100 + 0x100 * (w / 0x1_0000);
    assert w / 0x1_0000 == (w / 0x1_0000) % 0x100 + 0x100 * (w / 0x100_0000);
  }
}

=== FILE: legacy.dfy ===
/** The byte-command dispatcher of the firmware's main loop (`executeMsg`
    and its helpers in main.c): a command byte, then the argument bytes the
    command reads from the serial line, acting on the lighting state, the
    matrix driver and the key masks, and answering with single bytes. */
module Legacy {
  import opened Bytes
  import opened Board
  import opened Led
  import opened LightUtils
  import opened Profiles
  import opened Settings
  import opened Scheduler
  import opened Matrix

  /** The commands `executeMsg` has a case for. */
  datatype Op =
    | LedOn | LedOff | LedSet | LedSetRow
    | SelectProfile | NextProfileOp | PrevProfileOp | GetProfile | GetNumProfiles
    | SetMask | ClearMask | NextIntensityOp | NextSpeedOp
    | SetForeground | ClearForeground | Iap

  /** Which byte names which command. The header fixes 0x1..0xB; the codes
      of the other five commands are a parameter of the model. */
  type OpTable = map<uint8, Op>

  predicate HeaderCodes(t: OpTable) {
    && 0x1 in t && t[0x1] == LedOn
    && 0x2 in t && t[0x2] == LedOff
    && 0x3 in t && t[0x3] == LedSet
    && 0x4 in t && t[0x4] == LedSetRow
    && 0x5 in t && t[0x5] == SelectProfile
    && 0x6 in t && t[0x6] == NextProfileOp
    && 0x7 in t && t[0x7] == PrevProfileOp
    && 0x8 in t && t[0x8] == GetProfile
    && 0x9 in t && t[0x9] == GetNumProfiles
    && 0xA in t && t[0xA] == SetMask
    && 0xB in t && t[0xB] == ClearMask
  }

  /** One mask byte per key. */
  type Masks = s: seq<uint8> | |s| == KeyCount witness seq(70, _ => 0xFF)

  /** `main` sets every mask to 0xFF before the loop starts. */
  function InitialMasks(): (m: Masks)
    ensures forall i | 0 <= i < KeyCount :: m[i] == 0xFF
  {
    seq(KeyCount, i => 0xFF)
  }

  /** What the dispatcher acts on. */
  datatype Device = Device(lights: Lights, driver: Driver, masks: Masks)

  predicate Inv(d: Device) {
    Valid(d.lights) && SpeedLoaded(d.lights)
  }

  /** A command's effect: the new state, how many argument bytes it took
      from the line, and the bytes it wrote back. */
  datatype Outcome = Outcome(dev: Device, used: nat, sent: seq<uint8>)

  /** How many argument bytes each command asks the serial driver for. */
  function ArgCount(op: Op): (n: nat)
    ensures n <= 57
  {
    match op
    case LedSet => 4
    case LedSetRow => 4 * NumColumn + 1
    case SelectProfile => 1
    case SetMask => 1
    case ClearMask => 1
    case SetForeground => 3
    case _ => 0
  }

  /** `executeProfile` of this dispatcher: unlike the framed one it first
      drops the foreground colour, so the animation runs again. */
  function ExecuteProfile(ext: Externals, l: Lights, init: bool): (r: Lights)
    requires l.currentProfile < AmountOfProfiles && l.currentSpeed < 4
    ensures !r.foregroundColorSet && r.needToCallbackProfile && SpeedLoaded(r)
    ensures l.ledIntensity < 8 ==> Valid(r)
    ensures r == Scheduler.ExecuteProfile(ext, l, init).(foregroundColorSet := false)
  {
    Scheduler.ExecuteProfile(ext, l.(foregroundColorSet := false), init)
  }

  /** `setProfile`: one byte is read; when it arrives and names a table
      entry, the foreground is dropped and that profile is executed with
      its init hook. Otherwise nothing changes. */
  function SelectProfileFrom(ext: Externals, l: Lights, arrived: seq<uint8>): (r: Lights)
    requires Valid(l) && SpeedLoaded(l)
    ensures Valid(r) && SpeedLoaded(r)
    ensures |arrived| == 0 || arrived[0] >= AmountOfProfiles ==> r == l
    ensures |arrived| > 0 && arrived[0] < AmountOfProfiles ==>
      r.currentProfile == arrived[0] && !r.foregroundColorSet && r.needToCallbackProfile
      && r.currentSpeed == l.currentSpeed && r.ledIntensity == l.ledIntensity
    ensures |arrived| > 0 && arrived[0] < AmountOfProfiles ==>
      r == ExecuteProfile(ext, l.(currentProfile := arrived[0]), true)
  {
    var bytes := Take(arrived, 1);
    if |bytes| == 1 && bytes[0] < AmountOfProfiles then
      ExecuteProfile(ext, l.(foregroundColorSet := false, currentProfile := bytes[0]), true)
    else l
  }

  /** `nextIntensity`: the intensity steps through 0..7 and the profile is
      re-executed without its init hook. */
  function NextIntensityLegacy(ext: Externals, l: Lights): (r: Lights)
    requires Valid(l)
    ensures Valid(r) && SpeedLoaded(r) && !r.foregroundColorSet
    ensures r == Scheduler.NextIntensity(ext, l).(foregroundColorSet := false)
  {
    ExecuteProfile(ext, l.(ledIntensity := (l.ledIntensity + 1) % 8), false)
  }

  /** `nextSpeed`: the speed slot steps through 0..3, the foreground is
      dropped and the skip count reloaded. */
  function NextSpeedLegacy(l: Lights): (r: Lights)
    requires Valid(l)
    ensures Valid(r) && SpeedLoaded(r) && !r.foregroundColorSet
    ensures r == Scheduler.NextSpeed(l).(foregroundColorSet := false)
  {
    UpdateAnimationSpeed(l.(currentSpeed := (l.currentSpeed + 1) % 4, foregroundColorSet := false))
  }

  /** `changeMask`: one byte is read; when it arrives and names a key, that
      key's mask becomes `mask`. No other mask changes. */
  function ChangeMask(masks: Masks, mask: uint8, arrived: seq<uint8>): (r: Masks)
    ensures forall i | 0 <= i < KeyCount ::
      r[i] == if |arrived| > 0 && i == arrived[0] then mask else masks[i]
  {
    var bytes := Take(arrived, 1);
    if |bytes| == 1 && bytes[0] < KeyCount then masks[bytes[0] := mask] else masks
  }

  /** The colour word `ledSet` stores: the high argument byte above the low
      one, a 16-bit value in a 32-bit colour. */
  function SetWord(lo: uint8, hi: uint8): (w: uint32)
    ensures Unpack(w) == Led(lo, hi, 0, 0)
  {
    UnpackPack(Led(lo, hi, 0, 0));
    hi * 0x100 + lo
  }

  /** `ledSet`: four bytes are read (row, column, then the two colour
      bytes); when all four arrive and the key is on the board, that key
      gets blue from the third byte, green from the fourth, and red and
      alpha zero. Nothing else changes. */
  function LedSetFrom(l: Lights, arrived: seq<uint8>): (r: Lights)
    ensures |arrived| >= 4 && arrived[0] < NumRow && arrived[1] < NumColumn ==>
      r == l.(colors := l.colors[RowCol2Idx(arrived[0], arrived[1]) := Led(arrived[2], arrived[3], 0, 0)])
    ensures !(|arrived| >= 4 && arrived[0] < NumRow && arrived[1] < NumColumn) ==> r == l
  {
    var bytes := Take(arrived, 4);
    if |bytes| >= 4 && bytes[0] < NumRow && bytes[1] < NumColumn then
      l.(colors := SetKeyColor(l.colors, RowCol2Idx(bytes[0], bytes[1]), SetWord(bytes[2], bytes[3])))
    else l
  }

  /** The colour record stored at byte offset `at`: the bytes are copied in
      memory order, blue, green, red, alpha. */
  function LedAt(bytes: seq<uint8>, at: nat): Led
    requires at + 4 <= |bytes|
  {
    Led(bytes[at], bytes[at + 1], bytes[at + 2], bytes[at + 3])
  }

  /** `ledSetRow`: 57 bytes are read (row, then 14 four-byte colour
      records); when all arrive and the row is on the board, the row's keys
      are overwritten with the records in column order. Nothing else
      changes. */
  function LedSetRowFrom(l: Lights, arrived: seq<uint8>): (r: Lights)
    ensures !(|arrived| >= 57 && arrived[0] < NumRow) ==> r == l
    ensures |arrived| >= 57 && arrived[0] < NumRow ==>
      && r == l.(colors := r.colors)
      && (forall col | 0 <= col < NumColumn ::
            r.colors[RowCol2Idx(arrived[0], col)] == LedAt(arrived, 1 + 4 * col))
      && (forall i | 0 <= i < KeyCount && i / NumColumn != arrived[0] :: r.colors[i] == l.colors[i])
  {
    var bytes := Take(arrived, 4 * NumColumn + 1);
    if |bytes| >= 4 * NumColumn + 1 && bytes[0] < NumRow then
      var colors := CopyRow(l.colors, bytes[0], bytes);
      RowWritten(bytes[0], bytes, l.colors, colors);
      l.(colors := colors)
    else l
  }

  /** The buffer with row `row` replaced by the colour records that follow
      the row byte in `bytes`. */
  function CopyRow(colors: Buffer, row: nat, bytes: seq<uint8>): (r: Buffer)
    requires |bytes| >= 57
    ensures forall i | 0 <= i < KeyCount ::
      r[i] == if i / NumColumn == row then LedAt(bytes, 1 + 4 * (i % NumColumn)) else colors[i]
  {
    seq(KeyCount, i requires 0 <= i < KeyCount =>
      if i / NumColumn == row then LedAt(bytes, 1 + 4 * (i % NumColumn)) else colors[i])
  }

  lemma RowWritten(row: nat, bytes: seq<uint8>, old_: Buffer, colors: Buffer)
    requires row < NumRow && |bytes| >= 57
    requires forall i | 0 <= i < KeyCount ::
      colors[i] == if i / NumColumn == row then LedAt(bytes, 1 + 4 * (i % NumColumn)) else old_[i]
    ensures forall col | 0 <= col < NumColumn :: colors[RowCol2Idx(row, col)] == LedAt(bytes, 1 + 4 * col)
  {
    forall col | 0 <= col < NumColumn
      ensures colors[RowCol2Idx(row, col)] == LedAt(bytes, 1 + 4 * col)
    {
      RowCol2IdxBijective(row, col);
    }
  }

  /** The colour word `setForegroundColor` builds: the three argument bytes
      are red, green and blue. */
  function ForegroundWord(red: uint8, green: uint8, blue: uint8): (w: uint32)
    ensures Unpack(w) == Led(blue, green, red, 0)
  {
    UnpackPack(Led(blue, green, red, 0));
    red * 0x1_0000 + green * 0x100 + blue
  }

  /** `setForegroundColor`: three bytes are read; when they arrive the
      foreground colour is set, flagged, and painted on every key. */
  function SetForegroundFrom(l: Lights, arrived: seq<uint8>): (r: Lights)
    ensures |arrived| < 3 ==> r == l
    ensures |arrived| >= 3 ==>
      r == l.(foregroundColorSet := true, foregroundColor := r.foregroundColor, colors := r.colors)
      && forall i | 0 <= i < KeyCount :: r.colors[i] == Led(arrived[2], arrived[1], arrived[0], 0)
    ensures |arrived| >= 3 ==> r.foregroundColor == ForegroundWord(arrived[0], arrived[1], arrived[2])
  {
    var bytes := Take(arrived, 3);
    if |bytes| >= 3 then
      var color := ForegroundWord(bytes[0], bytes[1], bytes[2]);
      l.(foregroundColor := color, foregroundColorSet := true, colors := SetAllKeysColor(l.colors, color))
    else l
  }

  /** `clearForegroundColor`: the foreground flag drops; a static profile
      (skip count zero) has its keys cleared and is called again at the
      next cycle boundary; an animated reactive one only has its keys
      cleared; any other profile repaints itself on its next frame. */
  function ClearForegroundOf(l: Lights): (r: Lights)
    requires l.currentProfile < AmountOfProfiles
    ensures !r.foregroundColorSet
    ensures l.animationSkipTicks == 0 ==>
      r.colors == Zeros() && r == l.(foregroundColorSet := false, colors := r.colors, needToCallbackProfile := true)
    ensures l.animationSkipTicks != 0 && IsReactive(ProfileTable[l.currentProfile]) ==>
      r.colors == Zeros() && r == l.(foregroundColorSet := false, colors := r.colors)
    ensures l.animationSkipTicks != 0 && !IsReactive(ProfileTable[l.currentProfile]) ==>
      r == l.(foregroundColorSet := false)
  {
    if l.animationSkipTicks == 0 then
      l.(foregroundColorSet := false, colors := Zeros(), needToCallbackProfile := true)
    else if ProfileTable[l.currentProfile].keypressCallback.Some? then
      l.(foregroundColorSet := false, colors := Zeros())
    else l.(foregroundColorSet := false)
  }

  /** Replace the lighting state, reading n argument bytes and sending
      `sent`. */
  function Lit(d: Device, l: Lights, arrived: seq<uint8>, n: nat, sent: seq<uint8>): (o: Outcome)
    ensures o.dev == d.(lights := l) && o.used <= |arrived| && o.used <= n
    ensures o.used == if |arrived| < n then |arrived| else n
    ensures o.sent == sent
  {
    Outcome(d.(lights := l), |Take(arrived, n)|, sent)
  }

  /** The commands that change the profile or the matrix power; the others
      write colours, masks or the foreground, or only answer. */
  predicate ProfileOp(op: Op) {
    op.LedOn? || op.LedOff? || op.SelectProfile? || op.NextProfileOp? || op.PrevProfileOp?
    || op.NextIntensityOp? || op.NextSpeedOp?
  }

  /** The commands that change the profile or the matrix power. */
  function RunProfileOp(ext: Externals, d: Device, op: Op, arrived: seq<uint8>): (o: Outcome)
    requires Inv(d)
    requires ProfileOp(op)
    ensures Inv(o.dev) && o.dev.masks == d.masks
  {
    var l := d.lights;
    match op
    case LedOn =>
      var r := Lit(d, ExecuteProfile(ext, l, true), arrived, 0, []);
      r.(dev := r.dev.(driver := MatrixEnable(d.driver)))
    case LedOff => Outcome(d.(driver := MatrixDisable(d.driver)), 0, [])
    case SelectProfile =>
      var l' := SelectProfileFrom(ext, l, arrived);
      Lit(d, l', arrived, 1, [ReactiveFlag(l')])
    case NextProfileOp =>
      var l' := ExecuteProfile(ext, l.(currentProfile := NextIndex(l.currentProfile)), true);
      Lit(d, l', arrived, 0, [ReactiveFlag(l')])
    case PrevProfileOp =>
      var l' := ExecuteProfile(ext, l.(currentProfile := PrevIndex(l.currentProfile)), true);
      Lit(d, l', arrived, 0, [ReactiveFlag(l')])
    case NextIntensityOp => Lit(d, NextIntensityLegacy(ext, l), arrived, 0, [])
    case NextSpeedOp => Lit(d, NextSpeedLegacy(l), arrived, 0, [])
  }

  /** The commands that write colours, masks or foreground, or only
      answer. */
  function RunPaintOp(d: Device, op: Op, arrived: seq<uint8>): (o: Outcome)
    requires Inv(d)
    requires !ProfileOp(op)
    ensures Inv(o.dev) && o.dev.driver == d.driver
  {
    var l := d.lights;
    match op
    case LedSet => Lit(d, LedSetFrom(l, arrived), arrived, 4, [])
    case LedSetRow => Lit(d, LedSetRowFrom(l, arrived), arrived, 57, [])
    case GetProfile => Outcome(d, 0, [l.currentProfile])
    case GetNumProfiles => Outcome(d, 0, [AmountOfProfiles])
    case SetMask => Outcome(d.(masks := ChangeMask(d.masks, 0xFF, arrived)), |Take(arrived, 1)|, [])
    case ClearMask => Outcome(d.(masks := ChangeMask(d.masks, 0x00, arrived)), |Take(arrived, 1)|, [])
    case SetForeground => Lit(d, SetForegroundFrom(l, arrived), arrived, 3, [])
    case ClearForeground =>
      var l' := ClearForegroundOf(l);
      Lit(d, l', arrived, 0, [ReactiveFlag(l')])
    case Iap => Outcome(d, 0, [])
  }

  /** `executeMsg`: a byte with a case runs its command on the bytes that
      arrive after it; any other byte with the top bit set is a keypress;
      the rest are ignored. */
  function ExecuteMsg(ext: Externals, table: OpTable, d: Device, msg: uint8, arrived: seq<uint8>): (o: Outcome)
    requires Inv(d)
    ensures Inv(o.dev)
    ensures msg in table ==> o.used == if |arrived| < ArgCount(table[msg]) then |arrived| else ArgCount(table[msg])
    ensures msg !in table ==> o.used == 0 && o.sent == [] && o.dev.driver == d.driver && o.dev.masks == d.masks
  {
    if msg in table then
      var op := table[msg];
      if ProfileOp(op) then RunProfileOp(ext, d, op, arrived)
      else RunPaintOp(d, op, arrived)
    else if msg >= 0x80 then Outcome(d.(lights := HandleKeypress(ext, d.lights, msg)), 0, [])
    else Outcome(d, 0, [])
  }

  /** A whole session on the line: each command byte is followed by the
      argument bytes its command takes, and the next command byte comes
      right after them. */
  datatype Session = Session(dev: Device, sent: seq<uint8>)

  function Run(ext: Externals, table: OpTable, d: Device, input: seq<uint8>): (r: Session)
    requires Inv(d)
    ensures Inv(r.dev)
    decreases |input|
  {
    if |input| == 0 then Session(d, [])
    else
      var o := ExecuteMsg(ext, table, d, input[0], input[1..]);
      var rest := Run(ext, table, o.dev, input[1 + o.used..]);
      Session(rest.dev, o.sent + rest.sent)
  }

  /** A command reads nothing past its arguments: the bytes after them do
      not change what it does. */
  lemma ArgumentsSuffice(ext: Externals, table: OpTable, d: Device, code: uint8, args: seq<uint8>, rest: seq<uint8>)
    requires Inv(d) && code in table && |args| == ArgCount(table[code])
    ensures ExecuteMsg(ext, table, d, code, args + rest) == ExecuteMsg(ext, table, d, code, args)
  {
    if ProfileOp(table[code]) {
      ProfileArgumentsSuffice(ext, d, table[code], args, rest);
    } else {
      PaintArgumentsSuffice(d, table[code], args, rest);
    }
  }

  /** The prefix a bounded read of n bytes returns, when n bytes are there. */
  lemma TakeOwn(args: seq<uint8>, rest: seq<uint8>)
    ensures Take(args + rest, |args|) == args && Take(args, |args|) == args
  {
    assert (args + rest)[..|args|] == args;
  }

  lemma ProfileArgumentsSuffice(ext: Externals, d: Device, op: Op, args: seq<uint8>, rest: seq<uint8>)
    requires Inv(d) && ProfileOp(op) && |args| == ArgCount(op)
    ensures RunProfileOp(ext, d, op, args + rest) == RunProfileOp(ext, d, op, args)
  {
    TakeOwn(args, rest);
  }

  lemma PaintArgumentsSuffice(d: Device, op: Op, args: seq<uint8>, rest: seq<uint8>)
    requires Inv(d) && !ProfileOp(op) && |args| == ArgCount(op)
    ensures RunPaintOp(d, op, args + rest) == RunPaintOp(d, op, args)
  {
    TakeOwn(args, rest);
  }

  /** A request on the line is the command byte followed by exactly the
      bytes its command reads: the session runs that command and carries on
      with the byte after the arguments. */
  lemma RequestThenRest(ext: Externals, table: OpTable, d: Device, code: uint8, args: seq<uint8>, rest: seq<uint8>)
    requires Inv(d) && code in table && |args| == ArgCount(table[code])
    ensures var o := ExecuteMsg(ext, table, d, code, args);
      var tail := Run(ext, table, o.dev, rest);
      Run(ext, table, d, [code] + args + rest) == Session(tail.dev, o.sent + tail.sent)
  {
    var input := [code] + args + rest;
    assert input[0] == code;
    assert input[1..] == args + rest;
    ArgumentsSuffice(ext, table, d, code, args, rest);
    assert input[1 + |args|..] == rest;
  }

  /** Requests written out byte by byte. */
  lemma Spell(a: uint8, b: uint8, c: uint8, e: uint8, f: uint8)
    ensures [a] + [] + [b] + [] == [a, b]
    ensures [a] + [b] + [c] + [] == [a, b, c]
    ensures [a] + [b, c, e] + [f] + [] == [a, b, c, e, f]
  {
  }

  lemma Regroup(x: seq<uint8>, y: seq<uint8>, z: seq<uint8>)
    ensures x + (y + z) == x + y + z && x + [] == x
  {
  }

  /** The codes of the command table are below the keypress flag bit. */
  predicate CommandCodes(table: OpTable) {
    forall b | b in table :: b < 0x80
  }

  /** Every key position sent as a keypress byte (flag bit, row, column)
      runs the current profile's keypress hook at that key, or does
      nothing when the profile has none. */
  lemma KeypressByteRunsHook(ext: Externals, table: OpTable, d: Device, row: nat, col: nat)
    requires Inv(d) && CommandCodes(table) && row < NumRow && col < NumColumn
    ensures var o := ExecuteMsg(ext, table, d, 0x80 + 16 * row + col, []);
      var hook := ProfileTable[d.lights.currentProfile].keypressCallback;
      && o.dev.lights == (if hook.Some? then d.lights.(colors := RunKeypress(ext, hook.value, d.lights.colors, row, col))
                          else d.lights)
      && o.dev.driver == d.driver && o.dev.masks == d.masks && o.used == 0 && o.sent == []
  {
    KeyByteRoundTrip(row, col);
  }

  /** A bare byte below the flag bit with no command is ignored. */
  lemma StrayByteIgnored(ext: Externals, table: OpTable, d: Device, msg: uint8, arrived: seq<uint8>)
    requires Inv(d) && msg !in table && msg < 0x80
    ensures ExecuteMsg(ext, table, d, msg, arrived) == Outcome(d, 0, [])
  {
  }

  /** When the line stays silent after a command byte, a command that
      needs argument bytes changes nothing; SET_PROFILE still reports the
      (unchanged) profile's reactive flag. */
  lemma SilentLineChangesNothing(ext: Externals, table: OpTable, d: Device, code: uint8)
    requires Inv(d) && code in table && ArgCount(table[code]) > 0
    ensures ExecuteMsg(ext, table, d, code, []).dev == d
    ensures ExecuteMsg(ext, table, d, code, []).used == 0
    ensures table[code].SelectProfile? ==> ExecuteMsg(ext, table, d, code, []).sent == [ReactiveFlag(d.lights)]
    ensures !table[code].SelectProfile? ==> ExecuteMsg(ext, table, d, code, []).sent == []
  {
  }

  /** Two requests back to back: the second runs on the state the first
      leaves, and the answers come out in order. */
  lemma TwoRequests(ext: Externals, table: OpTable, d: Device, c1: uint8, a1: seq<uint8>, c2: uint8, a2: seq<uint8>)
    requires Inv(d) && c1 in table && |a1| == ArgCount(table[c1])
    requires c2 in table && |a2| == ArgCount(table[c2])
    ensures var o1 := ExecuteMsg(ext, table, d, c1, a1);
      var o2 := ExecuteMsg(ext, table, o1.dev, c2, a2);
      Run(ext, table, d, [c1] + a1 + [c2] + a2) == Session(o2.dev, o1.sent + o2.sent)
  {
    var o1 := ExecuteMsg(ext, table, d, c1, a1);
    RequestThenRest(ext, table, d, c1, a1, [c2] + a2);
    Regroup([c1] + a1, [c2], a2);
    RequestThenRest(ext, table, o1.dev, c2, a2, []);
    Regroup([c2] + a2, [], []);
  }

  /** SET_PROFILE followed by GET_PROFILE: the controller answers with the
      new profile's reactive flag and then with the profile's index. */
  lemma SelectedProfileReported(ext: Externals, table: OpTable, d: Device, sel: uint8, get: uint8, p: uint8)
    requires Inv(d) && p < AmountOfProfiles
    requires sel in table && table[sel] == SelectProfile && get in table && table[get] == GetProfile
    ensures Run(ext, table, d, [sel, p, get]).sent == [if IsReactive(ProfileTable[p]) then 1 else 0, p]
  {
    TwoRequests(ext, table, d, sel, [p], get, []);
    Spell(sel, p, get, 0, 0);
  }

  /** NEXT_PROFILE then PREV_PROFILE comes back to the profile it started
      on, each step reporting the flag of the profile it lands on. */
  lemma NextThenPrevReturns(ext: Externals, table: OpTable, d: Device, next: uint8, prev: uint8)
    requires Inv(d)
    requires next in table && table[next] == NextProfileOp && prev in table && table[prev] == PrevProfileOp
    ensures var r := Run(ext, table, d, [next, prev]);
      r.dev.lights.currentProfile == d.lights.currentProfile
      && r.sent == [ReactiveFlag(d.lights.(currentProfile := NextIndex(d.lights.currentProfile))),
                    ReactiveFlag(d.lights)]
  {
    TwoRequests(ext, table, d, next, [], prev, []);
    Spell(next, prev, 0, 0, 0);
    NextPrevInverse(d.lights.currentProfile);
  }

  /** With the header's codes: SET_PROFILE p, GET_PROFILE is 0x5 p 0x8. */
  lemma HeaderProfileQuery(ext: Externals, table: OpTable, d: Device, p: uint8)
    requires Inv(d) && HeaderCodes(table) && p < AmountOfProfiles
    ensures Run(ext, table, d, [0x5, p, 0x8]).sent == [if IsReactive(ProfileTable[p]) then 1 else 0, p]
  {
    SelectedProfileReported(ext, table, d, 0x5, 0x8, p);
  }

  /** Mask writes to one key: the last write wins, so a write repeated is a
      write done once, and setting a mask on the power-on masks changes
      nothing. */
  lemma MaskLastWriteWins(masks: Masks, v1: uint8, v2: uint8, arrived: seq<uint8>)
    ensures ChangeMask(ChangeMask(masks, v1, arrived), v2, arrived) == ChangeMask(masks, v2, arrived)
    ensures ChangeMask(InitialMasks(), 0xFF, arrived) == InitialMasks()
  {
    var a := ChangeMask(ChangeMask(masks, v1, arrived), v2, arrived);
    var b := ChangeMask(masks, v2, arrived);
    assert forall i | 0 <= i < KeyCount :: a[i] == b[i];
    var c := ChangeMask(InitialMasks(), 0xFF, arrived);
    assert forall i | 0 <= i < KeyCount :: c[i] == InitialMasks()[i];
  }

  /** Byte k (0 to 3) of a colour record in memory order. */
  function ByteOf(c: Led, k: nat): uint8
    requires k < 4
  {
    if k == 0 then c.blue else if k == 1 then c.green else if k == 2 then c.red else c.alpha
  }

  /** The bytes of a record stored at `at` are the record's channels. */
  lemma BytesOfLedAt(bytes: seq<uint8>, at: nat, k: nat)
    requires at + 4 <= |bytes| && k < 4
    ensures ByteOf(LedAt(bytes, at), k) == bytes[at + k]
  {
  }

  /** The 56 bytes that describe a row's colours in the order SET_ROW
      expects them. */
  function RowBytes(buf: Buffer, row: nat): (s: seq<uint8>)
    requires row < NumRow
    ensures |s| == 4 * NumColumn
    ensures forall j | 0 <= j < 4 * NumColumn :: s[j] == ByteOf(buf[RowCol2Idx(row, j / 4)], j % 4)
  {
    seq(4 * NumColumn, j requires 0 <= j < 4 * NumColumn => ByteOf(buf[RowCol2Idx(row, j / 4)], j % 4))
  }

  /** The record for column `col` sits at offset 1 + 4 * col of a SET_ROW
      request built from a row's bytes. */
  lemma RecordOfRowBytes(buf: Buffer, row: uint8, col: nat)
    requires row < NumRow && col < NumColumn
    ensures LedAt([row] + RowBytes(buf, row), 1 + 4 * col) == buf[RowCol2Idx(row, col)]
  {
    var bytes := RowBytes(buf, row);
    var arrived := [row] + bytes;
    var c := buf[RowCol2Idx(row, col)];
    QuarterOf(col, 0);
    QuarterOf(col, 1);
    QuarterOf(col, 2);
    QuarterOf(col, 3);
    assert arrived[1 + 4 * col] == bytes[4 * col] == c.blue;
    assert arrived[2 + 4 * col] == bytes[4 * col + 1] == c.green;
    assert arrived[3 + 4 * col] == bytes[4 * col + 2] == c.red;
    assert arrived[4 + 4 * col] == bytes[4 * col + 3] == c.alpha;
  }

  lemma QuarterOf(col: nat, k: nat)
    requires k < 4
    ensures (4 * col + k) / 4 == col && (4 * col + k) % 4 == k
  {
  }

  /** SET_ROW with a row's own bytes leaves the colours as they are. */
  lemma RowRewriteIsIdentity(l: Lights, row: uint8)
    requires row < NumRow
    ensures LedSetRowFrom(l, [row] + RowBytes(l.colors, row)) == l
  {
    var arrived := [row] + RowBytes(l.colors, row);
    CopyOwnRow(l.colors, row);
    assert Take(arrived, 4 * NumColumn + 1) == arrived;
  }

  lemma CopyOwnRow(buf: Buffer, row: uint8)
    requires row < NumRow
    ensures CopyRow(buf, row, [row] + RowBytes(buf, row)) == buf
  {
    var r := CopyRow(buf, row, [row] + RowBytes(buf, row));
    forall i | 0 <= i < KeyCount
      ensures r[i] == buf[i]
    {
      if i / NumColumn == row {
        assert i == RowCol2Idx(row, i % NumColumn);
        RecordOfRowBytes(buf, row, i % NumColumn);
      }
    }
  }

  /** ... and reading a row back after SET_ROW gives the bytes it was sent. */
  lemma RowWriteReadsBack(l: Lights, row: uint8, bytes: seq<uint8>)
    requires row < NumRow && |bytes| == 4 * NumColumn
    ensures RowBytes(LedSetRowFrom(l, [row] + bytes).colors, row) == bytes
  {
    var arrived := [row] + bytes;
    assert arrived[0] == row && |arrived| == 4 * NumColumn + 1;
    ReadBackRow(LedSetRowFrom(l, arrived).colors, row, bytes);
  }

  /** Any buffer whose row `row` holds the records spelled by `bytes` reads
      back as `bytes`. */
  lemma ReadBackRow(colors: Buffer, row: uint8, bytes: seq<uint8>)
    requires row < NumRow && |bytes| == 4 * NumColumn
    requires forall col | 0 <= col < NumColumn ::
      colors[RowCol2Idx(row, col)] == LedAt([row] + bytes, 1 + 4 * col)
    ensures RowBytes(colors, row) == bytes
  {
    var arrived := [row] + bytes;
    var back := RowBytes(colors, row);
    forall j | 0 <= j < 4 * NumColumn
      ensures back[j] == bytes[j]
    {
      ByteOfWrittenRow(colors, row, arrived, j);
      assert arrived[1 + j] == bytes[j];
    }
  }

  /** One byte of the read-back: channel `j % 4` of column `j / 4` is the
      argument byte `1 + j` the row write copied there. */
  lemma ByteOfWrittenRow(colors: Buffer, row: nat, arrived: seq<uint8>, j: nat)
    requires row < NumRow && |arrived| >= 57 && j < 4 * NumColumn
    requires forall col | 0 <= col < NumColumn :: colors[RowCol2Idx(row, col)] == LedAt(arrived, 1 + 4 * col)
    ensures ByteOf(colors[RowCol2Idx(row, j / 4)], j % 4) == arrived[1 + j]
  {
    var col, k := j / 4, j % 4;
    assert colors[RowCol2Idx(row, col)] == LedAt(arrived, 1 + 4 * col);
    BytesOfLedAt(arrived, 1 + 4 * col, k);
  }

  /** SET_FOREGROUND_COLOR then CLEAR_FOREGROUND_COLOR on a static profile:
      every key goes dark, the profile is called again at the next cycle
      boundary, and only the non-reactive flag is sent. */
  lemma ForegroundClearedOnStatic(ext: Externals, table: OpTable, d: Device, setCode: uint8, clearCode: uint8,
                                  red: uint8, green: uint8, blue: uint8)
    requires Inv(d) && setCode in table && table[setCode] == SetForeground
    requires clearCode in table && table[clearCode] == ClearForeground
    requires IsStatic(ProfileTable[d.lights.currentProfile])
    requires !IsReactive(ProfileTable[d.lights.currentProfile])
    ensures var r := Run(ext, table, d, [setCode, red, green, blue, clearCode]);
      && !r.dev.lights.foregroundColorSet && r.dev.lights.colors == Zeros()
      && r.dev.lights.needToCallbackProfile && r.sent == [0]
      && r.dev.lights.currentProfile == d.lights.currentProfile
  {
    var o := ExecuteMsg(ext, table, d, setCode, [red, green, blue]);
    ForegroundSteps(ext, table, d, setCode, clearCode, [red, green, blue]);
    TwoRequests(ext, table, d, setCode, [red, green, blue], clearCode, []);
    Spell(setCode, red, green, blue, clearCode);
  }

  /** The two steps of the above, one command at a time. */
  lemma ForegroundSteps(ext: Externals, table: OpTable, d: Device, setCode: uint8, clearCode: uint8, rgb: seq<uint8>)
    requires Inv(d) && setCode in table && table[setCode] == SetForeground
    requires clearCode in table && table[clearCode] == ClearForeground
    requires IsStatic(ProfileTable[d.lights.currentProfile]) && |rgb| == 3
    ensures var o1 := ExecuteMsg(ext, table, d, setCode, rgb);
      var o2 := ExecuteMsg(ext, table, o1.dev, clearCode, []);
      && o1.sent == [] && o2.sent == [ReactiveFlag(d.lights)]
      && o2.dev.lights.colors == Zeros() && !o2.dev.lights.foregroundColorSet
      && o2.dev.lights.needToCallbackProfile && o2.dev.lights.currentProfile == d.lights.currentProfile
  {
    var o1 := ExecuteMsg(ext, table, d, setCode, rgb);
    assert o1 == RunPaintOp(d, SetForeground, rgb);
    var lit := SetForegroundFrom(d.lights, rgb);
    assert o1.dev.lights == lit && o1.sent == [];
    assert lit.animationSkipTicks == 0;
    var o2 := ExecuteMsg(ext, table, o1.dev, clearCode, []);
    assert o2 == RunPaintOp(o1.dev, ClearForeground, []);
    assert o2.dev.lights == ClearForegroundOf(lit);
  }

  /** Every command keeps the matrix driver's invariant. */
  lemma ExecuteKeepsDriverInv(ext: Externals, table: OpTable, d: Device, msg: uint8, arrived: seq<uint8>)
    requires Inv(d) && DriverInv(d.driver)
    ensures DriverInv(ExecuteMsg(ext, table, d, msg, arrived).dev.driver)
  {
    EnableDisableKeepInv(d.driver);
  }

  /** ... and so does a whole session. */
  lemma {:induction false} RunKeepsDriverInv(ext: Externals, table: OpTable, d: Device, input: seq<uint8>)
    requires Inv(d) && DriverInv(d.driver)
    ensures DriverInv(Run(ext, table, d, input).dev.driver)
    decreases |input|
  {
    if |input| > 0 {
      var o := ExecuteMsg(ext, table, d, input[0], input[1..]);
      ExecuteKeepsDriverInv(ext, table, d, input[0], input[1..]);
      RunKeepsDriverInv(ext, table, o.dev, input[1 + o.used..]);
      RunStep(ext, table, d, input);
    }
  }

  /** One step of a session: the first command, then the rest of the line
      after its arguments. */
  lemma RunStep(ext: Externals, table: OpTable, d: Device, input: seq<uint8>)
    requires Inv(d) && |input| > 0
    ensures var o := ExecuteMsg(ext, table, d, input[0], input[1..]);
      Run(ext, table, d, input).dev == Run(ext, table, o.dev, input[1 + o.used..]).dev
  {
  }
}

=== FILE: light_utils.dfy ===
/** Whole-board, modifier-key and single-key colour writes, and the indexed
    write loop they (and the HSV fills) share. */
module LightUtils {
  import opened Bytes
  import opened Board
  import opened Led

  /** What one loop iteration stores into a key: a whole colour record, or
      only its red, green and blue bytes (the HSV fills leave alpha alone). */
  datatype Paint = Whole(color: Led) | Channels(red: uint8, green: uint8, blue: uint8)

  function Apply(p: Paint, prev: Led): Led {
    match p
    case Whole(c) => c
    case Channels(r, g, b) => Led(b, g, r, prev.alpha)
  }

  /** Painting a key twice with the same paint is painting it once. */
  lemma ApplyIdempotent(p: Paint, l: Led)
    ensures Apply(p, Apply(p, l)) == Apply(p, l)
  {
  }

  /** The loop `for j in k..|ids|: buf[ids[j]] = paint` over a list of key
      indices: exactly the listed keys are painted and every other key keeps
      its colour. */
  function WriteKeys(buf: Buffer, ids: seq<nat>, k: nat, p: Paint): (r: Buffer)
    requires k <= |ids|
    requires forall j | 0 <= j < |ids| :: ids[j] < KeyCount
    ensures forall i | 0 <= i < KeyCount ::
      r[i] == if i in ids[k..] then Apply(p, buf[i]) else buf[i]
    decreases |ids| - k
  {
    if k == |ids| then buf
    else
      var next := buf[ids[k] := Apply(p, buf[ids[k]])];
      var r := WriteKeys(next, ids, k + 1, p);
      WriteKeysStep(buf, ids, k, p, next, r);
      r
  }

  /** One iteration of the WriteKeys loop: painting ids[k] first and then the
      rest paints exactly the keys listed from k on. */
  lemma WriteKeysStep(buf: Buffer, ids: seq<nat>, k: nat, p: Paint, next: Buffer, r: Buffer)
    requires k < |ids| && ids[k] < KeyCount
    requires next == buf[ids[k] := Apply(p, buf[ids[k]])]
    requires forall i | 0 <= i < KeyCount ::
      r[i] == if i in ids[k + 1..] then Apply(p, next[i]) else next[i]
    ensures forall i | 0 <= i < KeyCount ::
      r[i] == if i in ids[k..] then Apply(p, buf[i]) else buf[i]
  {
    assert ids[k..] == [ids[k]] + ids[k + 1..];
    forall i | 0 <= i < KeyCount
      ensures r[i] == if i in ids[k..] then Apply(p, buf[i]) else buf[i]
    {
      ApplyIdempotent(p, buf[i]);
    }
  }

  /** The indices 0..KeyCount-1 in order. */
  function AllIds(): (ids: seq<nat>)
    ensures |ids| == KeyCount
    ensures forall j | 0 <= j < KeyCount :: ids[j] == j
  {
    seq(KeyCount, i => i)
  }

  /** The 14 indices of one row, left to right. */
  function RowIds(row: nat): (ids: seq<nat>)
    requires row < NumRow
    ensures |ids| == NumColumn
    ensures forall j | 0 <= j < |ids| :: ids[j] == RowCol2Idx(row, j) < KeyCount
  {
    seq(NumColumn, c requires 0 <= c < NumColumn => RowCol2Idx(row, c))
  }

  /** A key belongs to row `row` exactly when its index divides down to it. */
  lemma RowIdsMembers(row: nat)
    requires row < NumRow
    ensures forall i | 0 <= i < KeyCount :: i in RowIds(row) <==> i / NumColumn == row
  {
    var ids := RowIds(row);
    forall i | 0 <= i < KeyCount
      ensures i in ids <==> i / NumColumn == row
    {
      if i / NumColumn == row {
        assert ids[i % NumColumn] == i;
      }
    }
  }

  /** The 5 indices of one column, top to bottom. */
  function ColumnIds(col: nat): (ids: seq<nat>)
    requires col < NumColumn
    ensures |ids| == NumRow
    ensures forall j | 0 <= j < |ids| :: ids[j] == RowCol2Idx(j, col) < KeyCount
  {
    seq(NumRow, r requires 0 <= r < NumRow => RowCol2Idx(r, col))
  }

  /** A key belongs to column `col` exactly when its index leaves it as the
      remainder. */
  lemma ColumnIdsMembers(col: nat)
    requires col < NumColumn
    ensures forall i | 0 <= i < KeyCount :: i in ColumnIds(col) <==> i % NumColumn == col
  {
    var ids := ColumnIds(col);
    forall i | 0 <= i < KeyCount
      ensures i in ids <==> i % NumColumn == col
    {
      if i % NumColumn == col {
        assert ids[i / NumColumn] == i;
      }
    }
  }

  /** Indices of the modifier keys (Esc, Tab, Ctrl, Enter, ...). */
  const ModKeyIds: seq<nat> := [0, 13, 14, 28, 40, 41, 42, 54,
                                55, 56, 57, 58, 59, 60, 61, 62,
                                63, 64, 65, 66, 67, 68, 69]

  /** The modifier-key list has 23 strictly increasing entries, all inside the
      buffer, so its writes are in bounds and hit 23 distinct keys. */
  lemma ModKeyIdsWellFormed()
    ensures |ModKeyIds| == 23
    ensures forall j | 0 <= j < |ModKeyIds| :: ModKeyIds[j] < KeyCount
    ensures forall i, j | 0 <= i < j < |ModKeyIds| :: ModKeyIds[i] < ModKeyIds[j]
  {
  }

  /** `setAllKeysColor`: every key becomes the colour whose word is `color`. */
  function SetAllKeysColor(buf: Buffer, color: uint32): (r: Buffer)
    ensures forall i | 0 <= i < KeyCount :: r[i] == Unpack(color)
  {
    AllIdsCover();
    WriteKeys(buf, AllIds(), 0, Whole(Unpack(color)))
  }

  lemma AllIdsCover()
    ensures forall i | 0 <= i < KeyCount :: i in AllIds()[0..]
  {
    forall i | 0 <= i < KeyCount ensures i in AllIds()[0..] {
      assert AllIds()[i] == i;
    }
  }

  /** `setModKeysColor`: exactly the keys listed in ModKeyIds change, each to
      the colour; all other keys keep theirs. */
  function SetModKeysColor(buf: Buffer, color: uint32): (r: Buffer)
    ensures forall i | 0 <= i < KeyCount ::
      r[i] == if i in ModKeyIds then Unpack(color) else buf[i]
  {
    ModKeyIdsWellFormed();
    assert ModKeyIds[0..] == ModKeyIds;
    WriteKeys(buf, ModKeyIds, 0, Whole(Unpack(color)))
  }

  /** `setKeyColor`: only the addressed key changes. */
  function SetKeyColor(buf: Buffer, idx: nat, color: uint32): (r: Buffer)
    requires idx < KeyCount
    ensures r[idx] == Unpack(color)
    ensures forall i | 0 <= i < KeyCount && i != idx :: r[i] == buf[i]
  {
    buf[idx := Unpack(color)]
  }
}

=== FILE: link.dfy ===
/** The receive path of the framed protocol: `protoConsume` with
    `commandCallback` installed as its callback by `protoInit`, byte after
    byte. */
module Link {
  import opened Bytes
  import opened Wrappers
  import opened Profiles
  import opened Scheduler
  import opened Matrix
  import opened Protocol
  import opened Commands

  /** One received byte: the automaton steps, and a delivered message is
      dispatched on the state the step left. The callback only ever touches
      the receiver's error count, which the remainder of `messageReceived`
      does not, so dispatching after the step is the firmware's order. */
  function ReceiveByte(ext: Externals, table: CodeTable, c: Controller, b: uint8): (r: Reply)
    requires Inv(c)
    ensures Inv(r.ctrl)
  {
    var st := Consume(c.proto, b);
    var stepped := c.(proto := st.proto);
    if st.delivered.Some? then CommandCallback(ext, table, stepped, st.delivered.value)
    else Reply(stepped, [])
  }

  /** Bytes received one after the other, with everything they made the
      controller send. */
  function ReceiveAll(ext: Externals, table: CodeTable, c: Controller, bytes: seq<uint8>): (r: Reply)
    requires Inv(c)
    ensures Inv(r.ctrl)
    decreases |bytes|
  {
    if |bytes| == 0 then Reply(c, [])
    else
      var first := ReceiveByte(ext, table, c, bytes[0]);
      var rest := ReceiveAll(ext, table, first.ctrl, bytes[1..]);
      Reply(rest.ctrl, first.sent + rest.sent)
  }

  /** A byte that completes no message only moves the receiver. */
  lemma QuietByte(ext: Externals, table: CodeTable, c: Controller, b: uint8, rest: seq<uint8>)
    requires Inv(c) && Consume(c.proto, b).delivered.None?
    ensures ReceiveAll(ext, table, c, [b] + rest)
         == ReceiveAll(ext, table, c.(proto := Consume(c.proto, b).proto), rest)
  {
    assert ([b] + rest)[0] == b;
    assert ([b] + rest)[1..] == rest;
    var c1 := c.(proto := Consume(c.proto, b).proto);
    assert ReceiveByte(ext, table, c, b) == Reply(c1, []);
    assert [] + ReceiveAll(ext, table, c1, rest).sent == ReceiveAll(ext, table, c1, rest).sent;
  }

  /** Bytes that complete no message only move the receiver: nothing is
      dispatched or sent, and what follows them is received by the moved
      receiver. */
  lemma {:induction false} QuietPrefix(ext: Externals, table: CodeTable, c: Controller, pre: seq<uint8>, rest: seq<uint8>)
    requires Inv(c) && Feed(c.proto, pre).delivered == []
    ensures ReceiveAll(ext, table, c, pre + rest)
         == ReceiveAll(ext, table, c.(proto := Feed(c.proto, pre).proto), rest)
    decreases |pre|
  {
    if |pre| == 0 {
      assert pre + rest == rest;
    } else {
      var st := Consume(c.proto, pre[0]);
      assert OptionSeq(st.delivered) + Feed(st.proto, pre[1..]).delivered == [];
      assert pre + rest == [pre[0]] + (pre[1..] + rest);
      QuietByte(ext, table, c, pre[0], pre[1..] + rest);
      QuietPrefix(ext, table, c.(proto := st.proto), pre[1..], rest);
    }
  }

  /** Bytes that deliver exactly one message, at a known byte: the
      message's command runs once, on the state the delivering byte left,
      its replies are all that is sent, and the bytes after it only move
      the receiver. */
  lemma OneDelivery(ext: Externals, table: CodeTable, c: Controller,
                    pre: seq<uint8>, last: uint8, post: seq<uint8>)
    requires Inv(c) && Feed(c.proto, pre).delivered == []
    requires var st := Consume(Feed(c.proto, pre).proto, last);
      st.delivered.Some?
      && Feed(CommandCallback(ext, table, c.(proto := st.proto), st.delivered.value).ctrl.proto, post).delivered == []
    ensures var st := Consume(Feed(c.proto, pre).proto, last);
      var once := CommandCallback(ext, table, c.(proto := st.proto), st.delivered.value);
      ReceiveAll(ext, table, c, pre + ([last] + post))
        == Reply(once.ctrl.(proto := Feed(once.ctrl.proto, post).proto), once.sent)
  {
    QuietPrefix(ext, table, c, pre, [last] + post);
    var c1 := c.(proto := Feed(c.proto, pre).proto);
    var st := Consume(c1.proto, last);
    assert c1.(proto := st.proto) == c.(proto := st.proto);
    DeliveringByte(ext, table, c1, last, post);
  }

  /** A byte that delivers a message, then bytes that deliver nothing once
      its command ran. */
  lemma DeliveringByte(ext: Externals, table: CodeTable, c: Controller, last: uint8, post: seq<uint8>)
    requires Inv(c)
    requires var st := Consume(c.proto, last);
      st.delivered.Some?
      && Feed(CommandCallback(ext, table, c.(proto := st.proto), st.delivered.value).ctrl.proto, post).delivered == []
    ensures var st := Consume(c.proto, last);
      var once := CommandCallback(ext, table, c.(proto := st.proto), st.delivered.value);
      ReceiveAll(ext, table, c, [last] + post)
        == Reply(once.ctrl.(proto := Feed(once.ctrl.proto, post).proto), once.sent)
  {
    var st := Consume(c.proto, last);
    var once := CommandCallback(ext, table, c.(proto := st.proto), st.delivered.value);
    assert ([last] + post)[0] == last;
    assert ([last] + post)[1..] == post;
    assert ReceiveByte(ext, table, c, last) == once;
    QuietAll(ext, table, once.ctrl, post);
    assert once.sent + [] == once.sent;
  }

  /** Bytes that deliver nothing only move the receiver. */
  lemma QuietAll(ext: Externals, table: CodeTable, c: Controller, bytes: seq<uint8>)
    requires Inv(c) && Feed(c.proto, bytes).delivered == []
    ensures ReceiveAll(ext, table, c, bytes) == Reply(c.(proto := Feed(c.proto, bytes).proto), [])
  {
    QuietPrefix(ext, table, c, bytes, []);
    assert bytes + [] == bytes;
    var moved := c.(proto := Feed(c.proto, bytes).proto);
    assert ReceiveAll(ext, table, moved, []) == Reply(moved, []);
  }

  /** Cutting the last byte off a non-empty string, before what follows. */
  lemma SplitLast(s: seq<uint8>, t: seq<uint8>)
    requires |s| > 0
    ensures s + t == s[..|s| - 1] + ([s[|s| - 1]] + t)
  {
    assert s == s[..|s| - 1] + [s[|s| - 1]];
  }

  /** Bytes that deliver one message, at their last byte: receiving them
      is running that message's command on the state the last byte left. */
  lemma FirstCopy(ext: Externals, table: CodeTable, c: Controller, fr: seq<uint8>)
    requires Inv(c) && |fr| > 0 && Feed(c.proto, fr[..|fr| - 1]).delivered == []
    requires Consume(Feed(c.proto, fr[..|fr| - 1]).proto, fr[|fr| - 1]).delivered.Some?
    ensures var st := Consume(Feed(c.proto, fr[..|fr| - 1]).proto, fr[|fr| - 1]);
      ReceiveAll(ext, table, c, fr) == CommandCallback(ext, table, c.(proto := st.proto), st.delivered.value)
  {
    var st := Consume(Feed(c.proto, fr[..|fr| - 1]).proto, fr[|fr| - 1]);
    var once := CommandCallback(ext, table, c.(proto := st.proto), st.delivered.value);
    assert Feed(once.ctrl.proto, []) == Fed(once.ctrl.proto, []);
    OneDelivery(ext, table, c, fr[..|fr| - 1], fr[|fr| - 1], []);
    SplitLast(fr, []);
    assert fr + [] == fr;
  }

  /** The same bytes followed by bytes that deliver nothing once the
      command ran: the whole has the effect of the first bytes alone, apart
      from where the receiver stands. */
  lemma FirstCopyThen(ext: Externals, table: CodeTable, c: Controller, fr: seq<uint8>, post: seq<uint8>)
    requires Inv(c) && |fr| > 0 && Feed(c.proto, fr[..|fr| - 1]).delivered == []
    requires Consume(Feed(c.proto, fr[..|fr| - 1]).proto, fr[|fr| - 1]).delivered.Some?
    requires Feed(ReceiveAll(ext, table, c, fr).ctrl.proto, post).delivered == []
    ensures var one := ReceiveAll(ext, table, c, fr); var all := ReceiveAll(ext, table, c, fr + post);
      all == Reply(one.ctrl.(proto := all.ctrl.proto), one.sent) && all.ctrl.proto == Feed(one.ctrl.proto, post).proto
  {
    FirstCopy(ext, table, c, fr);
    OneDelivery(ext, table, c, fr[..|fr| - 1], fr[|fr| - 1], post);
    SplitLast(fr, post);
  }

  /** A frame with a new id, received by a synchronised controller: the
      message it delivers is the one sent (command, id, payload), its
      command runs exactly once, at the frame's last byte, and its replies
      are all that is sent. */
  lemma FrameRunsCommand(ext: Externals, table: CodeTable, c: Controller,
                         cmd: uint8, id: uint8, payload: seq<uint8>)
    requires Inv(c) && c.proto.state == Sync1 && id != c.proto.previousId
    requires |payload| <= MaxPayloadSize
    ensures var f := Feed(c.proto, Frame(cmd, id, payload));
      |f.delivered| == 1 && f.delivered[0].command == cmd && f.delivered[0].msgId == id
      && f.delivered[0].payload[..|payload|] == payload
      && ReceiveAll(ext, table, c, Frame(cmd, id, payload))
         == CommandCallback(ext, table, c.(proto := f.proto), f.delivered[0])
  {
    var fr := Frame(cmd, id, payload);
    FrameRoundTrip(c.proto, cmd, id, payload);
    FrameFeeds(c.proto, cmd, id, payload);
    FrameLastByte(c.proto, cmd, id, payload);
    FirstCopy(ext, table, c, fr);
  }

  /** Frames resent under the id just received dispatch nothing and send
      nothing. */
  lemma ResentFrameIgnored(ext: Externals, table: CodeTable, c: Controller,
                           cmd: uint8, id: uint8, payload: seq<uint8>, k: nat)
    requires Inv(c) && c.proto.state == Sync1 && c.proto.previousId == id && |payload| <= MaxPayloadSize
    ensures var all := ReceiveAll(ext, table, c, Repeat(Frame(cmd, id, payload), k));
      all == Reply(c.(proto := all.ctrl.proto), [])
      && all.ctrl.proto.state == Sync1 && all.ctrl.proto.previousId == id
      && all.ctrl.proto.errors == c.proto.errors
  {
    var rs := Repeat(Frame(cmd, id, payload), k);
    ResentFramesDeliverNothing(c.proto, cmd, id, payload, k);
    QuietPrefix(ext, table, c, rs, []);
    assert rs + [] == rs;
    var c1 := c.(proto := Feed(c.proto, rs).proto);
    assert ReceiveAll(ext, table, c1, []) == Reply(c1, []);
  }

  /** Bytes that move a receiver without delivering, whatever its error
      count, and leave it synchronised under `id` without counting an
      error. */
  predicate QuietAfter(p: Proto, post: seq<uint8>, id: uint8)
    requires Protocol.Valid(p)
  {
    forall e: uint8 :: var f := Feed(p.(errors := e), post);
      f.delivered == [] && f.proto.state == Sync1 && f.proto.previousId == id && f.proto.errors == e
  }

  /** Copies of a frame are quiet after a receiver that recorded its id. */
  lemma ResentFramesQuiet(p: Proto, cmd: uint8, id: uint8, payload: seq<uint8>, k: nat)
    requires Protocol.Valid(p) && p.state == Sync1 && p.previousId == id && |payload| <= MaxPayloadSize
    ensures QuietAfter(p, Repeat(Frame(cmd, id, payload), k), id)
  {
    forall e: uint8
      ensures var f := Feed(p.(errors := e), Repeat(Frame(cmd, id, payload), k));
        f.delivered == [] && f.proto.state == Sync1 && f.proto.previousId == id && f.proto.errors == e
    {
      ResentFramesDeliverNothing(p.(errors := e), cmd, id, payload, k);
    }
  }

  /** k copies of the bytes fr, fed from p: the first copy delivers one
      message at its last byte and nothing before it, and the k - 1 copies
      after it are quiet. */
  predicate RetryShape(p: Proto, fr: seq<uint8>, k: nat, id: uint8)
    requires Protocol.Valid(p)
  {
    |fr| > 0 && k >= 1 && Feed(p, fr[..|fr| - 1]).delivered == []
    && var st := Consume(Feed(p, fr[..|fr| - 1]).proto, fr[|fr| - 1]);
    st.delivered.Some? && QuietAfter(st.proto, Repeat(fr, k - 1), id)
  }

  /** The copies `protoTx` sends of a frame with a new id have that shape. */
  lemma FrameRetryShape(p: Proto, cmd: uint8, id: uint8, payload: seq<uint8>, k: nat)
    requires Protocol.Valid(p) && p.state == Sync1 && id != p.previousId
    requires |payload| <= MaxPayloadSize && k >= 1
    ensures RetryShape(p, Frame(cmd, id, payload), k, id)
  {
    var fr := Frame(cmd, id, payload);
    FrameEnd(p, cmd, id, payload);
    var st := Consume(Feed(p, fr[..|fr| - 1]).proto, fr[|fr| - 1]);
    ResentFramesQuiet(st.proto, cmd, id, payload, k - 1);
  }

  /** Bytes that deliver one message at their last byte and leave the
      receiver synchronised under `id`, followed by bytes quiet after such a
      receiver: the whole has the effect of the first bytes, and the
      receiver ends synchronised under `id` with no further error. */
  lemma CopiesLikeFirst(ext: Externals, table: CodeTable, c: Controller, fr: seq<uint8>, k: nat, id: uint8)
    requires Inv(c) && RetryShape(c.proto, fr, k, id)
    ensures ActsOnce(ext, table, c, fr, k, id)
  {
    var st := Consume(Feed(c.proto, fr[..|fr| - 1]).proto, fr[|fr| - 1]);
    FirstCopy(ext, table, c, fr);
    var one := ReceiveAll(ext, table, c, fr);
    assert one.ctrl.proto == st.proto.(errors := one.ctrl.proto.errors);
    var post := Repeat(fr, k - 1);
    var f := Feed(st.proto.(errors := one.ctrl.proto.errors), post);
    assert f.delivered == [] && f.proto.errors == one.ctrl.proto.errors;
    FirstCopyThen(ext, table, c, fr, post);
    assert Repeat(fr, k) == fr + post;
  }

  /** k copies of the bytes fr have the effect of one copy: the same
      state apart from the receiver and the same replies; the receiver ends
      synchronised with `id` as the previous id and no error counted beyond
      those of the first copy. */
  predicate ActsOnce(ext: Externals, table: CodeTable, c: Controller, fr: seq<uint8>, k: nat, id: uint8)
    requires Inv(c)
  {
    var one := ReceiveAll(ext, table, c, fr);
    var all := ReceiveAll(ext, table, c, Repeat(fr, k));
    all == Reply(one.ctrl.(proto := all.ctrl.proto), one.sent)
    && all.ctrl.proto.state == Sync1 && all.ctrl.proto.previousId == id
    && all.ctrl.proto.errors == one.ctrl.proto.errors
  }

  /** The retries of `protoTx` do not repeat the command: k >= 1 copies of
      a frame with a new id have the effect of one copy (the same state
      apart from the receiver, and the same replies), and leave the
      controller synchronised with the id recorded and no further error
      counted. */
  lemma RetriedFrameRunsOnce(ext: Externals, table: CodeTable, c: Controller,
                             cmd: uint8, id: uint8, payload: seq<uint8>, k: nat)
    requires Inv(c) && c.proto.state == Sync1 && id != c.proto.previousId
    requires |payload| <= MaxPayloadSize && k >= 1
    ensures ActsOnce(ext, table, c, Frame(cmd, id, payload), k, id)
  {
    FrameRetryShape(c.proto, cmd, id, payload, k);
    CopiesLikeFirst(ext, table, c, Frame(cmd, id, payload), k, id);
  }
}

=== FILE: matrix.dfy ===
/** The software PWM that drives the LED matrix: a timer tick either
    dims rows whose time is up, or ends the column cycle, runs the pending
    profile work and lights the next column. GPIO lines are modelled as
    flags for the asserted rows, columns and the power line. */
module Matrix {
  import opened Bytes
  import opened Board
  import opened Led
  import opened Profiles
  import opened Scheduler

  /** Timer ticks per column cycle. */
  const PwmCounterLimit: uint16 := 80

  /** One line per colour of each key row (row r red, green, blue are
      lines 3r, 3r+1, 3r+2). */
  const RowLines: nat := 3 * NumRow

  type RowTimes = s: seq<uint8> | |s| == 15 witness [0, 0, 0, 0, 0, 0, 0, 0, 0, 0, 0, 0, 0, 0, 0]
  type RowFlags = s: seq<bool> | |s| == 15
    witness [false, false, false, false, false, false, false, false, false, false, false, false, false, false, false]
  type ColumnFlags = s: seq<bool> | |s| == 14
    witness [false, false, false, false, false, false, false, false, false, false, false, false, false, false]

  /** Which output lines are asserted. */
  datatype Lines = Lines(rows: RowFlags, columns: ColumnFlags, power: bool)

  /** The driver's state: the tick counter within the column cycle, the lit
      column, each row line's remaining time, the number of row lines still
      lit, the asserted lines, and whether the timer runs (`matrixEnabled`). */
  datatype Driver = Driver(
    pwmCounter: uint16,
    currentColumn: uint8,
    rowTimes: RowTimes,
    rowsEnabled: uint8,
    lines: Lines,
    enabled: bool)

  function NoRows(): (r: RowFlags)
    ensures forall i | 0 <= i < RowLines :: !r[i]
  {
    seq(RowLines, _ => false)
  }

  function NoColumns(): (r: ColumnFlags)
    ensures forall c | 0 <= c < NumColumn :: !r[c]
  {
    seq(NumColumn, _ => false)
  }

  function NoTimes(): (r: RowTimes)
    ensures forall i | 0 <= i < RowLines :: r[i] == 0
  {
    seq(RowLines, _ => 0)
  }

  /** The number of entries from index j on that are above t. */
  function CountAbove(s: seq<uint8>, t: int, j: nat): (n: nat)
    requires j <= |s|
    ensures n <= |s| - j
    decreases |s| - j
  {
    if j == |s| then 0 else (if s[j] > t then 1 else 0) + CountAbove(s, t, j + 1)
  }

  /** The number of entries from index j on that equal t. */
  function CountEqual(s: seq<uint8>, t: int, j: nat): (n: nat)
    requires j <= |s|
    ensures n <= |s| - j
    decreases |s| - j
  {
    if j == |s| then 0 else (if s[j] == t then 1 else 0) + CountEqual(s, t, j + 1)
  }

  /** The entries above t - 1 are those above t and those equal to t. */
  lemma {:induction false} CountSplit(s: seq<uint8>, t: int, j: nat)
    requires j <= |s|
    ensures CountAbove(s, t - 1, j) == CountAbove(s, t, j) + CountEqual(s, t, j)
    decreases |s| - j
  {
    if j < |s| {
      CountSplit(s, t, j + 1);
    }
  }

  /** No entry above t means a count of zero, and a count of zero means no
      entry above t. */
  lemma {:induction false} CountAboveZero(s: seq<uint8>, t: int, j: nat)
    requires j <= |s|
    ensures CountAbove(s, t, j) == 0 <==> forall i | j <= i < |s| :: s[i] <= t
    decreases |s| - j
  {
    if j < |s| {
      CountAboveZero(s, t, j + 1);
    }
  }

  /** The three colour channels in row-line order: red, green, blue (the
      `pv[2 - k]` bytes of the colour record). */
  function Channel(c: Led, k: nat): uint8
    requires k < 3
  {
    if k == 0 then c.red else if k == 1 then c.green else c.blue
  }

  /** The lit time of row line i in column col: its channel of key
      (i / 3, col) with the two low bits dropped, so at most 63, which is
      below the cycle length. */
  function RowTime(colors: Buffer, col: nat, i: nat): (t: uint8)
    requires col < NumColumn && i < RowLines
    ensures t <= 63 && t < PwmCounterLimit
    ensures t == Channel(colors[RowCol2Idx(i / 3, col)], i % 3) / 4
  {
    Channel(colors[RowCol2Idx(i / 3, col)], i % 3) / 4
  }

  /** `pwmRowDimmer`: the loop over the row lines clears every line whose
      time equals the counter and takes one off `rowsEnabled` for each (a
      byte, so the count wraps modulo 256); then the column line is cleared
      once no row is left lit. */
  function PwmRowDimmer(d: Driver): (r: Driver)
    ensures r.pwmCounter == d.pwmCounter && r.currentColumn == d.currentColumn
    ensures r.rowTimes == d.rowTimes && r.enabled == d.enabled && r.lines.power == d.lines.power
    ensures forall i | 0 <= i < RowLines ::
      r.lines.rows[i] == (d.lines.rows[i] && d.rowTimes[i] != d.pwmCounter)
    ensures CountEqual(d.rowTimes, d.pwmCounter, 0) <= d.rowsEnabled ==>
      r.rowsEnabled == d.rowsEnabled - CountEqual(d.rowTimes, d.pwmCounter, 0)
    ensures d.currentColumn < NumColumn ==>
      r.lines.columns == if r.rowsEnabled == 0 then d.lines.columns[d.currentColumn := false]
                         else d.lines.columns
  {
    var rows := seq(RowLines, i requires 0 <= i < RowLines => d.lines.rows[i] && d.rowTimes[i] != d.pwmCounter);
    var n := Wrap8(d.rowsEnabled - CountEqual(d.rowTimes, d.pwmCounter, 0));
    var columns := if n == 0 && d.currentColumn < NumColumn
                   then d.lines.columns[d.currentColumn := false] else d.lines.columns;
    d.(rowsEnabled := n, lines := d.lines.(rows := rows, columns := columns))
  }

  /** The row times of column col, line by line. */
  function ColumnTimes(colors: Buffer, col: nat): (t: RowTimes)
    requires col < NumColumn
    ensures forall i | 0 <= i < RowLines :: t[i] == RowTime(colors, col, i)
  {
    seq(RowLines, i requires 0 <= i < RowLines => RowTime(colors, col, i))
  }

  /** `pwmNextColumn`: the lit column is cleared, the next column (modulo
      14) is loaded: each row line's time comes from the buffer, every line
      with a non-zero time is asserted and counted, and the column line is
      asserted only if some row is lit. */
  function PwmNextColumn(colors: Buffer, d: Driver): (r: Driver)
    requires d.currentColumn < NumColumn
    ensures r.currentColumn == (d.currentColumn + 1) % NumColumn
    ensures r.currentColumn == if d.currentColumn == 13 then 0 else d.currentColumn + 1
    ensures forall i | 0 <= i < RowLines :: r.rowTimes[i] == RowTime(colors, r.currentColumn, i)
    ensures r.rowsEnabled == CountAbove(r.rowTimes, 0, 0)
    ensures forall i | 0 <= i < RowLines :: r.lines.rows[i] == (r.rowTimes[i] > 0 || d.lines.rows[i])
    ensures forall c | 0 <= c < NumColumn ::
      r.lines.columns[c] == if c == d.currentColumn then false
                            else if c == r.currentColumn then r.rowsEnabled > 0 || d.lines.columns[c]
                            else d.lines.columns[c]
    ensures r.pwmCounter == d.pwmCounter && r.enabled == d.enabled && r.lines.power == d.lines.power
  {
    var col := (d.currentColumn + 1) % NumColumn;
    var times := ColumnTimes(colors, col);
    var n := CountAbove(times, 0, 0);
    var rows := seq(RowLines, i requires 0 <= i < RowLines => times[i] > 0 || d.lines.rows[i]);
    var cleared := d.lines.columns[d.currentColumn := false];
    var columns := if n > 0 then cleared[col := true] else cleared;
    d.(currentColumn := col, rowTimes := times, rowsEnabled := n,
       lines := d.lines.(rows := rows, columns := columns))
  }

  /** The driver's invariant: the counter is inside the cycle, every row
      time fits in the cycle, a lit row line still has time left, only the
      current column may be lit and only while a row is, and `rowsEnabled`
      counts exactly the row lines with time left. */
  predicate DriverInv(d: Driver) {
    d.pwmCounter < PwmCounterLimit && d.currentColumn < NumColumn
    && (forall i | 0 <= i < RowLines :: d.rowTimes[i] <= 63)
    && (forall i | 0 <= i < RowLines :: d.lines.rows[i] ==> d.rowTimes[i] > d.pwmCounter)
    && (forall c | 0 <= c < NumColumn :: d.lines.columns[c] ==> c == d.currentColumn && d.rowsEnabled > 0)
    && d.rowsEnabled == CountAbove(d.rowTimes, d.pwmCounter, 0)
  }

  /** The power-on driver: counter, column and times zero, nothing lit,
      timer stopped. */
  function InitialDriver(): Driver {
    Driver(0, 0, NoTimes(), 0, Lines(NoRows(), NoColumns(), false), false)
  }

  lemma InitialDriverInv()
    ensures DriverInv(InitialDriver())
  {
    CountAboveZero(NoTimes(), 0, 0);
  }

  /** `matrixEnable`: the power line is asserted and the timer runs. */
  function MatrixEnable(d: Driver): (r: Driver)
    ensures r.enabled && r.lines.power
    ensures r == d.(enabled := true, lines := d.lines.(power := true))
  {
    d.(enabled := true, lines := d.lines.(power := true))
  }

  /** `matrixDisable`: the timer stops and every row, column and the power
      line are cleared. */
  function MatrixDisable(d: Driver): (r: Driver)
    ensures !r.enabled && !r.lines.power
    ensures forall i | 0 <= i < RowLines :: !r.lines.rows[i]
    ensures forall c | 0 <= c < NumColumn :: !r.lines.columns[c]
    ensures r.pwmCounter == d.pwmCounter && r.currentColumn == d.currentColumn
    ensures r.rowTimes == d.rowTimes && r.rowsEnabled == d.rowsEnabled
  {
    d.(enabled := false, lines := Lines(NoRows(), NoColumns(), false))
  }

  /** Enabling and disabling keep the driver's invariant. */
  lemma EnableDisableKeepInv(d: Driver)
    requires DriverInv(d)
    ensures DriverInv(MatrixEnable(d)) && DriverInv(MatrixDisable(d))
  {
  }

  /** The lighting state together with the driver: what the timer
      interrupt reads and writes. */
  datatype Machine = Machine(lights: Lights, driver: Driver)

  predicate MachineInv(m: Machine) {
    Valid(m.lights) && DriverInv(m.driver)
  }

  /** `mainCallback`, one timer tick. Below the cycle end only the dimmer
      runs and nothing else changes. At the end the pending and animation
      profile work runs on the lighting state (CycleBoundary), the counter
      restarts and the next column is loaded from the repainted buffer. */
  function MainCallback(ext: Externals, m: Machine): (r: Machine)
    requires MachineInv(m)
    ensures m.driver.pwmCounter + 1 < PwmCounterLimit ==>
      r.lights == m.lights
      && r.driver == PwmRowDimmer(m.driver.(pwmCounter := m.driver.pwmCounter + 1))
    ensures m.driver.pwmCounter + 1 >= PwmCounterLimit ==>
      r.lights == CycleBoundary(ext, m.lights, m.driver.currentColumn == 13)
      && r.driver == PwmNextColumn(r.lights.colors, m.driver.(pwmCounter := 0))
  {
    var counter := Wrap16(m.driver.pwmCounter + 1);
    if counter < PwmCounterLimit then Machine(m.lights, DimDriver(m.driver)) else EndTick(ext, m)
  }

  /** A tick keeps the lighting state valid and the driver's invariant. */
  lemma TickKeepsInv(ext: Externals, m: Machine)
    requires MachineInv(m)
    ensures MachineInv(MainCallback(ext, m))
  {
    if m.driver.pwmCounter + 1 < PwmCounterLimit {
      assert MainCallback(ext, m) == Machine(m.lights, DimDriver(m.driver));
    } else {
      assert MainCallback(ext, m) == EndTick(ext, m);
    }
  }

  /** A tick below the cycle end: only the dimmer runs. */
  function DimDriver(d: Driver): (r: Driver)
    requires DriverInv(d) && d.pwmCounter + 1 < PwmCounterLimit
    ensures DriverInv(r) && r == PwmRowDimmer(d.(pwmCounter := d.pwmCounter + 1))
  {
    var r := PwmRowDimmer(d.(pwmCounter := d.pwmCounter + 1));
    DimmerKeepsInv(d, r);
    r
  }

  /** The tick that ends a column cycle. */
  function EndTick(ext: Externals, m: Machine): (r: Machine)
    requires MachineInv(m) && m.driver.pwmCounter + 1 >= PwmCounterLimit
    ensures MachineInv(r)
    ensures r.lights == CycleBoundary(ext, m.lights, m.driver.currentColumn == 13)
    ensures r.driver == PwmNextColumn(r.lights.colors, m.driver.(pwmCounter := 0))
  {
    var lights := CycleBoundary(ext, m.lights, m.driver.currentColumn == 13);
    var d := PwmNextColumn(lights.colors, m.driver.(pwmCounter := 0));
    NextColumnKeepsInv(lights.colors, m.driver, d);
    Machine(lights, d)
  }

  /** A dimmer tick keeps the invariant; `rowsEnabled` drops by the
      number of expired lines without ever wrapping below zero. */
  lemma DimmerKeepsInv(d: Driver, r: Driver)
    requires DriverInv(d) && d.pwmCounter + 1 < PwmCounterLimit
    requires r == PwmRowDimmer(d.(pwmCounter := d.pwmCounter + 1))
    ensures DriverInv(r)
    ensures r.rowsEnabled == d.rowsEnabled - CountEqual(d.rowTimes, d.pwmCounter + 1, 0)
  {
    DimmedCount(d, r);
    DimmedRows(d, r);
    DimmedColumns(d, r);
  }

  lemma DimmedCount(d: Driver, r: Driver)
    requires DriverInv(d) && d.pwmCounter + 1 < PwmCounterLimit
    requires r == PwmRowDimmer(d.(pwmCounter := d.pwmCounter + 1))
    ensures r.rowsEnabled == CountAbove(r.rowTimes, r.pwmCounter, 0)
    ensures r.rowsEnabled == d.rowsEnabled - CountEqual(d.rowTimes, d.pwmCounter + 1, 0)
  {
    CountSplit(d.rowTimes, d.pwmCounter + 1, 0);
  }

  lemma DimmedRows(d: Driver, r: Driver)
    requires d.pwmCounter + 1 < PwmCounterLimit
    requires forall i | 0 <= i < RowLines :: d.lines.rows[i] ==> d.rowTimes[i] > d.pwmCounter
    requires r == PwmRowDimmer(d.(pwmCounter := d.pwmCounter + 1))
    ensures forall i | 0 <= i < RowLines :: r.lines.rows[i] ==> r.rowTimes[i] > r.pwmCounter
  {
  }

  lemma DimmedColumns(d: Driver, r: Driver)
    requires d.pwmCounter + 1 < PwmCounterLimit && d.currentColumn < NumColumn
    requires forall c | 0 <= c < NumColumn :: d.lines.columns[c] ==> c == d.currentColumn
    requires r == PwmRowDimmer(d.(pwmCounter := d.pwmCounter + 1))
    ensures forall c | 0 <= c < NumColumn :: r.lines.columns[c] ==> c == r.currentColumn && r.rowsEnabled > 0
  {
  }

  /** A cycle end keeps the invariant: every row line lit during the
      column had time at most 63 and was cleared before tick 80, so the new
      column starts with exactly the lines of non-zero time lit. */
  lemma NextColumnKeepsInv(colors: Buffer, d: Driver, r: Driver)
    requires DriverInv(d) && d.pwmCounter + 1 >= PwmCounterLimit
    requires r == PwmNextColumn(colors, d.(pwmCounter := 0))
    ensures DriverInv(r)
    ensures forall i | 0 <= i < RowLines :: r.lines.rows[i] <==> r.rowTimes[i] > 0
    ensures forall c | 0 <= c < NumColumn :: r.lines.columns[c] <==> c == r.currentColumn && r.rowsEnabled > 0
  {
  }

  /** At the start of every column the asserted row lines are exactly
      those with a non-zero time, `rowsEnabled` counts them, and the column
      line is asserted exactly when one is. */
  lemma ColumnStartExact(ext: Externals, m: Machine)
    requires MachineInv(m) && m.driver.pwmCounter + 1 >= PwmCounterLimit
    ensures var d := MainCallback(ext, m).driver;
      d.pwmCounter == 0
      && d.rowsEnabled == CountAbove(d.rowTimes, 0, 0)
      && (forall i | 0 <= i < RowLines :: d.lines.rows[i] <==> d.rowTimes[i] > 0)
      && (forall c | 0 <= c < NumColumn :: d.lines.columns[c] <==> c == d.currentColumn && d.rowsEnabled > 0)
  {
    var d := m.driver;
    var lights := CycleBoundary(ext, m.lights, d.currentColumn == 13);
    NextColumnKeepsInv(lights.colors, d, MainCallback(ext, m).driver);
  }

  /** n timer ticks. */
  function Ticks(ext: Externals, m: Machine, n: nat): (r: Machine)
    requires MachineInv(m)
    ensures MachineInv(r)
    decreases n
  {
    if n == 0 then m
    else
      var p := Ticks(ext, m, n - 1);
      TickKeepsInv(ext, p);
      MainCallback(ext, p)
  }

  /** A tick below the cycle end moves the counter on by one and leaves
      the column, the row times and the lighting state alone. */
  lemma DimmerTick(ext: Externals, m: Machine)
    requires MachineInv(m) && m.driver.pwmCounter + 1 < PwmCounterLimit
    ensures var r := MainCallback(ext, m);
      r.driver.pwmCounter == m.driver.pwmCounter + 1
      && r.driver.currentColumn == m.driver.currentColumn
      && r.driver.rowTimes == m.driver.rowTimes && r.lights == m.lights
  {
  }

  /** The inductive step of TicksWithinColumn: the n-th tick is a dimmer
      tick. */
  lemma TickWithinColumn(ext: Externals, m: Machine, n: nat)
    requires MachineInv(m) && n > 0 && m.driver.pwmCounter + n < PwmCounterLimit
    requires var p := Ticks(ext, m, n - 1);
      p.driver.currentColumn == m.driver.currentColumn && p.driver.rowTimes == m.driver.rowTimes
      && p.driver.pwmCounter == m.driver.pwmCounter + n - 1 && p.lights == m.lights
    ensures var r := Ticks(ext, m, n);
      r.driver.currentColumn == m.driver.currentColumn && r.driver.rowTimes == m.driver.rowTimes
      && r.driver.pwmCounter == m.driver.pwmCounter + n && r.lights == m.lights
  {
    var p := Ticks(ext, m, n - 1);
    DimmerTick(ext, p);
    assert Ticks(ext, m, n) == MainCallback(ext, p);
  }

  /** Within a column cycle the column and the row times stay put while
      the counter climbs one per tick. */
  lemma {:induction false} TicksWithinColumn(ext: Externals, m: Machine, n: nat)
    requires MachineInv(m) && m.driver.pwmCounter + n < PwmCounterLimit
    ensures var r := Ticks(ext, m, n);
      r.driver.currentColumn == m.driver.currentColumn && r.driver.rowTimes == m.driver.rowTimes
      && r.driver.pwmCounter == m.driver.pwmCounter + n && r.lights == m.lights
    decreases n
  {
    if n > 0 {
      TicksWithinColumn(ext, m, n - 1);
      TickWithinColumn(ext, m, n);
    }
  }

  /** Every column is lit for exactly 80 ticks: from the start of a column
      (counter 0), 79 ticks keep it and the 80th moves on to the next column
      modulo 14 with the counter back at 0. */
  lemma ColumnLasts80Ticks(ext: Externals, m: Machine)
    requires MachineInv(m) && m.driver.pwmCounter == 0
    ensures Ticks(ext, m, 79).driver.currentColumn == m.driver.currentColumn
    ensures var d := Ticks(ext, m, 80).driver;
      d.currentColumn == (m.driver.currentColumn + 1) % NumColumn && d.pwmCounter == 0
  {
    TicksWithinColumn(ext, m, 79);
    var p := Ticks(ext, m, 79);
    BoundaryTick(ext, p);
    assert Ticks(ext, m, 80) == MainCallback(ext, p);
  }

  /** The tick at the cycle end restarts the counter and moves to the next
      column. */
  lemma BoundaryTick(ext: Externals, m: Machine)
    requires MachineInv(m) && m.driver.pwmCounter + 1 >= PwmCounterLimit
    ensures var r := MainCallback(ext, m);
      r.driver.pwmCounter == 0
      && r.driver.currentColumn == (m.driver.currentColumn + 1) % NumColumn
  {
  }
}

=== FILE: profiles.dfy ===
/** The lighting effects: static palette fills and the per-call steppers of
    the animated effects. Effects whose bodies this model does not contain
    (white, reactive fade, reactive pulse and their hooks) are supplied as
    an `Externals` record of functions on colour buffers. The intensity
    argument the effects receive is ignored by every effect body. */
module Profiles {
  import opened Bytes
  import opened Board
  import opened Led
  import opened LightUtils
  import opened FastLed
  import opened Fills

  /** The effects' static variables. */
  datatype EffectState = EffectState(
    colAnimOffset: uint8,
    flowValue: ColumnBytes,
    waterfallValue: ColumnBytes,
    breathingValue: uint8,
    breathingDirection: int,
    spectrumValue: uint8,
    spectrumDirection: int,
    waveValue: ColumnBytes,
    waveDirection: ColumnDirs)

  /** The statics' initial values. */
  const InitialEffects := EffectState(
    0,
    [0, 11, 22, 33, 44, 55, 66, 77, 88, 99, 110, 121, 132, 143],
    [0, 10, 20, 30, 40, 50, 60, 70, 80, 90, 100, 110, 120, 130],
    180, -1,
    2, 1,
    [0, 0, 0, 10, 15, 20, 25, 40, 55, 75, 100, 115, 135, 140],
    [3, 3, 3, 3, 3, 3, 3, 3, 3, 3, 3, 3, 3, 3])

  /** What one call of an animated effect produces: the repainted buffer
      and the next value of that effect's statics. */
  datatype RainbowFrame = RainbowFrame(colors: Buffer, offset: uint8)
  datatype HueFrame = HueFrame(colors: Buffer, hues: ColumnBytes)
  datatype BounceFrame = BounceFrame(colors: Buffer, value: uint8, direction: int)
  datatype WaveFrame = WaveFrame(colors: Buffer, values: ColumnBytes, directions: ColumnDirs)

  /** `red`, `green`, `blue`: the whole board one fixed colour. */
  function Red(buf: Buffer): (r: Buffer)
    ensures forall k | 0 <= k < KeyCount :: r[k] == Led(0, 0, 0xFF, 0)
  {
    assert Unpack(0xFF0000) == Led(0, 0, 0xFF, 0);
    SetAllKeysColor(buf, 0xFF0000)
  }

  function Green(buf: Buffer): (r: Buffer)
    ensures forall k | 0 <= k < KeyCount :: r[k] == Led(0, 0xFF, 0, 0)
  {
    assert Unpack(0x00FF00) == Led(0, 0xFF, 0, 0);
    SetAllKeysColor(buf, 0x00FF00)
  }

  function Blue(buf: Buffer): (r: Buffer)
    ensures forall k | 0 <= k < KeyCount :: r[k] == Led(0xFF, 0, 0, 0)
  {
    assert Unpack(0x0000FF) == Led(0xFF, 0, 0, 0);
    SetAllKeysColor(buf, 0x0000FF)
  }

  /** `miamiNights`: cyan board with magenta modifier keys. */
  function MiamiNights(buf: Buffer): (r: Buffer)
    ensures forall k | 0 <= k < KeyCount ::
      r[k] == if k in ModKeyIds then Led(0x8f, 0x00, 0x9c, 0) else Led(0x9c, 0x97, 0x00, 0)
  {
    assert Unpack(0x00979c) == Led(0x9c, 0x97, 0x00, 0);
    assert Unpack(0x9c008f) == Led(0x8f, 0x00, 0x9c, 0);
    SetModKeysColor(SetAllKeysColor(buf, 0x00979c), 0x9c008f)
  }

  /** `rainbowHorizontal`: every key of row i gets palette colour i mod 7. */
  function RainbowHorizontal(buf: Buffer): (r: Buffer)
    ensures forall k | 0 <= k < KeyCount :: r[k] == RainbowColor(k / NumColumn)
  {
    PaintRows(buf, RowPalette())
  }

  /** `rainbowVertical`: every key of column i gets palette colour i mod 7. */
  function RainbowVertical(buf: Buffer): (r: Buffer)
    ensures forall k | 0 <= k < KeyCount :: r[k] == RainbowColor(k % NumColumn)
  {
    ShiftedRainbow(buf, 0)
  }

  /** `animatedRainbowVertical`: column i gets palette colour
      (i + offset) mod 7, then the offset advances by one modulo 7, so it
      always stays within 0..6. */
  function AnimatedRainbowVertical(buf: Buffer, offset: uint8): (r: RainbowFrame)
    ensures forall k | 0 <= k < KeyCount :: r.colors[k] == RainbowColor(k % NumColumn + offset)
    ensures r.offset < 7
    ensures offset < 7 ==> r.offset == if offset == 6 then 0 else offset + 1
  {
    RainbowFrame(ShiftedRainbow(buf, offset), (offset + 1) % 7)
  }

  /** The hue advance of the flow and waterfall effects: hues in 179..239
      jump to 240 before the byte-wide `+= 3`, so a stored hue never lands
      in 182..242. */
  function FlowStep(v: uint8): (r: uint8)
    ensures !(182 <= r < 243)
    ensures 179 <= v < 240 ==> r == 243
    ensures v < 179 ==> r == v + 3
    ensures 240 <= v ==> r == (v + 3) % 0x100
  {
    var skipped := if 179 <= v && v < 240 then 240 else v;
    Wrap8(skipped + 3)
  }

  /** `animatedRainbowFlow`: column i is painted with hue flowValue[i]
      (taken before the advance), then every column's hue advances. */
  function AnimatedRainbowFlow(buf: Buffer, flow: ColumnBytes): (r: HueFrame)
    ensures forall k | 0 <= k < KeyCount ::
      var c := Hsv2Rgb(flow[k % NumColumn], 255, 125);
      r.colors[k] == Led(c.blue, c.green, c.red, buf[k].alpha)
    ensures forall i | 0 <= i < NumColumn :: r.hues[i] == FlowStep(flow[i])
  {
    HueFrame(HueColumnsFill(buf, flow), FlowSteps(flow))
  }

  /** Every column's hue advanced by one flow step. */
  function FlowSteps(flow: ColumnBytes): (r: ColumnBytes)
    ensures forall i | 0 <= i < NumColumn :: r[i] == FlowStep(flow[i])
  {
    seq(NumColumn, i requires 0 <= i < NumColumn => FlowStep(flow[i]))
  }

  /** `animatedRainbowWaterfall`: row i (of the 5) is painted with hue
      waterfallValue[i], then those five hues advance; the other nine
      entries of the array are never read or written. */
  function AnimatedRainbowWaterfall(buf: Buffer, fall: ColumnBytes): (r: HueFrame)
    ensures forall k | 0 <= k < KeyCount ::
      var c := Hsv2Rgb(fall[k / NumColumn], 255, 125);
      r.colors[k] == Led(c.blue, c.green, c.red, buf[k].alpha)
    ensures forall i | 0 <= i < NumColumn ::
      r.hues[i] == if i < NumRow then FlowStep(fall[i]) else fall[i]
  {
    HueFrame(HueRowsFill(buf, fall), WaterfallSteps(fall))
  }

  /** The first five hues advanced by one flow step, the rest kept. */
  function WaterfallSteps(fall: ColumnBytes): (r: ColumnBytes)
    ensures forall i | 0 <= i < NumColumn :: r[i] == if i < NumRow then FlowStep(fall[i]) else fall[i]
  {
    seq(NumColumn, i requires 0 <= i < NumColumn => if i < NumRow then FlowStep(fall[i]) else fall[i])
  }

  /** The direction rule shared by breathing, spectrum and wave: turn down at
      or above `high`, up at or below `low`, else keep going. */
  function Bounce(v: int, dir: int, low: int, high: int): (d: int)
    requires low < high
    ensures v >= high ==> d == -3
    ensures low < v < high ==> d == dir
    ensures v <= low ==> d == 3
  {
    if v >= high then -3 else if v <= low then 3 else dir
  }

  /** The breathing value's reachable states: multiples of 3 in 0..180,
      moving by 3 (the initial direction -1 is only ever seen at 180). */
  predicate BreathingInv(value: uint8, dir: int) {
    value % 3 == 0 && value <= 180 && (dir == 3 || dir == -3 || value == 180)
  }

  /** One step of the breathing value: 3 down from 180 or more, 3 up from 2
      or less, else on in its direction. */
  function BreathingStep(value: uint8, dir: int): (r: (uint8, int))
    ensures r.1 == Bounce(value, dir, 2, 180)
    ensures (dir == 3 || dir == -3 || dir == -1) ==> r.0 == value + r.1
  {
    var d := Bounce(value, dir, 2, 180);
    (Wrap8(value + d), d)
  }

  /** `animatedBreathing`: the board is painted green (hue 85) at brightness
      `value`, then the value takes one breathing step. */
  function AnimatedBreathing(buf: Buffer, value: uint8, dir: int): (r: BounceFrame)
    ensures var c := Hsv2Rgb(85, 255, value);
      forall k | 0 <= k < KeyCount :: r.colors[k] == Led(c.blue, c.green, c.red, buf[k].alpha)
    ensures (r.value, r.direction) == BreathingStep(value, dir)
  {
    var step := BreathingStep(value, dir);
    BounceFrame(SetAllKeysColorHsv(buf, 85, 255, value), step.0, step.1)
  }

  /** Starting at 180 the breathing value stays a multiple of 3 within
      0..180, moving by exactly 3, so it never wraps. */
  lemma BreathingStaysInRange(value: uint8, dir: int)
    requires BreathingInv(value, dir)
    ensures var r := BreathingStep(value, dir);
      BreathingInv(r.0, r.1) && (r.0 == value + 3 || r.0 == value - 3)
  {
  }

  /** The spectrum hue's reachable states: 2 more than a multiple of 3 in
      2..179 (the initial direction 1 is only ever seen at 2). */
  predicate SpectrumInv(value: uint8, dir: int) {
    value % 3 == 2 && 2 <= value <= 179 && (dir == 3 || dir == -3 || value == 2)
  }

  /** One step of the spectrum hue: 3 down from 177 or more, 3 up from 2 or
      less, else on in its direction. */
  function SpectrumStep(value: uint8, dir: int): (r: (uint8, int))
    ensures r.1 == Bounce(value, dir, 2, 177)
    ensures (dir == 3 || dir == -3 || dir == 1) ==> r.0 == value + r.1
  {
    var d := Bounce(value, dir, 2, 177);
    (Wrap8(value + d), d)
  }

  /** `animatedSpectrum`: the board is painted with hue `value`, then the hue
      takes one spectrum step. */
  function AnimatedSpectrum(buf: Buffer, value: uint8, dir: int): (r: BounceFrame)
    ensures var c := Hsv2Rgb(value, 255, 125);
      forall k | 0 <= k < KeyCount :: r.colors[k] == Led(c.blue, c.green, c.red, buf[k].alpha)
    ensures (r.value, r.direction) == SpectrumStep(value, dir)
  {
    var step := SpectrumStep(value, dir);
    BounceFrame(SetAllKeysColorHsv(buf, value, 255, 125), step.0, step.1)
  }

  /** Starting at 2 the spectrum hue stays within 2..179, moving by 3. */
  lemma SpectrumStaysInRange(value: uint8, dir: int)
    requires SpectrumInv(value, dir)
    ensures var r := SpectrumStep(value, dir);
      SpectrumInv(r.0, r.1) && (r.0 == value + 3 || r.0 == value - 3)
  {
  }

  /** The wave's reachable states: every column value within 0..142, every
      direction 3 or -3. */
  predicate WaveInv(values: ColumnBytes, dirs: ColumnDirs) {
    forall i | 0 <= i < NumColumn :: values[i] <= 142 && (dirs[i] == 3 || dirs[i] == -3)
  }

  /** One step of a wave column: the direction turns down at 140 or more
      and up at 10 or less, then the value moves by it. */
  function WaveStep(value: uint8, dir: int): (r: (uint8, int))
    ensures r.1 == Bounce(value, dir, 10, 140)
    ensures (dir == 3 || dir == -3) && value <= 142 ==> r.0 == value + r.1
  {
    var d := Bounce(value, dir, 10, 140);
    (Wrap8(value + d), d)
  }

  /** `animatedWave`: per column, the column is painted hue 190 at
      brightness values[i] (the value before its step), and the value and
      direction take one wave step. */
  function AnimatedWave(buf: Buffer, values: ColumnBytes, dirs: ColumnDirs): (r: WaveFrame)
    ensures forall k | 0 <= k < KeyCount ::
      var c := Hsv2Rgb(190, 255, values[k % NumColumn]);
      r.colors[k] == Led(c.blue, c.green, c.red, buf[k].alpha)
    ensures forall i | 0 <= i < NumColumn :: (r.values[i], r.directions[i]) == WaveStep(values[i], dirs[i])
  {
    WaveFrame(BrightnessColumnsFill(buf, values), WaveValues(values, dirs), WaveDirs(values, dirs))
  }

  function WaveValues(values: ColumnBytes, dirs: ColumnDirs): (r: ColumnBytes)
    ensures forall i | 0 <= i < NumColumn :: r[i] == WaveStep(values[i], dirs[i]).0
  {
    seq(NumColumn, i requires 0 <= i < NumColumn => WaveStep(values[i], dirs[i]).0)
  }

  function WaveDirs(values: ColumnBytes, dirs: ColumnDirs): (r: ColumnDirs)
    ensures forall i | 0 <= i < NumColumn :: r[i] == WaveStep(values[i], dirs[i]).1
  {
    seq(NumColumn, i requires 0 <= i < NumColumn => WaveStep(values[i], dirs[i]).1)
  }

  /** Each wave value moves by exactly 3 and stays within 0..142, so the
      byte never wraps. */
  lemma WaveStaysInRange(values: ColumnBytes, dirs: ColumnDirs)
    requires WaveInv(values, dirs)
    ensures forall i | 0 <= i < NumColumn ::
      var r := WaveStep(values[i], dirs[i]);
      r.0 <= 142 && (r.1 == 3 || r.1 == -3) && (r.0 == values[i] + 3 || r.0 == values[i] - 3)
  {
  }

  /** The initial statics satisfy the range invariants. */
  lemma InitialEffectsInRange()
    ensures BreathingInv(InitialEffects.breathingValue, InitialEffects.breathingDirection)
    ensures SpectrumInv(InitialEffects.spectrumValue, InitialEffects.spectrumDirection)
    ensures WaveInv(InitialEffects.waveValue, InitialEffects.waveDirection)
  {
  }

  /** The render callbacks a profile can name. */
  datatype Effect =
    | White | RedFill | GreenFill | BlueFill | Miami
    | RainbowHorizontalFill | RainbowVerticalFill
    | RainbowVerticalAnimation | RainbowFlow | RainbowWaterfall
    | Breathing | Wave | Spectrum
    | ReactiveFade | ReactivePulse

  /** The reactive effects, naming their keypress and init hooks. */
  datatype Reactive = Fade | Pulse

  /** The effect functions whose bodies are not part of this model. */
  datatype Externals = Externals(
    white: Buffer -> Buffer,
    reactiveFade: Buffer -> Buffer,
    reactivePulse: Buffer -> Buffer,
    fadeKeypress: (Buffer, nat, nat) -> Buffer,
    pulseKeypress: (Buffer, nat, nat) -> Buffer,
    fadeInit: Buffer -> Buffer,
    pulseInit: Buffer -> Buffer)

  datatype Rendered = Rendered(colors: Buffer, fx: EffectState)

  /** Calling a render callback: it repaints the buffer and advances its
      own statics only; the other effects' statics are unchanged. */
  function RunEffect(ext: Externals, e: Effect, buf: Buffer, fx: EffectState): (r: Rendered)
    ensures !e.RainbowVerticalAnimation? ==> r.fx.colAnimOffset == fx.colAnimOffset
    ensures !e.RainbowFlow? ==> r.fx.flowValue == fx.flowValue
    ensures !e.RainbowWaterfall? ==> r.fx.waterfallValue == fx.waterfallValue
    ensures !e.Breathing? ==> r.fx.breathingValue == fx.breathingValue && r.fx.breathingDirection == fx.breathingDirection
    ensures !e.Spectrum? ==> r.fx.spectrumValue == fx.spectrumValue && r.fx.spectrumDirection == fx.spectrumDirection
    ensures !e.Wave? ==> r.fx.waveValue == fx.waveValue && r.fx.waveDirection == fx.waveDirection
  {
    match e
    case White => Rendered(ext.white(buf), fx)
    case RedFill => Rendered(Red(buf), fx)
    case GreenFill => Rendered(Green(buf), fx)
    case BlueFill => Rendered(Blue(buf), fx)
    case Miami => Rendered(MiamiNights(buf), fx)
    case RainbowHorizontalFill => Rendered(RainbowHorizontal(buf), fx)
    case RainbowVerticalFill => Rendered(RainbowVertical(buf), fx)
    case RainbowVerticalAnimation =>
      var r := AnimatedRainbowVertical(buf, fx.colAnimOffset);
      Rendered(r.colors, fx.(colAnimOffset := r.offset))
    case RainbowFlow =>
      var r := AnimatedRainbowFlow(buf, fx.flowValue);
      Rendered(r.colors, fx.(flowValue := r.hues))
    case RainbowWaterfall =>
      var r := AnimatedRainbowWaterfall(buf, fx.waterfallValue);
      Rendered(r.colors, fx.(waterfallValue := r.hues))
    case Breathing =>
      var r := AnimatedBreathing(buf, fx.breathingValue, fx.breathingDirection);
      Rendered(r.colors, fx.(breathingValue := r.value, breathingDirection := r.direction))
    case Wave =>
      var r := AnimatedWave(buf, fx.waveValue, fx.waveDirection);
      Rendered(r.colors, fx.(waveValue := r.values, waveDirection := r.directions))
    case Spectrum =>
      var r := AnimatedSpectrum(buf, fx.spectrumValue, fx.spectrumDirection);
      Rendered(r.colors, fx.(spectrumValue := r.value, spectrumDirection := r.direction))
    case ReactiveFade => Rendered(ext.reactiveFade(buf), fx)
    case ReactivePulse => Rendered(ext.reactivePulse(buf), fx)
  }

  function RunKeypress(ext: Externals, h: Reactive, buf: Buffer, row: nat, col: nat): Buffer {
    match h
    case Fade => ext.fadeKeypress(buf, row, col)
    case Pulse => ext.pulseKeypress(buf, row, col)
  }

  function RunInit(ext: Externals, h: Reactive, buf: Buffer): Buffer {
    match h
    case Fade => ext.fadeInit(buf)
    case Pulse => ext.pulseInit(buf)
  }

}

=== FILE: protocol.dfy ===
/** The framed serial protocol shared with the main controller: a
    byte-at-a-time receiver automaton with a two-byte sync, a clamped
    payload size, an error counter and suppression of resent messages, and
    the frame builder of the transmitter. */
module Protocol {
  import opened Bytes
  import opened Wrappers

  const MaxPayloadSize: nat := 230
  const SyncByte1: uint8 := 0x7A
  const SyncByte2: uint8 := 0x1D

  /** The message buffer's payload array: always 230 bytes, of which the
      first `payloadSize` belong to the current message. */
  type PayloadBuffer = s: seq<uint8> | |s| == MaxPayloadSize witness ZeroPayload()

  function ZeroPayload(): (s: seq<uint8>)
    ensures |s| == MaxPayloadSize
  {
    seq(MaxPayloadSize, _ => 0)
  }

  /** `message_t`. */
  datatype Message = Message(command: uint8, msgId: uint8, payload: PayloadBuffer, payloadSize: uint8)

  /** The automaton's states: the two sync bytes, then command, id and
      payload size, then the payload bytes. */
  datatype FsaState = Sync1 | Sync2 | Command | Id | PayloadSize | PayloadBytes

  /** `protocol_t` without its callback: the callback's calls are the
      messages a step delivers. */
  datatype Proto = Proto(
    payloadPosition: uint8,
    state: FsaState,
    previousId: uint8,
    errors: uint8,
    buffer: Message)

  /** The automaton's reachable states: the stored size never exceeds the
      payload array, and while payload bytes are read the next position is
      inside the message. */
  predicate Valid(p: Proto) {
    p.buffer.payloadSize as nat <= MaxPayloadSize
    && (p.state == PayloadBytes ==> p.payloadPosition < p.buffer.payloadSize)
  }

  /** The receiver's state at power-on: every field zero. */
  function PowerOn(): (p: Proto)
    ensures Valid(p)
  {
    Proto(0, Sync1, 0, 0, Message(0, 0, ZeroPayload(), 0))
  }

  /** `protoInit`: the automaton waits for a sync byte, with no previous id
      and no errors; the message buffer and position are left as they were. */
  function ProtoInit(p: Proto): (r: Proto)
    ensures r.state == Sync1 && r.previousId == 0 && r.errors == 0
    ensures r.buffer == p.buffer && r.payloadPosition == p.payloadPosition
    ensures Valid(p) ==> Valid(r)
  {
    p.(previousId := 0, state := Sync1, errors := 0)
  }

  /** One more error, in a byte counter that wraps at 256. */
  function CountError(p: Proto): (r: Proto)
    ensures r.errors == (p.errors + 1) % 0x100
    ensures r == p.(errors := r.errors)
  {
    p.(errors := Wrap8(p.errors + 1))
  }

  /** What consuming a byte yields: the new state, and the message handed
      to the callback if one was. */
  datatype Step = Step(proto: Proto, delivered: Option<Message>)

  /** `messageReceived`: the buffered message is delivered unless its id
      repeats the previous one (a resend); either way the automaton goes
      back to waiting for a sync byte. */
  function MessageReceived(p: Proto): (r: Step)
    ensures r.proto.state == Sync1
    ensures r.proto.previousId == p.buffer.msgId
    ensures r.delivered == if p.buffer.msgId != p.previousId then Some(p.buffer) else None
    ensures r.proto == p.(state := Sync1, previousId := p.buffer.msgId)
  {
    if p.buffer.msgId != p.previousId then
      Step(p.(previousId := p.buffer.msgId, state := Sync1), Some(p.buffer))
    else
      Step(p.(state := Sync1), None)
  }

  /** `protoConsume`: one byte through the automaton. */
  function Consume(p: Proto, b: uint8): (r: Step)
    requires Valid(p)
    ensures Valid(r.proto)
    // Sync 1: 0x7A moves on; anything else is an error and stays.
    ensures p.state == Sync1 ==>
      r.delivered == None && r.proto == (if b == SyncByte1 then p.(state := Sync2) else CountError(p))
    // Sync 2: 0x1D moves on; anything else (0x7A too) is an error and resyncs.
    ensures p.state == Sync2 ==>
      r.delivered == None && r.proto == (if b == SyncByte2 then p.(state := Command) else CountError(p).(state := Sync1))
    ensures p.state == Command ==>
      r.delivered == None && r.proto == p.(state := Id, buffer := p.buffer.(command := b))
    ensures p.state == Id ==>
      r.delivered == None && r.proto == p.(state := PayloadSize, buffer := p.buffer.(msgId := b))
    // Size: clamped to 230 with an error; a zero size completes the message.
    ensures p.state == PayloadSize ==>
      r.proto.buffer.payloadSize as nat == (if b as nat > MaxPayloadSize then MaxPayloadSize else b as nat)
      && r.proto.errors == (if b as nat > MaxPayloadSize then (p.errors + 1) % 0x100 else p.errors)
      && r.proto.payloadPosition == 0
      && r.proto.buffer.command == p.buffer.command && r.proto.buffer.msgId == p.buffer.msgId
      && r.proto.buffer.payload == p.buffer.payload
      && (b == 0 ==> r == MessageReceived(p.(buffer := p.buffer.(payloadSize := 0), payloadPosition := 0)))
      && (b != 0 ==> r.delivered == None && r.proto.state == PayloadBytes && r.proto.previousId == p.previousId)
    // Payload: the byte is stored at the position; the last one completes.
    ensures p.state == PayloadBytes ==>
      var stored := p.(payloadPosition := p.payloadPosition + 1,
                       buffer := p.buffer.(payload := p.buffer.payload[p.payloadPosition := b]));
      r == if p.payloadPosition + 1 == p.buffer.payloadSize then MessageReceived(stored)
           else Step(stored, None)
  {
    match p.state
    case Sync1 =>
      if b == SyncByte1 then Step(p.(state := Sync2), None) else Step(CountError(p), None)
    case Sync2 =>
      if b == SyncByte2 then Step(p.(state := Command), None)
      else Step(CountError(p).(state := Sync1), None)
    case Command => Step(p.(state := Id, buffer := p.buffer.(command := b)), None)
    case Id => Step(p.(state := PayloadSize, buffer := p.buffer.(msgId := b)), None)
    case PayloadSize =>
      var sized := p.(buffer := p.buffer.(payloadSize := b));
      var clamped := if b as nat > MaxPayloadSize
                     then CountError(sized.(buffer := sized.buffer.(payloadSize := MaxPayloadSize as uint8)))
                     else sized;
      var started := clamped.(payloadPosition := 0);
      if started.buffer.payloadSize == 0 then MessageReceived(started)
      else Step(started.(state := PayloadBytes), None)
    case PayloadBytes =>
      var stored := p.(payloadPosition := p.payloadPosition + 1,
                       buffer := p.buffer.(payload := p.buffer.payload[p.payloadPosition := b]));
      if stored.payloadPosition == stored.buffer.payloadSize then MessageReceived(stored)
      else Step(stored, None)
  }

  /** `protoSilence`: after a pause the automaton resynchronises; being
      anywhere but at the first sync byte counts as an error. */
  function Silence(p: Proto): (r: Proto)
    ensures p.state == Sync1 ==> r == p
    ensures p.state != Sync1 ==> r.state == Sync1 && r.errors == (p.errors + 1) % 0x100
    ensures r == p.(state := Sync1, errors := r.errors)
    ensures Valid(p) ==> Valid(r)
  {
    if p.state != Sync1 then CountError(p).(state := Sync1) else p
  }

  /** The error counter only ever steps by one (modulo 256) per byte and
      the previous id changes only when a message completes. */
  lemma ConsumeErrorsStep(p: Proto, b: uint8)
    requires Valid(p)
    ensures var r := Consume(p, b).proto;
      r.errors == p.errors || r.errors == (p.errors + 1) % 0x100
    ensures var r := Consume(p, b);
      r.proto.previousId != p.previousId ==> r.delivered.Some? && r.proto.state == Sync1
  {
  }

  /** The messages a byte sequence delivers, and the state it leaves. */
  datatype Fed = Fed(proto: Proto, delivered: seq<Message>)

  function OptionSeq(o: Option<Message>): (s: seq<Message>)
    ensures |s| <= 1
    ensures o.Some? ==> s == [o.value]
    ensures o.None? ==> s == []
  {
    if o.Some? then [o.value] else []
  }

  /** Bytes consumed one after the other. */
  function Feed(p: Proto, bytes: seq<uint8>): (r: Fed)
    requires Valid(p)
    ensures Valid(r.proto)
    decreases |bytes|
  {
    if |bytes| == 0 then Fed(p, [])
    else
      var st := Consume(p, bytes[0]);
      var rest := Feed(st.proto, bytes[1..]);
      Fed(rest.proto, OptionSeq(st.delivered) + rest.delivered)
  }

  /** Feeding a then b is feeding a + b. */
  lemma {:induction false} FeedConcat(p: Proto, a: seq<uint8>, b: seq<uint8>)
    requires Valid(p)
    ensures var fa := Feed(p, a); var fb := Feed(fa.proto, b);
      Feed(p, a + b) == Fed(fb.proto, fa.delivered + fb.delivered)
    decreases |a|
  {
    if |a| > 0 {
      assert (a + b)[0] == a[0];
      assert (a + b)[1..] == a[1..] + b;
      var st := Consume(p, a[0]);
      FeedConcat(st.proto, a[1..], b);
      var fa' := Feed(st.proto, a[1..]);
      var fb := Feed(fa'.proto, b);
      assert Feed(p, a) == Fed(fa'.proto, OptionSeq(st.delivered) + fa'.delivered);
      assert Feed(p, a + b) == Fed(fb.proto, OptionSeq(st.delivered) + (fa'.delivered + fb.delivered));
      assert OptionSeq(st.delivered) + (fa'.delivered + fb.delivered)
          == (OptionSeq(st.delivered) + fa'.delivered) + fb.delivered;
    } else {
      assert a + b == b;
    }
  }

  /** The frame `protoTx` writes once: sync bytes, command, id, size, then
      the payload. */
  function Frame(cmd: uint8, id: uint8, payload: seq<uint8>): (f: seq<uint8>)
    requires |payload| <= MaxPayloadSize
    ensures |f| == 5 + |payload|
    ensures f[..5] == [SyncByte1, SyncByte2, cmd, id, |payload| as uint8] && f[5..] == payload
  {
    [SyncByte1, SyncByte2, cmd, id, |payload| as uint8] + payload
  }

  /** n copies of a frame back to back. */
  function Repeat(f: seq<uint8>, n: nat): (r: seq<uint8>)
  {
    if n == 0 then [] else f + Repeat(f, n - 1)
  }

  lemma {:induction false} RepeatLength(f: seq<uint8>, n: nat)
    ensures |Repeat(f, n)| == n * |f|
  {
    if n > 0 {
      RepeatLength(f, n - 1);
    }
  }

  /** What `protoTx` leaves: its message-id counter and the bytes sent. */
  datatype Tx = Tx(msgId: uint8, sent: seq<uint8>)

  /** `protoTx`: the id counter is pre-incremented (wrapping at 256) and
      the frame with that id is written `retries` times (none for a
      non-positive count). The size check of the firmware is the
      precondition. */
  function ProtoTx(msgId: uint8, cmd: uint8, payload: seq<uint8>, retries: int): (r: Tx)
    requires |payload| <= MaxPayloadSize
    ensures r.msgId == (msgId + 1) % 0x100
    ensures r.sent == Repeat(Frame(cmd, r.msgId, payload), if retries > 0 then retries else 0)
  {
    var id := Wrap8(msgId + 1);
    Tx(id, Repeat(Frame(cmd, id, payload), if retries > 0 then retries else 0))
  }

  /** Reading the payload bytes: from position `pos` of a message of size
      n, the remaining n - pos bytes are stored in order and the last one
      completes the message (delivered unless its id repeats). */
  lemma {:induction false} FeedPayload(p: Proto, rest: seq<uint8>)
    requires Valid(p) && p.state == PayloadBytes
    requires |rest| == p.buffer.payloadSize as int - p.payloadPosition as int
    ensures var f := Feed(p, rest); var n := p.buffer.payloadSize as int; var pos := p.payloadPosition as int;
      var msg := p.buffer.(payload := p.buffer.payload[..pos] + rest + p.buffer.payload[n..]);
      f.proto == p.(state := Sync1, previousId := p.buffer.msgId, payloadPosition := n as uint8, buffer := msg)
      && f.delivered == (if p.buffer.msgId != p.previousId then [msg] else [])
    decreases |rest|
  {
    var n := p.buffer.payloadSize as int;
    var pos := p.payloadPosition as int;
    var st := Consume(p, rest[0]);
    var stored := p.(payloadPosition := (pos + 1) as uint8,
                     buffer := p.buffer.(payload := p.buffer.payload[pos := rest[0]]));
    assert p.buffer.payload[..pos] + rest + p.buffer.payload[n..]
        == stored.buffer.payload[..pos + 1] + rest[1..] + stored.buffer.payload[n..];
    if pos + 1 == n {
      assert rest[1..] == [];
      assert stored.buffer.payload == p.buffer.payload[..pos] + rest + p.buffer.payload[n..];
    } else {
      FeedPayload(st.proto, rest[1..]);
    }
  }

  /** The header of a frame, fed from the first sync state, leaves the
      automaton reading the payload (or, for an empty payload, completes
      the message); nothing counts as an error. */
  lemma FeedHeader(p: Proto, cmd: uint8, id: uint8, size: nat)
    requires Valid(p) && p.state == Sync1 && size <= MaxPayloadSize
    ensures var f := Feed(p, [SyncByte1, SyncByte2, cmd, id, size as uint8]);
      var msg := p.buffer.(command := cmd, msgId := id, payloadSize := size as uint8);
      (size > 0 ==> f.delivered == [] && f.proto == p.(state := PayloadBytes, payloadPosition := 0, buffer := msg))
      && (size == 0 ==> f.proto == p.(state := Sync1, payloadPosition := 0, previousId := id, buffer := msg)
                        && f.delivered == (if id != p.previousId then [msg] else []))
  {
    var h := [SyncByte1, SyncByte2, cmd, id, size as uint8];
    var p1 := Consume(p, h[0]).proto;
    var p2 := Consume(p1, h[1]).proto;
    var p3 := Consume(p2, h[2]).proto;
    var p4 := Consume(p3, h[3]).proto;
    var s5 := Consume(p4, h[4]);
    assert Feed(s5.proto, []) == Fed(s5.proto, []);
    assert Feed(p4, [h[4]]) == Fed(s5.proto, OptionSeq(s5.delivered));
    assert h[3..][1..] == [h[4]];
    assert Feed(p3, h[3..]) == Feed(p4, [h[4]]);
    assert h[2..][1..] == h[3..];
    assert Feed(p2, h[2..]) == Feed(p3, h[3..]);
    assert h[1..][1..] == h[2..];
    assert Feed(p1, h[1..]) == Feed(p2, h[2..]);
    assert Feed(p, h) == Feed(p1, h[1..]);
  }

  /** Round trip: one frame built by `protoTx`, fed to a receiver waiting
      for a sync byte whose previous id differs, delivers exactly one
      message with the same command, id, size and payload bytes, leaves the
      receiver waiting for the next frame with that id as the previous one,
      and counts no error. */
  lemma FrameRoundTrip(p: Proto, cmd: uint8, id: uint8, payload: seq<uint8>)
    requires Valid(p) && p.state == Sync1 && id != p.previousId && |payload| <= MaxPayloadSize
    ensures var f := Feed(p, Frame(cmd, id, payload));
      |f.delivered| == 1
      && f.delivered[0].command == cmd && f.delivered[0].msgId == id
      && f.delivered[0].payloadSize as nat == |payload| && f.delivered[0].payload[..|payload|] == payload
      && f.proto.state == Sync1 && f.proto.previousId == id && f.proto.errors == p.errors
  {
    FrameFeeds(p, cmd, id, payload);
  }

  /** Feeding a whole frame from the first sync state: the message is
      assembled, delivered unless its id repeats the previous one, and the
      receiver ends waiting for a sync byte with that id as the previous
      one and its error count unchanged. */
  lemma FrameFeeds(p: Proto, cmd: uint8, id: uint8, payload: seq<uint8>)
    requires Valid(p) && p.state == Sync1 && |payload| <= MaxPayloadSize
    ensures FeedsFrame(p, cmd, id, payload, Feed(p, Frame(cmd, id, payload)))
  {
    if |payload| > 0 {
      FrameFeedsPayload(p, cmd, id, payload);
    } else {
      FrameFeedsEmpty(p, cmd, id, payload);
    }
  }

  /** What a whole frame fed from the first sync state leaves (f). */
  predicate FeedsFrame(p: Proto, cmd: uint8, id: uint8, payload: seq<uint8>, f: Fed) {
    f.proto.state == Sync1 && f.proto.previousId == id && f.proto.errors == p.errors
    && f.proto.buffer.command == cmd && f.proto.buffer.msgId == id
    && f.proto.buffer.payloadSize as nat == |payload|
    && |payload| <= |f.proto.buffer.payload| && f.proto.buffer.payload[..|payload|] == payload
    && f.delivered == (if id != p.previousId then [f.proto.buffer] else [])
  }

  lemma FrameFeedsPayload(p: Proto, cmd: uint8, id: uint8, payload: seq<uint8>)
    requires Valid(p) && p.state == Sync1 && 0 < |payload| <= MaxPayloadSize
    ensures FeedsFrame(p, cmd, id, payload, Feed(p, Frame(cmd, id, payload)))
  {
    var header := [SyncByte1, SyncByte2, cmd, id, |payload| as uint8];
    assert Frame(cmd, id, payload) == header + payload;
    FeedConcat(p, header, payload);
    FeedHeader(p, cmd, id, |payload|);
    var h := Feed(p, header);
    FeedPayload(h.proto, payload);
    var msg := h.proto.buffer;
    var stored := msg.payload[..0] + payload + msg.payload[|payload|..];
    assert forall i | 0 <= i < |payload| :: stored[i] == payload[i];
    assert stored[..|payload|] == payload;
  }

  lemma FrameFeedsEmpty(p: Proto, cmd: uint8, id: uint8, payload: seq<uint8>)
    requires Valid(p) && p.state == Sync1 && |payload| == 0
    ensures FeedsFrame(p, cmd, id, payload, Feed(p, Frame(cmd, id, payload)))
  {
    var header := [SyncByte1, SyncByte2, cmd, id, 0];
    assert Frame(cmd, id, payload) == header + payload;
    FeedConcat(p, header, payload);
    FeedHeader(p, cmd, id, 0);
    assert Feed(Feed(p, header).proto, payload) == Fed(Feed(p, header).proto, []);
  }

  /** Retries: a frame resent after it was received is recognised by its id
      and delivers nothing, so k >= 1 copies deliver exactly one message. */
  lemma {:induction false} RepeatedFrameDeliversOnce(p: Proto, cmd: uint8, id: uint8, payload: seq<uint8>, k: nat)
    requires Valid(p) && p.state == Sync1 && |payload| <= MaxPayloadSize && k >= 1
    ensures var f := Feed(p, Repeat(Frame(cmd, id, payload), k));
      var once := Feed(p, Frame(cmd, id, payload));
      f.delivered == once.delivered
      && f.proto.state == Sync1 && f.proto.previousId == id && f.proto.errors == p.errors
    decreases k
  {
    var frame := Frame(cmd, id, payload);
    FrameFeeds(p, cmd, id, payload);
    var once := Feed(p, frame);
    if k > 1 {
      FeedConcat(p, frame, Repeat(frame, k - 1));
      ResentFramesDeliverNothing(once.proto, cmd, id, payload, k - 1);
    } else {
      assert Repeat(frame, 1) == frame + [];
      assert frame + [] == frame;
    }
  }

  /** Copies of a frame whose id is already the previous one deliver
      nothing and leave the receiver synchronised. */
  lemma {:induction false} ResentFramesDeliverNothing(p: Proto, cmd: uint8, id: uint8, payload: seq<uint8>, k: nat)
    requires Valid(p) && p.state == Sync1 && p.previousId == id && |payload| <= MaxPayloadSize
    ensures var f := Feed(p, Repeat(Frame(cmd, id, payload), k));
      f.delivered == [] && f.proto.state == Sync1 && f.proto.previousId == id && f.proto.errors == p.errors
    decreases k
  {
    if k > 0 {
      var frame := Frame(cmd, id, payload);
      FrameFeeds(p, cmd, id, payload);
      FeedConcat(p, frame, Repeat(frame, k - 1));
      ResentFramesDeliverNothing(Feed(p, frame).proto, cmd, id, payload, k - 1);
    } else {
      assert Feed(p, []) == Fed(p, []);
    }
  }

  /** The transmitter's round trip: the bytes of one `protoTx` call, with
      a positive retry count, fed to a synchronised receiver that has not
      seen the new id, deliver exactly one message carrying the command, the
      new id and the payload. */
  lemma ProtoTxRoundTrip(p: Proto, txId: uint8, cmd: uint8, payload: seq<uint8>, retries: int)
    requires Valid(p) && p.state == Sync1 && |payload| <= MaxPayloadSize && retries >= 1
    requires (txId + 1) % 0x100 != p.previousId
    ensures var tx := ProtoTx(txId, cmd, payload, retries); var f := Feed(p, tx.sent);
      |f.delivered| == 1
      && f.delivered[0].command == cmd && f.delivered[0].msgId == tx.msgId
      && f.delivered[0].payloadSize as nat == |payload| && f.delivered[0].payload[..|payload|] == payload
      && f.proto.state == Sync1 && f.proto.previousId == tx.msgId && f.proto.errors == p.errors
  {
    var tx := ProtoTx(txId, cmd, payload, retries);
    RepeatedFrameDeliversOnce(p, cmd, tx.msgId, payload, retries);
    FrameRoundTrip(p, cmd, tx.msgId, payload);
  }

  /** After `protoInit` the previous id is 0, so a first frame with id 0 is
      taken for a resend and dropped. */
  lemma FirstFrameWithIdZeroDropped(p: Proto, cmd: uint8, payload: seq<uint8>)
    requires Valid(p) && |payload| <= MaxPayloadSize
    ensures Feed(ProtoInit(p), Frame(cmd, 0, payload)).delivered == []
  {
    FrameFeeds(ProtoInit(p), cmd, 0, payload);
  }

  /** Fewer payload bytes than the message still lacks are stored without
      completing it: nothing is delivered and the automaton keeps reading. */
  lemma {:induction false} FeedPayloadPartial(p: Proto, rest: seq<uint8>)
    requires Valid(p) && p.state == PayloadBytes
    requires |rest| < p.buffer.payloadSize as int - p.payloadPosition as int
    ensures var f := Feed(p, rest);
      f.delivered == [] && f.proto.state == PayloadBytes
      && f.proto.payloadPosition as int == p.payloadPosition as int + |rest|
      && f.proto.buffer.payloadSize == p.buffer.payloadSize
    decreases |rest|
  {
    if |rest| > 0 {
      FeedPayloadPartial(Consume(p, rest[0]).proto, rest[1..]);
    }
  }

  /** A frame minus its last byte, fed from the first sync state, delivers
      nothing: a message is only ever handed over at its final byte. */
  lemma FramePrefixQuiet(p: Proto, cmd: uint8, id: uint8, payload: seq<uint8>)
    requires Valid(p) && p.state == Sync1 && |payload| <= MaxPayloadSize
    ensures var fr := Frame(cmd, id, payload); Feed(p, fr[..|fr| - 1]).delivered == []
  {
    var fr := Frame(cmd, id, payload);
    var header := [SyncByte1, SyncByte2, cmd, id, |payload| as uint8];
    if |payload| == 0 {
      var h := header[..4];
      assert fr[..|fr| - 1] == h;
      var p1 := Consume(p, h[0]).proto;
      var p2 := Consume(p1, h[1]).proto;
      var p3 := Consume(p2, h[2]).proto;
      var p4 := Consume(p3, h[3]).proto;
      assert Feed(p4, []) == Fed(p4, []);
      assert h[3..][1..] == [];
      assert Feed(p3, h[3..]) == Feed(p4, []);
      assert h[2..][1..] == h[3..];
      assert Feed(p2, h[2..]) == Feed(p3, h[3..]);
      assert h[1..][1..] == h[2..];
      assert Feed(p1, h[1..]) == Feed(p2, h[2..]);
      assert Feed(p, h) == Feed(p1, h[1..]);
    } else {
      var body := payload[..|payload| - 1];
      assert fr[..|fr| - 1] == header + body;
      FeedConcat(p, header, body);
      FeedHeader(p, cmd, id, |payload|);
      FeedPayloadPartial(Feed(p, header).proto, body);
    }
  }

  /** Splitting a frame at its last byte: the prefix delivers nothing and
      the last byte delivers what the whole frame does, ending in the same
      state. */
  lemma FrameLastByte(p: Proto, cmd: uint8, id: uint8, payload: seq<uint8>)
    requires Valid(p) && p.state == Sync1 && |payload| <= MaxPayloadSize
    ensures var fr := Frame(cmd, id, payload); var pre := Feed(p, fr[..|fr| - 1]);
      var st := Consume(pre.proto, fr[|fr| - 1]); var f := Feed(p, fr);
      pre.delivered == [] && st.proto == f.proto && OptionSeq(st.delivered) == f.delivered
  {
    var fr := Frame(cmd, id, payload);
    FramePrefixQuiet(p, cmd, id, payload);
    assert fr == fr[..|fr| - 1] + [fr[|fr| - 1]];
    FeedConcat(p, fr[..|fr| - 1], [fr[|fr| - 1]]);
    var pre := Feed(p, fr[..|fr| - 1]);
    var st := Consume(pre.proto, fr[|fr| - 1]);
    assert [fr[|fr| - 1]][1..] == [];
    assert Feed(st.proto, []) == Fed(st.proto, []);
    assert Feed(pre.proto, [fr[|fr| - 1]]) == Fed(st.proto, OptionSeq(st.delivered));
  }

  /** The last byte of a frame with a new id delivers, and leaves the
      receiver waiting for a sync byte with the id recorded and the error
      count unchanged. */
  lemma FrameEnd(p: Proto, cmd: uint8, id: uint8, payload: seq<uint8>)
    requires Valid(p) && p.state == Sync1 && id != p.previousId && |payload| <= MaxPayloadSize
    ensures var fr := Frame(cmd, id, payload); var pre := Feed(p, fr[..|fr| - 1]);
      var st := Consume(pre.proto, fr[|fr| - 1]);
      pre.delivered == [] && st.delivered.Some? && st.delivered.value.command == cmd
      && st.proto.state == Sync1 && st.proto.previousId == id && st.proto.errors == p.errors
  {
    FrameFeeds(p, cmd, id, payload);
    FrameLastByte(p, cmd, id, payload);
  }
}

=== FILE: scheduler.dfy ===
/** The lighting state both dispatchers act on (current profile, speed,
    intensity, animation cadence, colour buffer and the effects' statics),
    and the profile operations they share. */
module Scheduler {
  import opened Bytes
  import opened Board
  import opened Led
  import opened Wrappers
  import opened Profiles
  import opened Settings

  datatype Lights = Lights(
    currentProfile: uint8,
    currentSpeed: uint8,
    ledIntensity: uint8,
    animationSkipTicks: uint16,
    animationTicks: uint16,
    needToCallbackProfile: bool,
    foregroundColorSet: bool,
    foregroundColor: uint32,
    colors: Buffer,
    fx: EffectState)

  /** The states the firmware can reach: profile, speed slot and intensity
      in range, and the tick counter below the skip count (or zero). */
  predicate Valid(l: Lights) {
    l.currentProfile < AmountOfProfiles && l.currentSpeed < 4 && l.ledIntensity < 8
    && (l.animationTicks == 0 || l.animationTicks < l.animationSkipTicks)
  }

  /** The skip count is the table's for the current profile and speed slot:
      every operation that changes either reloads it. */
  predicate SpeedLoaded(l: Lights) {
    l.currentProfile < AmountOfProfiles && l.currentSpeed < 4
    && l.animationSkipTicks == ProfileTable[l.currentProfile].animationSpeed[l.currentSpeed]
  }

  /** The power-on state, after `main` has loaded the animation speed: the
      colour buffer is a zero-initialised static, so every key starts dark. */
  function Initial(): (l: Lights)
    ensures Valid(l) && SpeedLoaded(l)
    ensures l.currentProfile == DefaultProfile && l.currentSpeed == DefaultSpeed
    ensures l.ledIntensity == DefaultIntensity && !l.foregroundColorSet
    ensures forall i | 0 <= i < KeyCount :: l.colors[i] == Black
  {
    UpdateAnimationSpeed(Lights(DefaultProfile, DefaultSpeed, DefaultIntensity, 0, 0,
                                false, false, 0, Zeros(), InitialEffects))
  }

  /** Whether the current profile reacts to keypresses (has a keypress
      hook); this is the flag both dispatchers report. */
  function ReactiveFlag(l: Lights): (r: uint8)
    requires l.currentProfile < AmountOfProfiles
    ensures r == 1 <==> IsReactive(ProfileTable[l.currentProfile])
    ensures r == 0 || r == 1
  {
    if ProfileTable[l.currentProfile].keypressCallback.Some? then 1 else 0
  }

  /** `updateAnimationSpeed`: the skip count is reloaded from the table for
      the current profile and speed slot and the tick counter restarts. */
  function UpdateAnimationSpeed(l: Lights): (r: Lights)
    requires l.currentProfile < AmountOfProfiles && l.currentSpeed < 4
    ensures r.animationSkipTicks == ProfileTable[l.currentProfile].animationSpeed[l.currentSpeed]
    ensures r.animationTicks == 0
    ensures r == l.(animationSkipTicks := r.animationSkipTicks, animationTicks := 0)
    ensures SpeedLoaded(r)
    ensures l.ledIntensity < 8 ==> Valid(r)
  {
    l.(animationSkipTicks := ProfileTable[l.currentProfile].animationSpeed[l.currentSpeed],
       animationTicks := 0)
  }

  /** `executeProfile` of the framed dispatcher: the init hook runs on the
      buffer only when asked for and present, the speed is reloaded and the
      next cycle boundary is told to call the profile. */
  function ExecuteProfile(ext: Externals, l: Lights, init: bool): (r: Lights)
    requires l.currentProfile < AmountOfProfiles && l.currentSpeed < 4
    ensures var hook := ProfileTable[l.currentProfile].profileInit;
      r.colors == if init && hook.Some? then RunInit(ext, hook.value, l.colors) else l.colors
    ensures r.needToCallbackProfile
    ensures r.animationSkipTicks == ProfileTable[l.currentProfile].animationSpeed[l.currentSpeed]
    ensures r.animationTicks == 0
    ensures r.currentProfile == l.currentProfile && r.currentSpeed == l.currentSpeed
    ensures r.ledIntensity == l.ledIntensity && r.fx == l.fx
    ensures r.foregroundColorSet == l.foregroundColorSet && r.foregroundColor == l.foregroundColor
    ensures SpeedLoaded(r)
    ensures l.ledIntensity < 8 ==> Valid(r)
  {
    var hook := ProfileTable[l.currentProfile].profileInit;
    var painted := if init && hook.Some? then RunInit(ext, hook.value, l.colors) else l.colors;
    UpdateAnimationSpeed(l.(colors := painted)).(needToCallbackProfile := true)
  }

  /** `nextIntensity`: the intensity steps through 0..7 cyclically and the
      profile is re-executed without its init hook. */
  function NextIntensity(ext: Externals, l: Lights): (r: Lights)
    requires Valid(l)
    ensures Valid(r) && SpeedLoaded(r)
    ensures r.ledIntensity == (l.ledIntensity + 1) % 8
    ensures r.ledIntensity == if l.ledIntensity == 7 then 0 else l.ledIntensity + 1
    ensures r.colors == l.colors && r.needToCallbackProfile
    ensures r.currentProfile == l.currentProfile && r.currentSpeed == l.currentSpeed
    ensures r == l.(ledIntensity := (l.ledIntensity + 1) % 8,
                    animationSkipTicks := ProfileTable[l.currentProfile].animationSpeed[l.currentSpeed],
                    animationTicks := 0, needToCallbackProfile := true)
  {
    ExecuteProfile(ext, l.(ledIntensity := (l.ledIntensity + 1) % 8), false)
  }

  /** `nextSpeed` (framed dispatcher): the speed slot steps through 0..3
      cyclically and the skip count is reloaded, with the ticks restarted. */
  function NextSpeed(l: Lights): (r: Lights)
    requires Valid(l)
    ensures Valid(r) && SpeedLoaded(r)
    ensures r.currentSpeed == (l.currentSpeed + 1) % 4
    ensures r.animationSkipTicks == ProfileTable[l.currentProfile].animationSpeed[r.currentSpeed]
    ensures r.animationTicks == 0
    ensures r == l.(currentSpeed := r.currentSpeed, animationSkipTicks := r.animationSkipTicks,
                    animationTicks := 0)
  {
    UpdateAnimationSpeed(l.(currentSpeed := (l.currentSpeed + 1) % 4))
  }

  /** `setProfile` (framed dispatcher): an index at or past the table end
      changes nothing; otherwise the profile is selected and executed with
      its init hook. */
  function SetProfile(ext: Externals, l: Lights, profile: uint8): (r: Lights)
    requires Valid(l)
    ensures Valid(r)
    ensures SpeedLoaded(l) || profile < AmountOfProfiles ==> SpeedLoaded(r)
    ensures profile >= AmountOfProfiles ==> r == l
    ensures profile < AmountOfProfiles ==>
      r == ExecuteProfile(ext, l.(currentProfile := profile), true)
    ensures profile < AmountOfProfiles ==> r.currentProfile == profile && r.needToCallbackProfile
  {
    if profile < AmountOfProfiles then ExecuteProfile(ext, l.(currentProfile := profile), true)
    else l
  }

  /** The profile index after NEXT_PROFILE: one on, modulo the table size. */
  function NextIndex(p: uint8): (r: uint8)
    requires p < AmountOfProfiles
    ensures r < AmountOfProfiles
    ensures r == if p == AmountOfProfiles - 1 then 0 else p + 1
  {
    (p + 1) % AmountOfProfiles
  }

  /** The profile index after PREV_PROFILE: `(p + N - 1) mod N`, one back
      modulo the table size. */
  function PrevIndex(p: uint8): (r: uint8)
    requires p < AmountOfProfiles
    ensures r < AmountOfProfiles
    ensures r == if p == 0 then AmountOfProfiles - 1 else p - 1
  {
    (p + (AmountOfProfiles - 1)) % AmountOfProfiles
  }

  /** Previous undoes next and next undoes previous. */
  lemma NextPrevInverse(p: uint8)
    requires p < AmountOfProfiles
    ensures PrevIndex(NextIndex(p)) == p
    ensures NextIndex(PrevIndex(p)) == p
  {
  }

  /** Applying NEXT_PROFILE n times from p. */
  function NextIterate(p: uint8, n: nat): (r: uint8)
    requires p < AmountOfProfiles
    ensures r < AmountOfProfiles
  {
    if n == 0 then p else NextIndex(NextIterate(p, n - 1))
  }

  /** n presses of NEXT_PROFILE land on `(p + n) mod N`; in particular N
      presses return to where they started. */
  lemma {:induction false} NextIterateMod(p: uint8, n: nat)
    requires p < AmountOfProfiles
    ensures NextIterate(p, n) == (p + n) % AmountOfProfiles
  {
    TableSize();
    if n > 0 {
      NextIterateMod(p, n - 1);
      ModSucc(p + n - 1);
    }
  }

  /** One step further wraps at the table size. */
  lemma ModSucc(a: nat)
    ensures (a + 1) % 14 == if a % 14 == 13 then 0 else a % 14 + 1
  {
  }

  lemma NextCycle(p: uint8)
    requires p < AmountOfProfiles
    ensures NextIterate(p, AmountOfProfiles as nat) == p
  {
    NextIterateMod(p, AmountOfProfiles as nat);
  }

  /** NEXT_PROFILE (both dispatchers, before the foreground rule of the
      legacy one): step the index and execute the profile with init. */
  function NextProfile(ext: Externals, l: Lights): (r: Lights)
    requires Valid(l)
    ensures Valid(r) && SpeedLoaded(r)
    ensures r.currentProfile == NextIndex(l.currentProfile)
    ensures r == ExecuteProfile(ext, l.(currentProfile := r.currentProfile), true)
  {
    ExecuteProfile(ext, l.(currentProfile := NextIndex(l.currentProfile)), true)
  }

  function PrevProfile(ext: Externals, l: Lights): (r: Lights)
    requires Valid(l)
    ensures Valid(r) && SpeedLoaded(r)
    ensures r.currentProfile == PrevIndex(l.currentProfile)
    ensures r == ExecuteProfile(ext, l.(currentProfile := r.currentProfile), true)
  {
    ExecuteProfile(ext, l.(currentProfile := PrevIndex(l.currentProfile)), true)
  }

  /** The row and column packed into a keypress byte: bits 4..6 and 0..3
      (bit 7 is the keypress flag). */
  function KeyRow(b: uint8): (r: nat)
    ensures r < 8 && r == (b / 16) % 8
  {
    (b / 16) % 8
  }

  function KeyCol(b: uint8): (r: nat)
    ensures r < 16 && r == b % 16
  {
    b % 16
  }

  /** Every key position can be sent: packing row and column with the flag
      bit and unpacking gives them back. */
  lemma KeyByteRoundTrip(row: nat, col: nat)
    requires row < NumRow && col < NumColumn
    ensures 0x80 + 16 * row + col < 0x100
    ensures KeyRow(0x80 + 16 * row + col) == row && KeyCol(0x80 + 16 * row + col) == col
  {
  }

  /** `handleKeypress`: the current profile's keypress hook runs on the
      buffer when it has one and the decoded key is on the board; otherwise
      nothing changes. */
  function HandleKeypress(ext: Externals, l: Lights, b: uint8): (r: Lights)
    requires l.currentProfile < AmountOfProfiles
    ensures var hook := ProfileTable[l.currentProfile].keypressCallback;
      r == if hook.Some? && KeyRow(b) < NumRow && KeyCol(b) < NumColumn
           then l.(colors := RunKeypress(ext, hook.value, l.colors, KeyRow(b), KeyCol(b)))
           else l
    ensures !IsReactive(ProfileTable[l.currentProfile]) ==> r == l
  {
    var hook := ProfileTable[l.currentProfile].keypressCallback;
    var row := KeyRow(b);
    var col := KeyCol(b);
    if hook.Some? && row < NumRow && col < NumColumn then
      l.(colors := RunKeypress(ext, hook.value, l.colors, row, col))
    else l
  }

  /** `animationCallback`: while a foreground colour is set nothing
      happens; otherwise the current profile's callback repaints the buffer
      and advances its statics. */
  function AnimationCallback(ext: Externals, l: Lights): (r: Lights)
    requires l.currentProfile < AmountOfProfiles
    ensures l.foregroundColorSet ==> r == l
    ensures !l.foregroundColorSet ==>
      var out := RunEffect(ext, ProfileTable[l.currentProfile].callback, l.colors, l.fx);
      r == l.(colors := out.colors, fx := out.fx)
  {
    if l.foregroundColorSet then l
    else
      var out := RunEffect(ext, ProfileTable[l.currentProfile].callback, l.colors, l.fx);
      l.(colors := out.colors, fx := out.fx)
  }

  /** The pending profile call that opens a cycle boundary: when one is
      due, the current profile's callback runs exactly once and the flag is
      cleared; otherwise nothing changes. */
  function PendingCall(ext: Externals, l: Lights): (r: Lights)
    requires l.currentProfile < AmountOfProfiles
    ensures !r.needToCallbackProfile
    ensures !l.needToCallbackProfile ==> r == l
    ensures l.needToCallbackProfile ==>
      var out := RunEffect(ext, ProfileTable[l.currentProfile].callback, l.colors, l.fx);
      r == l.(needToCallbackProfile := false, colors := out.colors, fx := out.fx)
  {
    if l.needToCallbackProfile then
      var out := RunEffect(ext, ProfileTable[l.currentProfile].callback, l.colors, l.fx);
      l.(needToCallbackProfile := false, colors := out.colors, fx := out.fx)
    else l
  }

  /** The profile work of one column-cycle boundary of `mainCallback`: a
      pending profile call is consumed with exactly one callback, then on
      the last column of an animated profile the ticks advance, and on
      reaching the skip count they restart and the animation runs. */
  function CycleBoundary(ext: Externals, l: Lights, lastColumn: bool): (r: Lights)
    requires Valid(l)
    ensures Valid(r)
    ensures !r.needToCallbackProfile
    ensures r.currentProfile == l.currentProfile && r.currentSpeed == l.currentSpeed
    ensures r.animationSkipTicks == l.animationSkipTicks
    ensures r.ledIntensity == l.ledIntensity && r.foregroundColorSet == l.foregroundColorSet
    ensures !lastColumn || l.animationSkipTicks == 0 ==> r.animationTicks == l.animationTicks
    ensures lastColumn && l.animationSkipTicks > 0 ==>
      r.animationTicks == if l.animationTicks + 1 >= l.animationSkipTicks then 0 else l.animationTicks + 1
    ensures !lastColumn || l.animationSkipTicks == 0 ==> r == PendingCall(ext, l)
    ensures lastColumn && l.animationSkipTicks > 0 ==>
      var called := PendingCall(ext, l);
      r == if l.animationTicks + 1 >= l.animationSkipTicks
           then AnimationCallback(ext, called.(animationTicks := 0))
           else called.(animationTicks := l.animationTicks + 1)
  {
    var called := PendingCall(ext, l);
    if l.animationSkipTicks > 0 && lastColumn then
      var ticks := Wrap16(called.animationTicks + 1);
      if ticks >= called.animationSkipTicks then AnimationCallback(ext, called.(animationTicks := 0))
      else called.(animationTicks := ticks)
    else called
  }

  /** One boundary on the last column of an animated profile with no
      pending call: the animation runs, with the ticks restarted, exactly
      when this boundary brings the ticks up to the skip count; on every
      other one only the tick counter moves. */
  lemma CadenceRunsEverySkip(ext: Externals, l: Lights)
    requires Valid(l) && l.animationSkipTicks > 0 && !l.needToCallbackProfile
    ensures l.animationTicks + 1 == l.animationSkipTicks ==>
      CycleBoundary(ext, l, true) == AnimationCallback(ext, l.(animationTicks := 0))
    ensures l.animationTicks + 1 != l.animationSkipTicks ==>
      CycleBoundary(ext, l, true) == l.(animationTicks := l.animationTicks + 1)
  {
  }

  /** n boundaries on the last column, one after another. */
  function LastColumnBoundaries(ext: Externals, l: Lights, n: nat): (r: Lights)
    requires Valid(l)
    ensures Valid(r) && r.animationSkipTicks == l.animationSkipTicks
    ensures r.currentProfile == l.currentProfile
  {
    if n == 0 then l else CycleBoundary(ext, LastColumnBoundaries(ext, l, n - 1), true)
  }

  /** The tick counter of an animated profile counts last-column
      boundaries modulo the skip count, so the animation (which runs
      exactly when the counter returns to zero) fires on every skip-th
      boundary. */
  lemma {:induction false} TicksCountModSkip(ext: Externals, l: Lights, n: nat)
    requires Valid(l) && l.animationSkipTicks > 0
    ensures LastColumnBoundaries(ext, l, n).animationTicks
      == (l.animationTicks + n) % l.animationSkipTicks
  {
    if n > 0 {
      TicksCountModSkip(ext, l, n - 1);
      BoundaryStep(ext, l, n);
      CountStep(LastColumnBoundaries(ext, l, n - 1).animationTicks as nat,
                LastColumnBoundaries(ext, l, n).animationTicks as nat,
                l.animationTicks as nat + (n - 1), l.animationSkipTicks as nat);
    } else {
      ModOfMultiple(l.animationTicks as nat, l.animationSkipTicks as nat, 0, l.animationTicks as nat);
    }
  }

  lemma BoundaryStep(ext: Externals, l: Lights, n: nat)
    requires Valid(l) && l.animationSkipTicks > 0 && n > 0
    ensures LastColumnBoundaries(ext, l, n).animationTicks
      == (LastColumnBoundaries(ext, l, n - 1).animationTicks + 1) % l.animationSkipTicks
  {
    BoundaryTicks(ext, LastColumnBoundaries(ext, l, n - 1));
  }

  /** A counter kept modulo m follows its argument up by one. */
  lemma CountStep(before: nat, after: nat, a: nat, m: nat)
    requires m > 0 && before == a % m && after == (before + 1) % m
    ensures after == (a + 1) % m
  {
    ModOfSucc(a, m);
  }

  /** One last-column boundary of an animated profile adds one to the
      ticks modulo the skip count. */
  lemma BoundaryTicks(ext: Externals, l: Lights)
    requires Valid(l) && l.animationSkipTicks > 0
    ensures CycleBoundary(ext, l, true).animationTicks == (l.animationTicks + 1) % l.animationSkipTicks
  {
    var t, m := l.animationTicks as nat, l.animationSkipTicks as nat;
    if t + 1 >= m {
      ModOfMultiple(t + 1, m, 1, 0);
    } else {
      ModOfMultiple(t + 1, m, 0, t + 1);
    }
  }

  /** Taking the remainder before adding one does not change the
      remainder after. */
  lemma ModOfSucc(a: nat, m: nat)
    requires m > 0
    ensures (a % m + 1) % m == (a + 1) % m
  {
    ModStep(a, m);
    if a % m + 1 >= m {
      ModOfMultiple(a % m + 1, m, 1, 0);
    } else {
      ModOfMultiple(a % m + 1, m, 0, a % m + 1);
    }
  }

  /** Counting one further wraps at the modulus. */
  lemma ModStep(a: nat, m: nat)
    requires m > 0
    ensures (a + 1) % m == if a % m + 1 >= m then 0 else a % m + 1
  {
    var q := a / m;
    if a % m + 1 >= m {
      ModOfMultiple(a + 1, m, q + 1, 0);
    } else {
      ModOfMultiple(a + 1, m, q, a % m + 1);
    }
  }

  /** The remainder is determined by any quotient-remainder split. */
  lemma ModOfMultiple(x: nat, m: nat, q: nat, rest: nat)
    requires 0 <= rest < m && x == q * m + rest
    ensures x % m == rest
  {
    var q', r' := x / m, x % m;
    assert q * m + rest == q' * m + r';
    if q < q' {
      assert (q' - q) * m == rest - r';
      AtLeastOnce(q' - q, m);
    } else if q > q' {
      assert (q - q') * m == r' - rest;
      AtLeastOnce(q - q', m);
    }
  }

  lemma AtLeastOnce(d: nat, m: nat)
    requires d >= 1
    ensures d * m >= m
  {
    assert d * m == (d - 1) * m + m;
  }
}

=== FILE: settings.dfy ===
/** The active profile table and the lighting defaults. */
module Settings {
  import opened Bytes
  import opened Wrappers
  import opened Profiles

  /** The four selectable animation speeds of a profile: how many refresh
      cycles pass between two calls of its callback (all zero for a static
      effect). */
  type Speeds = s: seq<uint16> | |s| == 4 witness [0, 0, 0, 0]

  /** One profile: its render callback, its speeds, and the optional
      keypress and init hooks (present for the reactive effects). */
  datatype Profile = Profile(
    callback: Effect,
    animationSpeed: Speeds,
    keypressCallback: Option<Reactive>,
    profileInit: Option<Reactive>)

  const Static: Speeds := [0, 0, 0, 0]

  const ProfileTable: seq<Profile> := [
    Profile(White, Static, None, None),
    Profile(RedFill, Static, None, None),
    Profile(GreenFill, Static, None, None),
    Profile(BlueFill, Static, None, None),
    Profile(RainbowHorizontalFill, Static, None, None),
    Profile(RainbowVerticalFill, Static, None, None),
    Profile(RainbowVerticalAnimation, [35, 28, 21, 14], None, None),
    Profile(RainbowFlow, [7, 5, 2, 1], None, None),
    Profile(RainbowWaterfall, [7, 5, 2, 1], None, None),
    Profile(Breathing, [5, 3, 2, 1], None, None),
    Profile(Wave, [5, 3, 2, 1], None, None),
    Profile(Spectrum, [11, 6, 4, 1], None, None),
    Profile(ReactiveFade, [4, 3, 2, 1], Some(Fade), Some(Fade)),
    Profile(ReactivePulse, [4, 3, 2, 1], Some(Pulse), Some(Pulse))]

  /** `amountOfProfiles`: the number of table entries. */
  const AmountOfProfiles: uint8 := |ProfileTable| as uint8

  /** The power-on selection: first profile, fastest slot, full intensity. */
  const DefaultProfile: uint8 := 0
  const DefaultSpeed: uint8 := 0
  const DefaultIntensity: uint8 := 0

  /** A profile is reactive when it has a keypress hook. */
  predicate IsReactive(p: Profile) {
    p.keypressCallback.Some?
  }

  /** A profile is static when all four of its speeds are zero. */
  predicate IsStatic(p: Profile) {
    forall s | 0 <= s < 4 :: p.animationSpeed[s] == 0
  }

  /** The table holds fourteen profiles and the defaults select a valid
      profile and speed slot. */
  lemma TableSize()
    ensures AmountOfProfiles == 14
    ensures DefaultProfile < AmountOfProfiles && DefaultSpeed < 4
  {
  }

  /** The first six profiles are static; the other eight are animated,
      with positive speeds that do not increase from slot 0 to slot 3
      (later slots are faster or as fast). */
  lemma SpeedsShape()
    ensures forall i | 0 <= i < 6 :: IsStatic(ProfileTable[i])
    ensures forall i, s | 6 <= i < 14 && 0 <= s < 4 :: ProfileTable[i].animationSpeed[s] > 0
    ensures forall i, s | 6 <= i < 14 && 0 <= s < 3 ::
      ProfileTable[i].animationSpeed[s + 1] <= ProfileTable[i].animationSpeed[s]
  {
  }

  /** Exactly the last two profiles are reactive, and a profile has an init
      hook exactly when it has a keypress hook. */
  lemma ReactiveProfiles()
    ensures forall i | 0 <= i < 14 :: IsReactive(ProfileTable[i]) <==> i == 12 || i == 13
    ensures forall i | 0 <= i < 14 :: ProfileTable[i].profileInit.Some? <==> IsReactive(ProfileTable[i])
  {
  }
}

=== FILE: wrappers.dfy ===
/** An optional value, standing for the firmware's nullable pointers. */
module Wrappers {
  datatype Option<T> = None | Some(value: T)
}
